=== FILE: README.md ===
# Fraud scoring and pattern detection, modelled in Dafny

This project models the analytical core of a graph-backed fraud-detection
service:

- **Risk scoring.** Account and customer risk are built from independently
  capped factors and clamped to 100.
- **Detection queries.** The graph store's queries are restated as pure
  functions over an in-memory graph value:
  - three-transaction circular flows;
  - fan-out and fan-in over distinct counterparts;
  - money-mule throughput;
  - shared devices and IP addresses.
- **Patterns, rings and alerts.** The detection services turn query rows
  into transaction patterns, fraud rings and alerts.
- **Investigation service.** This is the layer an analyst uses: the
  dashboard, account and customer investigations, and the detection sweep
  that re-scores every account behind a flagged transaction. It also builds
  the account lists behind each pattern kind, recovering account ids from
  the evidence strings the detectors write.
- **Value objects and entity validators.** These are the records the rest
  is built on.

## Modelling choices

- **Time** is a whole number of minutes (`Base.Time`), and the caller
  passes the current time `now`. Python's `timedelta.days` becomes floor
  division by 1440.
- **Scores, amounts and confidences** are Dafny `real`s.
- **Rendering a float as text** (`f"{amount}"`, `:.1f`, `:.2f`) is a
  function parameter `show`. The model fixes no formatting.
- **The graph store** is a value of `Graph.Graph`. It holds sequences of
  account, customer, transaction, device and IP nodes, plus the OWNS and
  USED_DEVICE relationships. A transaction's `from`, `to` and `ip` fields
  stand for its DEBITED_FROM, CREDITED_TO and FROM_IP relationships.
- **Query result order.** Where a query has no `ORDER BY`, rows come in
  store order. `ORDER BY ... DESC` is a stable insertion sort
  (`Sorting.SortDesc`), which keeps store order among equal keys. Cypher
  promises no order among equal keys, so the contracts state key order,
  membership and multiplicity only; the three prefix lemmas listed under
  "Left out" are the exception.
- **Device and IP nodes are unique per value.** The shared-device and
  shared-IP queries group by the value `d.device_id` or `ip.ip_address`
  (neo4j_repositories.py:408, 418), while `GraphQueries.DeviceRows` and
  `GraphQueries.IpRows` emit one row per node of the graph. The two agree
  because the store creates these nodes with `MERGE` on that value, so no
  two nodes share it.
- **A Python `set` of ids** is a Dafny `set`. A loop over it picks its
  elements in an unspecified order.
- **Errors.** An exception, a validation error and an error dictionary are
  all `Base.Result.Err` with the message the source uses. An absent entity
  is `Base.Option.None`.
- **Ring and alert repositories.** Each store is a datatype with two
  variants:
  - an in-memory variant that keeps what is saved, which is the contract
    of the repository interface;
  - the graph adapter's placeholder, which stores nothing and whose lookups
    find nothing.
- **Three risk bandings** exist in the source, and each is modelled
  separately:
  - `ValueObjects.ScoreLevel` uses 30/60/85;
  - `Investigation.RiskCategory` uses 40/60/80;
  - the high-risk cut-offs are 70 (dashboard and sweep) and 60 (the
    high-risk account list).

Where the program's own text and its code disagree, the model follows the
code:

- **Circular flow.** The repository interface and the detection service
  pass a maximum cycle length of 8 (`src/domain/repositories.py:99-101`,
  `src/domain/services.py:128`). The query ignores both bounds: it matches
  only three-transaction cycles, and it returns every rotation as its own
  row (`GraphQueries.CycleRotations`).
- **High-risk threshold.** The repository interface documents
  `find_high_risk_accounts` as "above threshold"
  (`src/domain/repositories.py:40-41`). The query uses `>=`, and the model
  does too.

## Model

| member | source | states |
|---|---|---|
| Base.DaysBetween | src/domain/services.py:53 | whole days between two instants, rounded down: `d` days fit in the gap and `d + 1` do not |
| Text.SplitOnLength | src/domain/entities.py:151-152 | `s.split(c)` has exactly one more part than `s` has occurrences of `c` |
| Text.WordsOfJoin | src/application/fraud_investigation_service.py:309 | `split()` on words joined by single spaces gives the words back when they are non-empty and space-free |
| Text.BeforeFirstOfConcat | src/application/fraud_investigation_service.py:290 | `split(':')[0]` of `a + ":" + b` is `a` when `a` has no colon |
| Text.ReplaceLeading | src/application/fraud_investigation_service.py:290 | `replace(pat, '')` on `pat + s` gives `s` when `s` does not contain `pat` |
| Text.StripUntrimmed | src/application/fraud_investigation_service.py:290 | `strip()` leaves a string unchanged when it neither starts nor ends with whitespace |
| Text.ToLower | src/domain/entities.py:102 | lower-casing keeps the length and maps every character through the ASCII lower-case mapping |
| Text.LessTotal | src/infrastructure/neo4j_repositories.py:407 | the id order the shared-device query compares with orders any two different ids one way or the other |
| Text.LessAsymmetric | src/infrastructure/neo4j_repositories.py:407 | the id order never holds both ways, so a pair is matched in one orientation only |
| Entities.MakeAccount | src/domain/entities.py:59-69 | an account is accepted iff its risk score lies in [0, 100] and keeps the given fields |
| Entities.NewAccount | src/domain/entities.py:64-69 | the defaults are status ACTIVE, risk 0.0, currency USD and balance 0.0, created `now` |
| Entities.ValidateEmail | src/domain/entities.py:98-102 | an address is rejected iff it has no '@'; an accepted one is stored lower-cased character by character |
| Entities.ValidateEmailIdempotent | src/domain/entities.py:98-102 | validating a stored address again gives the same result |
| Entities.MakeCustomer | src/domain/entities.py:75-102 | a customer is accepted iff the e-mail validator accepts its address, and stores the validated address |
| Entities.NewCustomer | src/domain/entities.py:87-89 | the defaults are KYC PENDING and risk level LOW, customer since `now` |
| Entities.FullName | src/domain/entities.py:94-96 | the full name is the first name, one space, then the last name |
| Entities.MakeTransaction | src/domain/entities.py:105-121 | a transaction is accepted iff amount > 0 and its fraud score lies in [0, 1] |
| Entities.NewTransaction | src/domain/entities.py:109-116 | the defaults are not flagged, COMPLETED and USD, so only the amount can be rejected |
| Entities.ValidateIp | src/domain/entities.py:149-154 | an address is accepted iff it has exactly three dots (four parts), with no check on the octets, and is stored unchanged |
| Entities.MakeIpAddress | src/domain/entities.py:138-154 | an IP node is accepted iff the validator accepts the address and its risk score lies in [0, 1] |
| Entities.MakeFraudRing | src/domain/entities.py:177-186 | a ring is accepted iff its confidence lies in [0, 1]; it starts INVESTIGATING |
| Entities.NewAlert | src/domain/entities.py:192-202 | a new alert is unresolved and unassigned, with no resolution time |
| ValueObjects.MakeMoney | src/domain/value_objects.py:11-14 | money is accepted iff the amount is not negative |
| ValueObjects.AddMoney | src/domain/value_objects.py:22-25 | addition fails iff the currencies differ; otherwise the amount is the sum in the same currency |
| ValueObjects.SubMoney | src/domain/value_objects.py:27-32 | subtraction fails iff the currencies differ or the result would be negative; otherwise it is the difference |
| ValueObjects.AddThenSub | src/domain/value_objects.py:22-32 | subtracting what was just added gives the original money back |
| ValueObjects.SubThenAdd | src/domain/value_objects.py:22-32 | adding back what was subtracted gives the original money back |
| ValueObjects.AddCommutes | src/domain/value_objects.py:22-25 | addition succeeds and sums the same either way round |
| ValueObjects.AddressText | src/domain/value_objects.py:46-51 | the address text is street, city, [state], postal code and country joined by ", "; a missing or empty state is left out |
| ValueObjects.MakeDateRange | src/domain/value_objects.py:62-66 | a range is rejected iff its end is before its start |
| ValueObjects.DateRangeBounds | src/domain/value_objects.py:68-72 | `contains` includes both ends and nothing outside them; the duration is never negative |
| ValueObjects.MakeRiskScore | src/domain/value_objects.py:75-79 | a score is accepted iff it lies in [0, 100] |
| ValueObjects.ScoreLevel | src/domain/value_objects.py:84-93 | the level is LOW below 30, MEDIUM below 60, HIGH below 85 and CRITICAL otherwise, each band stated both ways |
| ValueObjects.ScoreLevelMonotone | src/domain/value_objects.py:84-93 | a higher score never gets a lower level |
| ValueObjects.MakePattern | src/domain/value_objects.py:96-101 | a pattern is accepted iff its confidence lies in [0, 1] |
| ValueObjects.MakeLocation | src/domain/value_objects.py:118-128 | a location is rejected iff a present latitude is outside [-90, 90] or a present longitude is outside [-180, 180] |
| ValueObjects.MakeConnectionStrength | src/domain/value_objects.py:149-154 | a strength is accepted iff it lies in [0, 1] |
| ValueObjects.StrongWeakExclusive | src/domain/value_objects.py:159-165 | no connection is both strong (> 0.7) and weak (< 0.3); one in [0.3, 0.7] is neither |
| Scoring.VelocityPoints | src/domain/services.py:36-39 | no points up to ten transactions in the hour, then twice the count capped at 30, so at least 22 |
| Scoring.FlaggedPoints | src/domain/services.py:46-50 | five points per flagged transaction, capped at 25 |
| Scoring.AccountAgePoints | src/domain/services.py:53-57 | only under 30 days, 15 minus half a point per day, so in (0, 15] for an age in [0, 30) |
| Scoring.StatusPoints | src/domain/services.py:60-63 | 20 points exactly for a suspended account |
| Scoring.HighValuePoints | src/domain/services.py:66-70 | two points per transaction above 10000, capped at 10 |
| Scoring.AccountFactors | src/domain/services.py:27-70 | each factor appears iff its rule fires |
| Scoring.AccountPoints | src/domain/services.py:27-71 | the uncapped sum is zero iff no factor is listed; suspension gives at least 20 and high velocity at least 22 |
| Scoring.AccountAssessment | src/domain/services.py:27-72 | the score is min(100, the sum of the factor points), so it lies in [0, 100]; it is zero iff there are no factors; suspension gives at least 20 and more than ten transactions in the hour at least 22 |
| Scoring.AccountRisk | src/domain/services.py:72 | the rendered score is a valid RiskScore stamped `now`, with one text per factor |
| Scoring.AccountAssessmentReads | src/domain/services.py:27-72 | the account score depends only on the transactions and the account's id, creation time and status, not on its stored score |
| Scoring.SuspensionNeverLowers | src/domain/services.py:59-63 | suspending an account never lowers its score |
| Scoring.ElevenInAnHour | src/domain/services.py:36-38 | eleven transactions in the hour add 22 points, and ten add nothing |
| Scoring.KycPoints | src/domain/services.py:80-87 | failed KYC adds 25, pending adds 15 and verified adds 0 |
| Scoring.AverageRisk | src/domain/services.py:90-91 | the mean stored risk of valid accounts lies in [0, 100] |
| Scoring.AccountRiskPoints | src/domain/services.py:89-93 | 30 times the mean risk over 100 with accounts, nothing without, so in [0, 30] |
| Scoring.CustomerAgePoints | src/domain/services.py:98-102 | only under 60 days, 15 minus a quarter point per day |
| Scoring.AccountCountPoints | src/domain/services.py:105-108 | nothing up to five accounts, then two per extra account capped at 10 |
| Scoring.CustomerFactors | src/domain/services.py:80-108 | each customer factor appears iff its rule fires; the average-risk text appears iff the mean exceeds 50 |
| Scoring.CustomerFactorsEmpty | src/domain/services.py:80-108 | no factor is given iff KYC is verified, the mean risk is at most 50, the customer is at least 60 days old and has at most five accounts |
| Scoring.CustomerAssessment | src/domain/services.py:74-110 | the score is min(100, KYC + account-risk + age + account-count points); for a customer whose start is not in the future that sum is at most 80 and is the score itself; failed KYC gives at least 25; a zero score has no factors |
| Scoring.CustomerPoints | src/domain/services.py:80-108 | the uncapped customer sum is at least each of its four parts, and at most 25 + 30 + 15 + 10 = 80 once the customer's start is not in the future |
| Scoring.KycNeverLowers | src/domain/services.py:80-110 | a KYC status worth more points never lowers the customer score, all else equal |
| Scoring.CustomerRisk | src/domain/services.py:110 | the rendered customer score is valid, with one text per factor |
| Scoring.FailedKycAlone | src/domain/services.py:80-110 | a customer with failed KYC, no accounts and at least 60 days scores exactly 25 with the one factor "KYC verification failed" |
| Graph.FindAccount | src/infrastructure/neo4j_repositories.py:47-54 | an account lookup finds something iff an account has the id, and what it finds has that id |
| Graph.FindAccountByNumber | src/infrastructure/neo4j_repositories.py:56-63 | a lookup by number finds a stored account with that number, or reports that none has it |
| Graph.FindCustomer | src/infrastructure/neo4j_repositories.py:129-136 | a customer lookup finds a stored customer with the id, or reports that none has it |
| Graph.FindCustomerByEmail | src/infrastructure/neo4j_repositories.py:138-145 | the e-mail is lower-cased before matching, and the result is found iff a customer has that address |
| Graph.ReadBack | src/infrastructure/neo4j_repositories.py:329-342 | a transaction read back keeps its properties; each account end is kept when it is a non-empty id and reads as absent otherwise; merchant, device and IP are lost |
| Graph.FindTransaction | src/infrastructure/neo4j_repositories.py:222-235 | a transaction lookup returns a stored transaction with the id as read back, or reports that none has it |
| Graph.FindStoredTransaction | src/infrastructure/neo4j_repositories.py:222-235 | with unique ids, looking up a stored transaction's id returns that transaction |
| Graph.AccountsOfCustomer | src/infrastructure/neo4j_repositories.py:65-72 | for a known customer, every stored account whose id the customer OWNS is returned and nothing else is; an unknown customer has none |
| Graph.AccountsOfCustomerExact | src/domain/repositories.py:34-37 | with unique account ids, an account is returned for a known customer iff it is stored and the customer OWNS it |
| Graph.OwnedAccountsIgnoreRisk | src/infrastructure/neo4j_repositories.py:65-91 | changing risk scores alone keeps a customer's account list the same length, with the same accounts apart from their scores |
| Graph.AccountRows | src/infrastructure/neo4j_repositories.py:237-256 | a transaction is a row iff it debits or credits the account within the inclusive optional bounds |
| Graph.FindByAccount | src/infrastructure/neo4j_repositories.py:237-256 | exactly the transactions touching the account within the bounds, newest first, with one row per matching relationship (a self-transfer twice), as the row listing has |
| Graph.CountInTimeframe | src/infrastructure/neo4j_repositories.py:316-327 | the count is zero iff no transaction at or after `now - minutes` touches the account |
| Graph.CountMatchesRows | src/infrastructure/neo4j_repositories.py:316-327 | the count equals the number of rows the account's transaction listing gives from the same cutoff |
| Graph.CountSinceMonotone | src/infrastructure/neo4j_repositories.py:316-327 | a longer window never counts fewer transactions |
| Graph.VelocityIsRowCount | src/infrastructure/neo4j_repositories.py:316-327 | the velocity count equals the length of the `find_by_account` result from the cutoff on |
| Graph.FlaggedRows | src/infrastructure/neo4j_repositories.py:258-269 | a row is read back from the store iff it is a flagged transaction |
| Graph.FindFlagged | src/infrastructure/neo4j_repositories.py:258-270 | flagged stored transactions read back, newest first, min(limit, number flagged) of them; nothing left out is newer than anything kept; all of them when there are no more than `limit` |
| Graph.FindFlaggedKeepsNewest | src/infrastructure/neo4j_repositories.py:266-267 | a flagged transaction that is left out is no newer than any that is kept |
| Graph.FindFlaggedPrefix | src/infrastructure/neo4j_repositories.py:266-267 | a smaller limit returns as many rows or fewer, with the same timestamps position by position whatever order ties take; exact prefix equality relies on store order among ties |
| Graph.CountFlaggedAppend | src/application/fraud_investigation_service.py:114 | the flagged count of two listings together is the sum of their flagged counts |
| Graph.CountFlaggedPermutation | src/application/fraud_investigation_service.py:114 | reordering a listing never changes how many of its rows are flagged |
| Graph.CountFlaggedSince | src/application/fraud_investigation_service.py:114 | the flagged transactions touching an account since the cutoff are at most all of them, and none iff no flagged one touches it in the window |
| Graph.FlaggedInWindow | src/application/fraud_investigation_service.py:89-114 | the flagged rows of the account's listing from the cutoff are exactly as many as its flagged transactions in the window |
| Graph.FindHighRiskAccounts | src/infrastructure/neo4j_repositories.py:74-83 | exactly the accounts whose score is at least the threshold, highest first, as many as there are such accounts |
| Graph.UpdateRiskScore | src/infrastructure/neo4j_repositories.py:85-91 | every account with the id gets the new score; no other field, account or node changes |
| Graph.UpdateThenFind | src/infrastructure/neo4j_repositories.py:85-91 | after the update, a lookup of the id sees the new score and lookups of other ids are unchanged |
| Graph.FindAccountIgnoresRisk | src/infrastructure/neo4j_repositories.py:47-54 | changing risk scores alone changes neither whether an id is found nor anything of the account found other than its score |
| GraphQueries.NodeProps | src/infrastructure/neo4j_repositories.py:299-309 | a cycle transaction is built from its node properties alone, so it carries no account ends |
| GraphQueries.CycleRows | src/infrastructure/neo4j_repositories.py:282-291 | a row is matched iff it is three flagged transactions A→B→C→A over three different accounts |
| GraphQueries.FindCircular | src/infrastructure/neo4j_repositories.py:272-314 | only three-leg cycles, at most 100 of them; a minimum length above 3 gives nothing; every matched cycle when there are at most 100 |
| GraphQueries.CycleRotations | src/infrastructure/neo4j_repositories.py:282-293 | every rotation of a matched cycle is matched as a separate row |
| GraphQueries.Window | src/infrastructure/neo4j_repositories.py:355-356 | the fan queries keep exactly the transactions with both account ends present, timestamped at or after the cutoff |
| GraphQueries.DistinctPartners | src/infrastructure/neo4j_repositories.py:357 | `count(DISTINCT ...)` counts each counterpart once |
| GraphQueries.GroupKeys | src/infrastructure/neo4j_repositories.py:357 | one group per account that occurs on the grouped side, each once |
| GraphQueries.FanRows | src/infrastructure/neo4j_repositories.py:357-359 | a row per group whose distinct count reaches the minimum, carrying that count |
| GraphQueries.DetectFan | src/infrastructure/neo4j_repositories.py:350-380 | per account, the distinct recipients (fan-out) or senders (fan-in) since the cutoff, kept when at least the minimum, highest count first; an account's rows all agree |
| GraphQueries.DetectFanOneRowPerAccount | src/infrastructure/neo4j_repositories.py:357-359 | the aggregation yields one row per grouping key: no two rows have the same account |
| GraphQueries.FanCountsAreDistinctRecipients | src/infrastructure/neo4j_repositories.py:355-358 | a fan-out row's count is its number of distinct recipients in the window |
| GraphQueries.HoldHours | src/infrastructure/neo4j_repositories.py:388 | the corrected hold time: the elapsed minutes truncated toward zero to whole hours |
| GraphQueries.HourComponent | src/infrastructure/neo4j_repositories.py:388 | the hour part of `duration.between(...)` as written lies in (-24, 24): the whole elapsed hours modulo 24, with the sign of the gap |
| GraphQueries.HourFilterNeverExcludes | src/infrastructure/neo4j_repositories.py:386-388 | as written, with a limit of 23 or more (the query uses 48) every incoming/outgoing pair of the account is joined |
| GraphQueries.FiftyHourHold | src/infrastructure/neo4j_repositories.py:386-388 | a 50-hour hold has hour part 2 and is joined as written, while the corrected 48-hour filter drops it |
| GraphQueries.HoldPairs | src/infrastructure/neo4j_repositories.py:386-388 | under the corrected reading, the joined rows are exactly the (incoming, outgoing) pairs of the account held at most the limit |
| GraphQueries.DetectMules | src/infrastructure/neo4j_repositories.py:382-400 | an account is reported iff incoming ≥ the threshold and \|in − out\| / in < 0.1, with both sums taken over the joined pairs |
| GraphQueries.IncomingCountedPerPair | src/infrastructure/neo4j_repositories.py:386-389 | an incoming transaction is summed once per outgoing transaction it pairs with |
| GraphQueries.SplitForwardingIsNotMule | src/infrastructure/neo4j_repositories.py:386-390 | 10000 in forwarded as two 5000 outs sums to 20000 in and 10000 out, which fails the mule test a single 10000 out would pass |
| GraphQueries.DevicePairsOriented | src/infrastructure/neo4j_repositories.py:406-407 | device pairs have no self-pair and each unordered pair of users appears in exactly one orientation |
| GraphQueries.IpPairsOriented | src/infrastructure/neo4j_repositories.py:414-417 | IP pairs have no self-pair and never appear in both orientations |
| GraphQueries.DeviceHasPairs | src/infrastructure/neo4j_repositories.py:406-407 | a device has a matched pair iff it has at least two users |
| GraphQueries.UserCount | src/infrastructure/neo4j_repositories.py:409-410 | the distinct user count never exceeds the count the query writes |
| GraphQueries.DeviceRowMembers | src/infrastructure/neo4j_repositories.py:406-410 | for a device with two or more users, the collected ids are exactly its users and the distinct count is their number |
| GraphQueries.UserCountOvercounts | src/infrastructure/neo4j_repositories.py:409-410 | three users of one device give a written count of 4 and a distinct count of 3 |
| GraphQueries.DeviceRows | src/infrastructure/neo4j_repositories.py:404-410 | one row per device with a matched pair, and only such rows |
| GraphQueries.IpRows | src/infrastructure/neo4j_repositories.py:412-419 | one row per address with a matched pair, and only such rows |
| GraphQueries.FindSharedInfrastructure | src/infrastructure/neo4j_repositories.py:402-422 | "device" gives exactly the rows of devices with two or more users; any other kind gives exactly the rows of addresses with a matched pair, each with both sides non-empty |
| Detection.CircularPattern | src/domain/services.py:131-140 | a circular pattern has confidence 0.8 and one "Transaction id: amount" line per cycle transaction |
| Detection.DetectCircularFlow | src/domain/services.py:123-142 | one pattern per cycle the store returns, each with three evidence lines, at most 100 |
| Detection.FanConfidence | src/domain/services.py:155 | the confidence is count/10 capped at 0.9 |
| Detection.FanConfidenceMonotone | src/domain/services.py:155 | more counterparts never give less confidence |
| Detection.FanConfidenceExamples | src/domain/services.py:155 | five counterparts give 0.5 and twelve give 0.9 |
| Detection.FanPattern | src/domain/services.py:153-160 | a fan pattern has the direction's type, the capped confidence and the two evidence lines |
| Detection.DetectFanPatterns | src/domain/services.py:144-184 | one pattern per query row, in row order, so confidences are non-increasing |
| Detection.DetectMuleAccounts | src/domain/services.py:186-191 | exactly the stored accounts passing the mule test at 10000 and 48 hours |
| Detection.DetectSharedInfrastructure | src/domain/services.py:193-198 | the device rows are exactly those of devices with two or more users, and the IP rows exactly those of addresses with a matched pair |
| Detection.CreateRingFromPattern | src/domain/services.py:209-230 | the ring copies the pattern's confidence and type, counts the related entities, is saved and linked to each entity as a participant |
| Detection.LinkAll | src/domain/services.py:222-228 | linking appends one participant link per entity, in order, in memory and nothing through the placeholder |
| Detection.UpdateRingStatus | src/domain/services.py:232-241 | an unknown ring gives None and changes nothing; a known one takes any status and gains a note line only for non-empty notes |
| Detection.PlaceholderUpdateIsNone | src/infrastructure/neo4j_repositories.py:506-507 | through the placeholder store the status update always gives None |
| Detection.UpdateStatusTwice | src/domain/services.py:232-241 | two updates without notes equal one update with the second status |
| Detection.Severity | src/domain/services.py:264-273 | CRITICAL from 0.9, HIGH from 0.7, MEDIUM from 0.5, LOW below, each band stated both ways |
| Detection.SeverityMonotone | src/domain/services.py:264-273 | a more confident pattern never gets a lower severity |
| Detection.CreateAlertFromPattern | src/domain/services.py:250-262 | the alert copies the type and related entities, takes the confidence's severity and starts unresolved |
| Detection.PatternSeverities | src/domain/services.py:264-273 | circular patterns give HIGH alerts; fan patterns give CRITICAL from nine counterparts and LOW below five |
| Stores.FindRing | src/infrastructure/neo4j_repositories.py:506-507 | the placeholder finds nothing; memory finds a ring iff one has the id |
| Stores.SaveRing | src/infrastructure/neo4j_repositories.py:503-504 | save hands the ring back; memory then finds it by id and other ids are unaffected |
| Stores.ActiveRings | src/infrastructure/neo4j_repositories.py:509-510 | the placeholder lists none; memory lists exactly the rings under investigation |
| Stores.LinkToRing | src/infrastructure/neo4j_repositories.py:515-516 | a link is recorded in memory and dropped by the placeholder; no ring changes |
| Stores.UnresolvedAlerts | src/infrastructure/neo4j_repositories.py:529-530 | the placeholder lists none; memory lists exactly the unresolved alerts |
| Stores.SaveAlert | src/infrastructure/neo4j_repositories.py:523-524 | save hands the alert back; in memory a new unresolved alert is then listed |
| Stores.CountAppendAlert | src/infrastructure/neo4j_repositories.py:523-530 | saving an alert adds one to the unresolved count iff it is unresolved, and one to the critical-open count iff it is also CRITICAL |
| Investigation.RiskCategory | src/application/fraud_investigation_service.py:29-38 | CRITICAL from 80, HIGH from 60, MEDIUM from 40, LOW below, each band stated both ways |
| Investigation.RiskCategoryMonotone | src/application/fraud_investigation_service.py:29-38 | a higher score never falls in a lower category |
| Investigation.CountCritical | src/application/fraud_investigation_service.py:77-78 | the critical count is zero iff no listed alert is CRITICAL |
| Investigation.CriticalOfUnresolved | src/application/fraud_investigation_service.py:70-78 | counting CRITICAL among the unresolved alerts gives the number of alerts that are both unresolved and CRITICAL |
| Investigation.Dashboard | src/application/fraud_investigation_service.py:65-80 | flagged is min(1000, the number of flagged transactions); high risk is the number of accounts scoring at least 70; active rings, unresolved alerts and unresolved CRITICAL alerts are the store's counts (0 through the placeholders); each is zero iff nothing of its kind exists |
| Investigation.DashboardAfterSave | src/application/fraud_investigation_service.py:65-80 | saving an alert raises the unresolved count by one iff it is unresolved and the critical count by one iff it is also CRITICAL; the other counts stay |
| Investigation.InvestigateAccount | src/application/fraud_investigation_service.py:82-121 | an error "Account not found" iff no account has the id; otherwise the report on that account |
| Investigation.InvestigationOf | src/application/fraud_investigation_service.py:88-121 | the report carries the fresh score, the 30-day count, the number of flagged rows in the 30-day listing, and hour ≤ day ≤ 30-day velocities |
| Investigation.RecentTransactions | src/application/fraud_investigation_service.py:89-119 | the newest min(10, count) rows of the account's last-30-day listing, newest first, each a row of that listing; nothing left out is newer than anything kept; the whole listing when it has at most ten rows |
| Investigation.RecentKeepsNewest | src/application/fraud_investigation_service.py:89-119 | a last-30-day transaction of the account that is not shown is no newer than any that is shown |
| Investigation.VelocityNested | src/application/fraud_investigation_service.py:98-103 | the one-hour count is within the day's, which is within the thirty days' |
| Investigation.InvestigateCustomer | src/application/fraud_investigation_service.py:123-148 | an error "Customer not found" iff the customer is missing; otherwise every stored account the customer OWNS and only those, their count, a score of min(100, the customer points) stamped `now`, and the sum of their balances |
| Investigation.InvestigateCustomerAfterUpdate | src/application/fraud_investigation_service.py:123-148 | re-scoring any account changes neither whether the customer is found nor the number, ids or total balance of its accounts |
| Investigation.SweepIds | src/application/fraud_investigation_service.py:199-204 | an id is collected iff it is a non-empty end of some fetched flagged transaction |
| Investigation.NamedEnds | src/application/fraud_investigation_service.py:201-204 | the ends a truthiness test keeps: the non-empty account ids at either end of a transaction |
| Investigation.FreshScoreOf | src/application/fraud_investigation_service.py:209-213 | the score computed for an id lies in [0, 100]: the assessment of a stored account with that id, or 0 when there is none |
| Investigation.Rescored | src/application/fraud_investigation_service.py:209-213 | every account whose id was swept takes its fresh score, and every other account is unchanged |
| Investigation.Summaries | src/application/fraud_investigation_service.py:158-178 | one summary per pattern, in order, with its type, confidence and number of evidence lines |
| Investigation.PatternReportOf | src/application/fraud_investigation_service.py:150-193 | one circular summary per matched cycle (confidence 0.8, three lines); one fan summary per fan row, with that row's capped confidence (in [0.5, 0.9], two lines); mules are exactly the accounts passing the test; the shared counts are the device and IP row counts of the query |
| Investigation.FanSummaryBounds | src/application/fraud_investigation_service.py:165-178 | with a minimum of five counterparts every fan confidence is at least 0.5 |
| Investigation.SweepOne | src/application/fraud_investigation_service.py:209-221 | one sweep step re-scores the id if it names an account and reports whether it was found and scored at least 70 |
| Investigation.CountStep | src/application/fraud_investigation_service.py:215-221 | sweeping one more id adds one to each count it qualifies for |
| Investigation.Sweep | src/application/fraud_investigation_service.py:195-228 | evaluated = ids collected, updated = those naming accounts, high = those scoring ≥ 70, high ≤ updated ≤ evaluated, and only those accounts' scores change |
| Investigation.RescoredStep | src/application/fraud_investigation_service.py:212-213 | storing one more fresh score is one `update_risk_score` |
| Investigation.RescoredAssessment | src/application/fraud_investigation_service.py:210-212 | after partial re-scoring, an id is still found iff it was, and scoring it again gives its fresh score |
| Investigation.RescoredScoresAreCurrent | src/application/fraud_investigation_service.py:209-213 | after the sweep, each swept account's stored score equals what scoring it again computes |
| Investigation.DetailCounts | src/application/fraud_investigation_service.py:362-375 | a detail row counts the account's last-seven-day transactions and, among them, the flagged ones |
| Investigation.Detail | src/application/fraud_investigation_service.py:250-259 | a detail row copies the id, number, score, status and balance, and takes the 40/60/80 category of the score |
| Investigation.AddDetail | src/application/fraud_investigation_service.py:360-376 | one step of the detail loop appends a row iff the id names an account |
| Investigation.AccountDetails | src/application/fraud_investigation_service.py:356-380 | one row per id naming an account, and nothing else, sorted by stored risk descending |
| Investigation.DetailsMembers | src/application/fraud_investigation_service.py:242-261 | the detail rows of a list are exactly the rows of its accounts |
| Investigation.HighRiskAccountList | src/application/fraud_investigation_service.py:238-261 | rows of accounts scoring ≥ 60 (so HIGH or CRITICAL), highest first, min(limit, number scoring ≥ 60) of them for limit ≥ 0; no high-risk account left out outscores a kept row; all of them when there are no more than `limit` |
| Investigation.HighRiskSlice | src/application/fraud_investigation_service.py:240 | `[:limit]` of the sorted high-risk accounts gives sorted rows of stored high-risk accounts, min(limit, their number) of them for limit ≥ 0, all of them when they fit |
| Investigation.HighRiskTop | src/application/fraud_investigation_service.py:240 | after `[:limit]`, no high-risk account left out outscores a kept row |
| Investigation.HighRiskListPrefix | src/application/fraud_investigation_service.py:238-240 | a smaller limit lists as many rows or fewer, with the same risk scores position by position whatever order ties take; exact prefix equality relies on store order among ties |
| Investigation.MuleAccountDetails | src/application/fraud_investigation_service.py:331-354 | one row per detected mule, in the detector's order |
| Investigation.MuleRowsAreMules | src/application/fraud_investigation_service.py:331-354 | the mule rows are the detail rows of exactly the stored accounts passing the mule test |
| Investigation.EvidenceTxnId | src/application/fraud_investigation_service.py:289-290 | an id is parsed iff the line contains "Transaction" |
| Investigation.EvidenceTxnIdRoundTrip | src/application/fraud_investigation_service.py:287-290 | parsing the evidence line written for a transaction gives its id back when the id has no colon and no surrounding space |
| Investigation.EvidenceNamesAccounts | src/application/fraud_investigation_service.py:289-296 | with unique ids, an evidence line leads back to exactly the non-empty account ends of the stored transaction |
| Investigation.CircularPatternAccounts | src/application/fraud_investigation_service.py:285-296 | the three evidence lines of a cycle lead to exactly the non-empty account ends of its three transactions |
| Investigation.EvidenceAccounts | src/application/fraud_investigation_service.py:289-296 | every id collected from one evidence line is a non-empty end of a stored transaction |
| Investigation.CircularAccountIds | src/application/fraud_investigation_service.py:284-296 | every id collected from the circular patterns is a non-empty end of a stored transaction |
| Investigation.CircularFlowAccounts | src/application/fraud_investigation_service.py:279-298 | exactly one row per collected evidence id that names an account: each row is that account's detail, with a non-empty id at an end of a stored transaction, and every such id gets one; highest risk first |
| Investigation.EvidenceUuids | src/application/fraud_investigation_service.py:307-312 | only lines containing "Account" yield ids, and only 36-character words with a hyphen |
| Investigation.HeadlineUuids | src/application/fraud_investigation_service.py:307-312 | the first fan evidence line yields exactly its account id when that looks like an id |
| Investigation.TotalLineUuids | src/application/fraud_investigation_service.py:307-312 | the total line yields no id when the rendered total does not look like one |
| Investigation.FanEvidenceNamesAccount | src/application/fraud_investigation_service.py:305-312 | a fan pattern's evidence yields exactly its account id |
| Investigation.FanAccountIds | src/application/fraud_investigation_service.py:304-312 | every id collected from fan evidence is a 36-character word containing a hyphen |
| Investigation.FanAccounts | src/application/fraud_investigation_service.py:300-329 | exactly one row per id-like evidence word that names an account: each row is that account's detail, and every such word gets one; highest risk first |
| Investigation.SharedInfrastructureDetails | src/application/fraud_investigation_service.py:418-430 | corrected: one row per query row, in order, each the distinct-member detail of that row; a device row lists exactly the device's users, each counted once |
| Investigation.InfraDetailOf | src/application/fraud_investigation_service.py:425-427 | corrected: the members are the ids on either side, and the count is their number |
| Investigation.InfraListingOf | src/application/fraud_investigation_service.py:425-427 | as written: the count is the length of the concatenated id lists, and each id is listed once per side it appears on |
| Investigation.SharedInfrastructureListing | src/application/fraud_investigation_service.py:418-430 | as written: one listing per query row, in order, each the concatenated-list listing of that row |
| Investigation.ListingOvercounts | src/application/fraud_investigation_service.py:425-427 | per row, the as-written listing has the corrected row's id and sharers, counts at least as many, and counts the same iff no id is on both sides |
| Investigation.ThreeUsersListed | src/application/fraud_investigation_service.py:425-427 | three users a, b, c of one device are reported as 4 and [a, b, b, c] as written, and as 3 and {a, b, c} corrected |
| Investigation.DeviceDetails | src/application/fraud_investigation_service.py:423-428 | every device detail names a stored device with two or more users and lists exactly them |
| Investigation.SearchEntities | src/application/fraud_investigation_service.py:432-452 | an account by number, else by id; a customer by lower-cased e-mail, else by id; any other kind finds nothing; at most one result |
| Sorting.SortDesc | src/infrastructure/neo4j_repositories.py:80 | the result is sorted by key, descending, and is a permutation of the input |
| Sorting.SortDescMembers | src/application/fraud_investigation_service.py:379 | sorting keeps exactly the same members |
| Sorting.Top | src/infrastructure/neo4j_repositories.py:266-267 | `ORDER BY key DESC LIMIT n` keeps min(n, size) elements, sorted, drawn from the input with multiplicity; nothing left out outranks anything kept; all of the input when it fits |
| Sorting.TopPrefix | src/infrastructure/neo4j_repositories.py:266-267 | a smaller limit keeps as many elements or fewer, with the same keys position by position whatever order ties take; exact prefix equality relies on store order among ties |
| Sorting.SliceTop | src/application/fraud_investigation_service.py:240 | `[:n]` of a sorted list is sorted, drawn from it with multiplicity, and nothing dropped outranks anything kept |

## Findings

| source | as written | input that shows it | evidently intended | confidence | as-written member | corrected member |
|---|---|---|---|---|---|---|
| src/infrastructure/neo4j_repositories.py:409-410 | `user_count` is `count(DISTINCT c1) + count(DISTINCT c2)` and `customer_ids` concatenates the two collected lists, so a customer on both sides of the `c1 < c2` pairs is counted twice | three customers a < b < c on one device: the first ids are {a, b} and the second are {b, c}, so the count is 4 for 3 users; `get_shared_infrastructure_details` then reports `len(customer_ids)` = 4 | the number of distinct customers sharing the device, 3 | not executed | GraphQueries.UserCountAsWritten, shown by GraphQueries.UserCountOvercounts | GraphQueries.UserCount, proved by GraphQueries.DeviceRowMembers; used in Investigation.SharedInfrastructureDetails |
| src/infrastructure/neo4j_repositories.py:388 | `duration.between(t_in.timestamp, t_out.timestamp).hours <= 48` reads the hour component of a months/days/seconds duration, which stays below 24, so the filter never excludes a pair | money in at time t and out at t + 50 hours: the hour component is 2, so the pair is joined | pairs held at most 48 hours in total | not executed | GraphQueries.HourComponent, shown by GraphQueries.HourFilterNeverExcludes and GraphQueries.FiftyHourHold | GraphQueries.HoldHours and GraphQueries.HoldPairs, used by GraphQueries.DetectMules |
| src/application/fraud_investigation_service.py:426-427 | `len(customer_ids or account_ids)` and the listed ids are taken over the concatenation of the two collected lists, so an id found on both sides of the pairs is counted and listed twice | three customers a < b < c on one device: the detail reports 4 and [a, b, b, c] | the number and the ids of the distinct sharers, 3 and {a, b, c} | not executed | Investigation.InfraListingOf and Investigation.SharedInfrastructureListing, shown by Investigation.ThreeUsersListed | Investigation.InfraDetailOf and Investigation.SharedInfrastructureDetails, related by Investigation.ListingOvercounts |

## Left out

- I/O is not modelled: the Neo4j driver, sessions, Cypher execution, node
  conversion (`to_native`), Flask routes, the command-line scripts and the
  synthetic data generators.
- The graph value is given, so the write paths are not modelled. These are
  the MERGE-based `save` of accounts, customers and transactions, and index
  creation.
- Floating point is not modelled: reals replace IEEE doubles, so rounding
  in sums, averages and `count / 10` is not modelled. Rendering a float as
  text is a parameter (`show`).
- The wall clock is a parameter. Time is whole minutes with an explicit
  `now`; time zones and `isoformat` are left out. Ring note stamps and the
  dashboard timestamp take the caller's values.
- Ids are parameters. Generated ids (`uuid4`) and report ids are supplied
  by the caller.
- `find_connected_customers` (a depth-2 traversal over any relationship)
  is left out. The customer investigation therefore carries no connected
  customers.
- `calculate_connection_path` and `get_entity_neighborhood` are left out.
  They are stubs with constant results, and the account investigation
  carries no neighbourhood.
- The device, IP and merchant repositories are left out. Their placeholder
  methods return the argument, `None` or `[]`, and the core does not call
  them.
- Alert `find_by_id`, `find_by_severity` and ring `link_customer_to_ring`
  are left out, because the core does not call them.
- `create_investigation_report`, `get_flagged_transactions` and
  `get_active_fraud_rings` are left out. They only assemble dictionaries
  from operations modelled here (`Investigation.InvestigateAccount`,
  `Graph.FindFlagged`, `Stores.ActiveRings`).
- `DeviceFingerprint.generate_hash` is left out: it is a SHA-256 digest
  from a foreign library.
- `Money.__str__` and the `DateRange`-style display strings are left out,
  because they are display formatting of floats.
- GraphQueries.HoldHours: is the corrected reading of the 48-hour limit
  (total elapsed hours). As written, the query compares only the hour
  component, which never excludes a pair (see Findings and
  `GraphQueries.HourComponent`).
- GraphQueries.HoldPairs: joins only pairs held at most the limit in total
  hours. As written, the query joins every (incoming, outgoing) pair.
- GraphQueries.DetectMules: sums over the corrected pairs, and so does
  `Detection.DetectMuleAccounts`. As written, the sums run over every pair,
  so an account whose forwarding takes longer than 48 hours can be
  reported by the program and not by the model.
- Text.ToLower: lower-cases ASCII `A`-`Z` only. Python's `str.lower()`
  maps all of Unicode and can change the length ('İ' becomes two
  characters), so the length-preserving contract holds for the ASCII
  mapping only.
- Entities.ValidateEmail: stores the ASCII lower-casing of the address.
  A non-ASCII capital such as 'É' is kept, where Python lower-cases it.
- Graph.FindCustomerByEmail: matches the ASCII lower-casing of the given
  address, so two addresses differing only in non-ASCII case do not match.
- Investigation.MuleAccountDetails: states its rows through membership in
  `Detection.DetectMuleAccounts`, and the mule test itself is stated by
  `Investigation.MuleRowsAreMules`.
- Investigation.SharedInfrastructureDetails: is the corrected detail,
  which counts each sharer once; the as-written count is
  `Investigation.SharedInfrastructureListing` (see Findings). It lists the
  members as a set, so the order of the collected ids is not modelled.
- Investigation.ThreeUsersListed: shows the as-written count for three
  users only. The general count, 2·(n − 1) for n users of one device, is
  not proved.
- Investigation.InvestigateCustomer: requires the stored accounts to carry
  risk scores in [0, 100]. The account entity's field bound guarantees
  this for anything the store returns.
- Sorting.TopPrefix: its exact prefix equality relies on `SortDesc`
  keeping store order among equal keys. Cypher's `ORDER BY ... LIMIT`
  promises only the key order, which the lemma's position-by-position key
  equality states.
- Graph.FindFlaggedPrefix: its exact prefix equality relies on store order
  among flagged rows with equal timestamps, which `ORDER BY t.timestamp
  DESC LIMIT $limit` does not fix; the timestamps agree whatever the tie
  order.
- Investigation.HighRiskListPrefix: its exact prefix equality relies on
  store order among accounts with equal risk scores (several at the 100.0
  cap, say), which `ORDER BY a.risk_score DESC` does not fix; the scores
  agree whatever the tie order.
- Stores.ActiveRings: treats a ring as active when its status is
  INVESTIGATING. The adapter has no query for this, and the interface
  describes the result as the rings under investigation.

=== FILE: Base.dfy ===
/** Shared vocabulary of the fraud-detection model: optional values, results
    with an error message (the model of a raised ValueError or a validation
    error), time in minutes and a few numeric helpers. */
module Base {

  /** Python's `Optional[T]`: an absent value is `None`, never an exception. */
  datatype Option<+T> = None | Some(value: T)

  /** A computation that either succeeds or raises an error with a message. */
  datatype Result<+T> = Ok(value: T) | Err(msg: string)

  /** Instants and durations are whole minutes; the caller supplies `now`. */
  type Time = int

  const MinutesPerHour: int := 60
  const MinutesPerDay: int := 1440

  function Min(a: real, b: real): (r: real)
    ensures r <= a && r <= b
    ensures r == a || r == b
  {
    if a <= b then a else b
  }

  function Abs(x: real): (r: real)
    ensures r >= 0.0
    ensures r == x || r == -x
  {
    if x < 0.0 then -x else x
  }

  /** Python's `timedelta.days`: whole days, rounded toward minus infinity. */
  function DaysBetween(earlier: Time, later: Time): (d: int)
    ensures d * MinutesPerDay <= later - earlier < (d + 1) * MinutesPerDay
  {
    (later - earlier) / MinutesPerDay
  }

  /** Sum of a sequence of reals. */
  function Sum(xs: seq<real>): real
  {
    if |xs| == 0 then 0.0 else xs[0] + Sum(xs[1..])
  }

  /** Python's `s[:n]` for an integer `n` (negative `n` drops from the end). */
  function SliceTo<T>(s: seq<T>, n: int): (r: seq<T>)
    ensures 0 <= n ==> r == s[..if n <= |s| then n else |s|]
    ensures n < 0 ==> r == s[..if |s| + n >= 0 then |s| + n else 0]
  {
    var k := if n >= 0 then (if n <= |s| then n else |s|)
             else (if |s| + n >= 0 then |s| + n else 0);
    s[..k]
  }

  /** A prefix of a list keeps its members and its order. */
  lemma SlicePrefix<T>(s: seq<T>, n: int)
    ensures forall x :: x in SliceTo(s, n) ==> x in s
    ensures |s| <= n ==> SliceTo(s, n) == s
    ensures forall i :: 0 <= i < |SliceTo(s, n)| ==> SliceTo(s, n)[i] == s[i]
  {
  }

  /** Moving one element from the unprocessed part of a set to the
      processed part keeps the two a partition of the whole. */
  lemma MoveOne<T>(done: set<T>, remaining: set<T>, all: set<T>, x: T)
    requires done !! remaining && done + remaining == all && x in remaining
    ensures (done + {x}) !! (remaining - {x}) && (done + {x}) + (remaining - {x}) == all
  {
  }

  /** Adding an element to a set adds one to its part within `s` exactly
      when the element is in `s`. */
  lemma IntersectGrows<T>(done: set<T>, x: T, s: set<T>)
    requires x !in done
    ensures |(done + {x}) * s| == |done * s| + if x in s then 1 else 0
  {
    if x in s {
      assert (done + {x}) * s == done * s + {x};
    } else {
      assert (done + {x}) * s == done * s;
    }
  }

  /** No element occurs twice. */
  predicate NoDup<T(==)>(s: seq<T>)
  {
    forall i, j :: 0 <= i < j < |s| ==> s[i] != s[j]
  }

  /** A duplicate-free sequence has as many elements as its set. */
  lemma {:induction false} NoDupCard<T>(s: seq<T>)
    requires NoDup(s)
    ensures |set x | x in s| == |s|
  {
    if |s| > 0 {
      assert NoDup(s[1..]) by {
        forall i, j | 0 <= i < j < |s[1..]| ensures s[1..][i] != s[1..][j] {
          assert s[1..][i] == s[i + 1] && s[1..][j] == s[j + 1];
        }
      }
      NoDupCard(s[1..]);
      assert (set x | x in s) == {s[0]} + (set x | x in s[1..]) by {
        assert forall x :: x in s <==> x == s[0] || x in s[1..];
      }
      assert s[0] !in s[1..] by {
        forall k | 0 <= k < |s[1..]| ensures s[1..][k] != s[0] {
          assert s[1..][k] == s[k + 1];
        }
      }
    }
  }

  /** In a duplicate-free sequence every element occurs at most once. */
  lemma {:induction false} NoDupOnce<T>(s: seq<T>, x: T)
    requires NoDup(s)
    ensures multiset(s)[x] <= 1
  {
    if |s| > 0 {
      assert s == [s[0]] + s[1..];
      assert NoDup(s[1..]) by {
        forall i, j | 0 <= i < j < |s[1..]| ensures s[1..][i] != s[1..][j] {
          assert s[1..][i] == s[i + 1] && s[1..][j] == s[j + 1];
        }
      }
      NoDupOnce(s[1..], x);
      if s[0] == x {
        assert x !in s[1..] by {
          forall k | 0 <= k < |s[1..]| ensures s[1..][k] != x {
            assert s[1..][k] == s[k + 1];
          }
        }
      }
    }
  }

  /** Equal elements at two positions occur at least twice. */
  lemma SameAtTwo<T>(s: seq<T>, i: nat, j: nat)
    requires i < j < |s| && s[i] == s[j]
    ensures multiset(s)[s[i]] >= 2
  {
    assert s == s[..j] + s[j..];
    assert s[i] in s[..j];
    assert s[j..][0] == s[j];
  }

  /** A rearrangement of a duplicate-free sequence is duplicate-free. */
  lemma NoDupPermutation<T>(a: seq<T>, b: seq<T>)
    requires multiset(a) == multiset(b) && NoDup(a)
    ensures NoDup(b)
  {
    forall i, j | 0 <= i < j < |b| ensures b[i] != b[j] {
      if b[i] == b[j] {
        SameAtTwo(b, i, j);
        NoDupOnce(a, b[i]);
      }
    }
  }
}

=== FILE: Detection.dfy ===
/** The fraud-detection, fraud-ring and alert services: detected query
    rows become transaction patterns (with a confidence and evidence lines),
    patterns become rings and alerts. `show` renders an amount as Python's
    `str(float)` does and `show2` renders a confidence with two decimals;
    `stamp` is the current time as the ring notes print it. */
module Detection {
  import opened Base
  import opened Text
  import opened Entities
  import opened ValueObjects
  import opened Graph
  import opened GraphQueries
  import opened Stores

  // ---------------------------------------------------------------------------
  // Circular flow

  const CircularConfidence: real := 0.8
  /** The cycle-length bound the service passes; the query ignores it. */
  const MaxCycleLength: int := 8

  /** One evidence line per cycle transaction. */
  function TransactionEvidence(t: Transaction, show: real -> string): string
  {
    "Transaction " + t.id + ": " + show(t.amount)
  }

  function CircularPattern(cycle: seq<Transaction>, now: Time, show: real -> string): (p: TransactionPattern)
    ensures p.Valid() && p.patternType == "circular_flow" && p.confidence == CircularConfidence
    ensures |p.evidence| == |cycle|
    ensures forall i :: 0 <= i < |cycle| ==> p.evidence[i] == TransactionEvidence(cycle[i], show)
    ensures p.detectedAt == now
  {
    TransactionPattern("circular_flow", CircularConfidence,
                       seq(|cycle|, i requires 0 <= i < |cycle| => TransactionEvidence(cycle[i], show)), now)
  }

  /** `detect_circular_flow`: one pattern per cycle the store returns. */
  function DetectCircularFlow(g: Graph, minLen: int, now: Time, show: real -> string): (r: seq<TransactionPattern>)
    ensures |r| == |FindCircular(g, minLen, MaxCycleLength)|
    ensures minLen > 3 ==> r == []
    ensures |r| <= CycleLimit
    ensures forall i :: 0 <= i < |r| ==>
      r[i] == CircularPattern(FindCircular(g, minLen, MaxCycleLength)[i], now, show) && |r[i].evidence| == 3
  {
    var cycles := FindCircular(g, minLen, MaxCycleLength);
    assert forall i :: 0 <= i < |cycles| ==> |cycles[i]| == 3 by {
      forall i | 0 <= i < |cycles| ensures |cycles[i]| == 3 {
        assert cycles[i] in cycles;
      }
    }
    seq(|cycles|, i requires 0 <= i < |cycles| => CircularPattern(cycles[i], now, show))
  }

  // ---------------------------------------------------------------------------
  // Fan-out and fan-in

  const FanTimeframeHours: int := 24

  /** `min(0.9, count / 10)`. */
  function FanConfidence(count: nat): (c: real)
    ensures 0.0 <= c <= 0.9
    ensures count >= 9 ==> c == 0.9
    ensures count < 9 ==> c * 10.0 == count as real
  {
    Min(0.9, count as real / 10.0)
  }

  /** More counterparts never mean less confidence. */
  lemma FanConfidenceMonotone(m: nat, n: nat)
    requires m <= n
    ensures FanConfidence(m) <= FanConfidence(n)
  {
  }

  /** Examples: the smallest count the service asks for, and a count above
      the cap. */
  lemma FanConfidenceExamples()
    ensures FanConfidence(5) == 0.5
    ensures FanConfidence(12) == 0.9
  {
  }

  function PatternName(d: Direction): string
  {
    if d == FanOut then "fan_out" else "fan_in"
  }

  function FanVerb(d: Direction): string
  {
    if d == FanOut then " sent to " else " received from "
  }

  /** The first evidence line names the account and its count. */
  function FanHeadline(row: FanRow, d: Direction): string
  {
    "Account " + row.account + FanVerb(d) + NatToString(row.count) + " accounts"
  }

  function FanPattern(row: FanRow, d: Direction, now: Time, show: real -> string): (p: TransactionPattern)
    ensures p.Valid() && p.patternType == PatternName(d) && p.confidence == FanConfidence(row.count)
    ensures p.evidence == [FanHeadline(row, d), "Total amount: " + show(row.total)]
  {
    TransactionPattern(PatternName(d), FanConfidence(row.count),
                       [FanHeadline(row, d), "Total amount: " + show(row.total)], now)
  }

  /** `detect_fan_out` / `detect_fan_in`: one pattern per query row, over the
      last 24 hours. */
  function DetectFanPatterns(g: Graph, d: Direction, minCount: int, now: Time, show: real -> string)
    : (r: seq<TransactionPattern>)
    ensures |r| == |DetectFan(g, d, minCount, now, FanTimeframeHours)|
    ensures forall i :: 0 <= i < |r| ==>
      r[i] == FanPattern(DetectFan(g, d, minCount, now, FanTimeframeHours)[i], d, now, show)
    ensures forall i, j :: 0 <= i < j < |r| ==> r[i].confidence >= r[j].confidence
  {
    var rows := DetectFan(g, d, minCount, now, FanTimeframeHours);
    forall i, j | 0 <= i < j < |rows| ensures FanConfidence(rows[i].count) >= FanConfidence(rows[j].count) {
      assert CountOf(rows[i]) >= CountOf(rows[j]);
      FanConfidenceMonotone(rows[j].count, rows[i].count);
    }
    seq(|rows|, i requires 0 <= i < |rows| => FanPattern(rows[i], d, now, show))
  }

  // ---------------------------------------------------------------------------
  // Mules and shared infrastructure

  const MuleThroughput: real := 10000.0
  const MuleHoldHours: int := 48

  /** `detect_mule_accounts` with the service's thresholds. */
  function DetectMuleAccounts(g: Graph): (r: seq<Account>)
    ensures forall a :: a in r <==> a in g.accounts && IsMule(g, a, MuleThroughput, MuleHoldHours)
  {
    DetectMules(g.accounts, g, MuleThroughput, MuleHoldHours)
  }

  datatype SharedInfrastructure = SharedInfrastructure(devices: seq<InfraRow>, ips: seq<InfraRow>)

  /** `detect_shared_infrastructure`: the device rows and the IP rows. A
      device has a row exactly when two customers use it, an address exactly
      when it pairs two accounts. */
  function DetectSharedInfrastructure(g: Graph): (r: SharedInfrastructure)
    ensures forall dv :: dv in g.devices && |DeviceUsers(g, dv.id)| >= 2 ==> DeviceRow(g, dv.id) in r.devices
    ensures forall row :: row in r.devices ==>
      exists dv :: dv in g.devices && row == DeviceRow(g, dv.id) && |DeviceUsers(g, dv.id)| >= 2
    ensures forall ip :: ip in g.ips && IpPairs(g, ip.address) != {} ==> IpRow(g, ip.address) in r.ips
    ensures forall row :: row in r.ips ==>
      exists ip :: ip in g.ips && row == IpRow(g, ip.address) && IpPairs(g, ip.address) != {}
  {
    SharedInfrastructure(FindSharedInfrastructure(g, "device"), FindSharedInfrastructure(g, "ip"))
  }

  // ---------------------------------------------------------------------------
  // Fraud rings

  const ParticipantRole: string := "participant"

  /** `create_fraud_ring_from_pattern`: a ring carrying the pattern's
      confidence and type, one member per related entity, saved and then
      linked to each entity as a participant. */
  function CreateRingFromPattern(s: RingStore, p: TransactionPattern, related: seq<string>,
                                 ringId: string, now: Time): (r: (RingStore, FraudRing))
    requires p.Valid()
    ensures r.1.Valid() && r.1.id == ringId && r.1.status == Investigating
    ensures r.1.confidence == p.confidence && r.1.patternType == p.patternType
    ensures r.1.memberCount == |related| && r.1.totalAmount == 0.0
    ensures r.1.description == "Detected " + p.patternType + " pattern"
    ensures s.RingPlaceholder? ==> r.0 == s
    ensures s.RingMemory? ==> FindRing(r.0, ringId) == Some(r.1)
    ensures s.RingMemory? ==> r.0.links == s.links + ParticipantLinks(ringId, related)
  {
    var ring := MakeFraudRing(ringId, now, p.confidence, |related|, p.patternType,
                              "Detected " + p.patternType + " pattern").value;
    var (saved, out) := SaveRing(s, ring);
    (LinkAll(saved, out.id, related), out)
  }

  function ParticipantLinks(ringId: string, ids: seq<string>): (r: seq<Link>)
    ensures |r| == |ids|
    ensures forall i :: 0 <= i < |ids| ==> r[i] == Link(ringId, ids[i], ParticipantRole)
  {
    seq(|ids|, i requires 0 <= i < |ids| => Link(ringId, ids[i], ParticipantRole))
  }

  function LinkAll(s: RingStore, ringId: string, ids: seq<string>): (r: RingStore)
    ensures s.RingPlaceholder? ==> r == s
    ensures s.RingMemory? ==> r == RingMemory(s.rings, s.links + ParticipantLinks(ringId, ids))
    decreases |ids|
  {
    if |ids| == 0 then
      (if s.RingMemory? then assert s.links + ParticipantLinks(ringId, ids) == s.links; s else s)
    else
      var next := LinkToRing(s, ringId, ids[0], ParticipantRole);
      var r := LinkAll(next, ringId, ids[1..]);
      assert s.RingMemory? ==>
        s.links + ParticipantLinks(ringId, ids)
        == (s.links + [Link(ringId, ids[0], ParticipantRole)]) + ParticipantLinks(ringId, ids[1..]);
      r
  }

  /** A note line appended to the description. */
  function NoteLine(stamp: string, notes: string): string
  {
    "\n" + stamp + ": " + notes
  }

  /** `update_ring_status`: an unknown ring gives `None` and saves nothing;
      a known one takes the new status (any status, from any status) and,
      for non-empty notes, a note line. */
  function UpdateRingStatus(s: RingStore, ringId: string, status: FraudRingStatus, notes: string,
                            stamp: string): (r: (RingStore, Option<FraudRing>))
    ensures FindRing(s, ringId).None? ==> r.1.None? && r.0 == s
    ensures FindRing(s, ringId).Some? ==>
      var before := FindRing(s, ringId).value;
      && r.1.Some?
      && r.1.value.status == status
      && r.1.value.description == (if notes == "" then before.description else before.description + NoteLine(stamp, notes))
      && r.1.value == before.(status := status, description := r.1.value.description)
      && FindRing(r.0, ringId) == r.1
    ensures forall id :: id != ringId ==> FindRing(r.0, id) == FindRing(s, id)
  {
    match FindRing(s, ringId)
    case None => (s, None)
    case Some(ring) =>
      var desc := if notes != "" then ring.description + NoteLine(stamp, notes) else ring.description;
      var (saved, out) := SaveRing(s, ring.(status := status, description := desc));
      (saved, Some(out))
  }

  /** Through the placeholder store no ring is ever found, so the update
      always gives `None`. */
  lemma PlaceholderUpdateIsNone(ringId: string, status: FraudRingStatus, notes: string, stamp: string)
    ensures UpdateRingStatus(RingPlaceholder, ringId, status, notes, stamp) == (RingPlaceholder, None)
  {
  }

  /** Updating twice with empty notes is the same as updating once with the
      second status. */
  lemma UpdateStatusTwice(s: RingStore, ringId: string, s1: FraudRingStatus, s2: FraudRingStatus, stamp: string)
    ensures var (mid, _) := UpdateRingStatus(s, ringId, s1, "", stamp);
      UpdateRingStatus(mid, ringId, s2, "", stamp).1 == UpdateRingStatus(s, ringId, s2, "", stamp).1
  {
  }

  // ---------------------------------------------------------------------------
  // Alerts

  /** `_determine_severity`: 0.9 / 0.7 / 0.5 thresholds. */
  function Severity(confidence: real): (l: RiskLevel)
    ensures l == Critical <==> confidence >= 0.9
    ensures l == High <==> 0.7 <= confidence < 0.9
    ensures l == Medium <==> 0.5 <= confidence < 0.7
    ensures l == Low <==> confidence < 0.5
  {
    if confidence >= 0.9 then Critical
    else if confidence >= 0.7 then High
    else if confidence >= 0.5 then Medium
    else Low
  }

  /** A more confident pattern never gets a lower severity. */
  lemma SeverityMonotone(c1: real, c2: real)
    requires c1 <= c2
    ensures Severity(c1).Rank() <= Severity(c2).Rank()
  {
  }

  /** `create_alert_from_pattern`: a new unresolved alert of the pattern's
      type and severity, naming the related entities. */
  function CreateAlertFromPattern(p: TransactionPattern, related: seq<string>, alertId: string, now: Time,
                                  show2: real -> string): (a: Alert)
    ensures a.alertType == p.patternType && a.related == related
    ensures a.severity == Severity(p.confidence)
    ensures !a.resolved && a.resolvedAt.None?
    ensures a.notes == "Detected " + p.patternType + ". Confidence: " + show2(p.confidence)
  {
    NewAlert(alertId, p.patternType, Severity(p.confidence), now,
             "Detected " + p.patternType + ". Confidence: " + show2(p.confidence), related)
  }

  /** Circular patterns always raise HIGH alerts; fan patterns with nine or
      more counterparts raise CRITICAL ones. */
  lemma PatternSeverities(g: Graph, d: Direction, minCount: int, now: Time, show: real -> string,
                          cycle: seq<Transaction>, row: FanRow)
    ensures Severity(CircularPattern(cycle, now, show).confidence) == High
    ensures row.count >= 9 ==> Severity(FanPattern(row, d, now, show).confidence) == Critical
    ensures row.count < 5 ==> Severity(FanPattern(row, d, now, show).confidence) == Low
  {
  }
}

=== FILE: Entities.dfy ===
/** Domain entities: the enumerations, the entity records with their field
    bounds and defaults, and the two custom validators (e-mail and IP
    address). Building an entity with a field out of bounds is a validation
    error, modelled as `Err`. */
module Entities {
  import opened Base
  import opened Text

  datatype AccountType = Checking | Savings | Credit

  datatype AccountStatus = Active | Suspended | Closed

  /** Severity of alerts and the risk level of customers and merchants. */
  datatype RiskLevel = Low | Medium | High | Critical
  {
    /** The enum's stored value. */
    function Value(): string
    {
      match this
      case Low => "low"
      case Medium => "medium"
      case High => "high"
      case Critical => "critical"
    }

    /** The upper-case label the scoring code returns ("LOW", ...). */
    function Label(): string
    {
      match this
      case Low => "LOW"
      case Medium => "MEDIUM"
      case High => "HIGH"
      case Critical => "CRITICAL"
    }

    /** Position in the order LOW < MEDIUM < HIGH < CRITICAL. */
    function Rank(): nat
    {
      match this
      case Low => 0
      case Medium => 1
      case High => 2
      case Critical => 3
    }
  }

  datatype KycStatus = KycVerified | KycPending | KycFailed

  datatype TransactionType = Transfer | Withdrawal | Deposit | Payment

  datatype TransactionStatus = Completed | Pending | Failed | Reversed

  datatype TransactionChannel = Online | Atm | Branch | Mobile

  datatype FraudRingStatus = Investigating | Confirmed | FalsePositive | Resolved

  const DefaultCurrency: string := "USD"

  // ---------------------------------------------------------------------------
  // Account

  datatype Account = Account(
    id: string,
    number: string,
    kind: AccountType,
    status: AccountStatus,
    created: Time,
    riskScore: real,
    country: string,
    currency: string,
    balance: real)
  {
    /** The field bound on `risk_score`. */
    predicate Valid()
    {
      0.0 <= riskScore <= 100.0
    }
  }

  /** Building an account validates `risk_score` against [0, 100]. */
  function MakeAccount(id: string, number: string, kind: AccountType, status: AccountStatus,
                       created: Time, riskScore: real, country: string, currency: string,
                       balance: real): (r: Result<Account>)
    ensures r.Ok? <==> 0.0 <= riskScore <= 100.0
    ensures r.Ok? ==> r.value.Valid() && r.value.id == id && r.value.status == status
                      && r.value.riskScore == riskScore && r.value.created == created
  {
    if 0.0 <= riskScore <= 100.0 then
      Ok(Account(id, number, kind, status, created, riskScore, country, currency, balance))
    else
      Err("risk_score")
  }

  /** An account built with the defaults: active, risk 0.0, USD, balance 0.0,
      created at `now`. */
  function NewAccount(id: string, number: string, kind: AccountType, country: string, now: Time): (r: Result<Account>)
    ensures r.Ok?
    ensures r.value.status == Active && r.value.riskScore == 0.0 && r.value.Valid()
    ensures r.value.currency == DefaultCurrency && r.value.balance == 0.0 && r.value.created == now
  {
    MakeAccount(id, number, kind, Active, now, 0.0, country, DefaultCurrency, 0.0)
  }

  // ---------------------------------------------------------------------------
  // Customer

  datatype Customer = Customer(
    id: string,
    firstName: string,
    lastName: string,
    email: string,
    phone: string,
    dateOfBirth: Time,
    ssnHash: string,
    address: string,
    city: string,
    country: string,
    since: Time,
    kyc: KycStatus,
    riskLevel: RiskLevel)

  /** The e-mail validator: rejects an address without '@', otherwise
      stores it lower-cased. */
  function ValidateEmail(v: string): (r: Result<string>)
    ensures r.Ok? <==> '@' in v
    ensures r.Ok? ==> |r.value| == |v| && '@' in r.value
    ensures r.Ok? ==> forall i :: 0 <= i < |v| ==> r.value[i] == LowerChar(v[i])
  {
    if '@' !in v then Err("Invalid email address")
    else
      var lower := ToLower(v);
      assert '@' in lower by {
        var i :| 0 <= i < |v| && v[i] == '@';
        assert lower[i] == '@';
      }
      Ok(lower)
  }

  /** Validating an already stored address changes nothing. */
  lemma ValidateEmailIdempotent(v: string)
    requires ValidateEmail(v).Ok?
    ensures ValidateEmail(ValidateEmail(v).value) == ValidateEmail(v)
  {
    var w := ValidateEmail(v).value;
    assert ToLower(w) == w;
  }

  /** Building a customer runs the e-mail validator. */
  function MakeCustomer(id: string, firstName: string, lastName: string, email: string,
                        phone: string, dateOfBirth: Time, ssnHash: string, address: string,
                        city: string, country: string, since: Time, kyc: KycStatus,
                        riskLevel: RiskLevel): (r: Result<Customer>)
    ensures r.Ok? <==> '@' in email
    ensures r.Ok? ==> r.value.email == ValidateEmail(email).value && r.value.id == id
                      && r.value.kyc == kyc && r.value.since == since
  {
    match ValidateEmail(email)
    case Err(m) => Err(m)
    case Ok(e) =>
      Ok(Customer(id, firstName, lastName, e, phone, dateOfBirth, ssnHash, address, city,
                  country, since, kyc, riskLevel))
  }

  /** A customer built with the defaults: KYC pending, risk level LOW,
      customer since `now`. */
  function NewCustomer(id: string, firstName: string, lastName: string, email: string,
                       phone: string, dateOfBirth: Time, ssnHash: string, address: string,
                       city: string, country: string, now: Time): (r: Result<Customer>)
    ensures r.Ok? <==> '@' in email
    ensures r.Ok? ==> r.value.kyc == KycPending && r.value.riskLevel == Low && r.value.since == now
  {
    MakeCustomer(id, firstName, lastName, email, phone, dateOfBirth, ssnHash, address, city,
                 country, now, KycPending, Low)
  }

  /** First name, one space, last name. */
  function FullName(c: Customer): (r: string)
    ensures |r| == |c.firstName| + 1 + |c.lastName|
    ensures r[..|c.firstName|] == c.firstName && r[|c.firstName|] == ' '
    ensures r[|c.firstName| + 1..] == c.lastName
  {
    c.firstName + " " + c.lastName
  }

  // ---------------------------------------------------------------------------
  // Transaction

  datatype Transaction = Transaction(
    id: string,
    amount: real,
    currency: string,
    timestamp: Time,
    kind: TransactionType,
    status: TransactionStatus,
    channel: TransactionChannel,
    description: string,
    flagged: bool,
    fraudScore: real,
    from: Option<string>,
    to: Option<string>,
    merchant: Option<string>,
    device: Option<string>,
    ip: Option<string>)
  {
    /** The field bounds: a positive amount and a fraud score in [0, 1]. */
    predicate Valid()
    {
      amount > 0.0 && 0.0 <= fraudScore <= 1.0
    }
  }

  /** Building a transaction validates the amount and the fraud score. */
  function MakeTransaction(id: string, amount: real, currency: string, timestamp: Time,
                           kind: TransactionType, status: TransactionStatus,
                           channel: TransactionChannel, description: string, flagged: bool,
                           fraudScore: real, from: Option<string>, to: Option<string>,
                           merchant: Option<string>, device: Option<string>,
                           ip: Option<string>): (r: Result<Transaction>)
    ensures r.Ok? <==> amount > 0.0 && 0.0 <= fraudScore <= 1.0
    ensures r.Ok? ==> r.value.Valid() && r.value.id == id && r.value.amount == amount
                      && r.value.flagged == flagged && r.value.from == from && r.value.to == to
  {
    if !(amount > 0.0) then Err("amount")
    else if !(0.0 <= fraudScore <= 1.0) then Err("fraud_score")
    else Ok(Transaction(id, amount, currency, timestamp, kind, status, channel, description,
                        flagged, fraudScore, from, to, merchant, device, ip))
  }

  /** A transaction built with the defaults: not flagged, COMPLETED, USD,
      fraud score 0.0, no counterparties, stamped `now`. */
  function NewTransaction(id: string, amount: real, kind: TransactionType,
                          channel: TransactionChannel, now: Time): (r: Result<Transaction>)
    ensures r.Ok? <==> amount > 0.0
    ensures r.Ok? ==> !r.value.flagged && r.value.status == Completed
                      && r.value.currency == DefaultCurrency && r.value.fraudScore == 0.0
                      && r.value.timestamp == now && r.value.from == None && r.value.to == None
  {
    MakeTransaction(id, amount, DefaultCurrency, now, kind, Completed, channel, "", false, 0.0,
                    None, None, None, None, None)
  }

  // ---------------------------------------------------------------------------
  // Device, IP address, merchant

  datatype Device = Device(
    id: string,
    deviceType: string,
    os: string,
    browser: Option<string>,
    firstSeen: Time,
    lastSeen: Time,
    trusted: bool)

  datatype IpAddress = IpAddress(
    address: string,
    country: string,
    city: string,
    proxy: bool,
    vpn: bool,
    riskScore: real,
    firstSeen: Time,
    lastSeen: Time)

  /** The IP validator: exactly four dot-separated parts, nothing else checked. */
  function ValidateIp(v: string): (r: Result<string>)
    ensures r.Ok? <==> CountChar(v, '.') == 3
    ensures r.Ok? ==> r.value == v
  {
    SplitOnLength(v, '.');
    if |SplitOn(v, '.')| != 4 then Err("Invalid IP address format") else Ok(v)
  }

  /** Building an IP address runs the validator and bounds the risk score by [0, 1]. */
  function MakeIpAddress(address: string, country: string, city: string, proxy: bool, vpn: bool,
                         riskScore: real, firstSeen: Time, lastSeen: Time): (r: Result<IpAddress>)
    ensures r.Ok? <==> CountChar(address, '.') == 3 && 0.0 <= riskScore <= 1.0
    ensures r.Ok? ==> r.value.address == address && r.value.riskScore == riskScore
  {
    match ValidateIp(address)
    case Err(m) => Err(m)
    case Ok(a) =>
      if 0.0 <= riskScore <= 1.0 then
        Ok(IpAddress(a, country, city, proxy, vpn, riskScore, firstSeen, lastSeen))
      else Err("risk_score")
  }

  datatype Merchant = Merchant(
    id: string,
    name: string,
    category: string,
    country: string,
    riskLevel: RiskLevel,
    verified: bool)

  // ---------------------------------------------------------------------------
  // Fraud ring and alert

  datatype FraudRing = FraudRing(
    id: string,
    detected: Time,
    confidence: real,
    status: FraudRingStatus,
    totalAmount: real,
    memberCount: int,
    patternType: string,
    description: string)
  {
    /** The field bound on `confidence_score`. */
    predicate Valid()
    {
      0.0 <= confidence <= 1.0
    }
  }

  /** Building a ring validates the confidence; status starts INVESTIGATING
      and the total amount at 0.0. */
  function MakeFraudRing(id: string, detected: Time, confidence: real, memberCount: int,
                         patternType: string, description: string): (r: Result<FraudRing>)
    ensures r.Ok? <==> 0.0 <= confidence <= 1.0
    ensures r.Ok? ==> r.value.Valid() && r.value.status == Investigating
                      && r.value.totalAmount == 0.0 && r.value.memberCount == memberCount
                      && r.value.confidence == confidence && r.value.patternType == patternType
                      && r.value.id == id && r.value.description == description
  {
    if 0.0 <= confidence <= 1.0 then
      Ok(FraudRing(id, detected, confidence, Investigating, 0.0, memberCount, patternType, description))
    else Err("confidence_score")
  }

  datatype Alert = Alert(
    id: string,
    alertType: string,
    severity: RiskLevel,
    createdAt: Time,
    resolvedAt: Option<Time>,
    resolved: bool,
    assignedTo: Option<string>,
    notes: string,
    related: seq<string>)

  /** A new alert is unresolved, unassigned and has no resolution time. */
  function NewAlert(id: string, alertType: string, severity: RiskLevel, now: Time, notes: string,
                    related: seq<string>): (a: Alert)
    ensures !a.resolved && a.resolvedAt == None && a.assignedTo == None
    ensures a.alertType == alertType && a.severity == severity && a.related == related
  {
    Alert(id, alertType, severity, now, None, false, None, notes, related)
  }
}

=== FILE: Graph.dfy ===
/** The graph store as an in-memory value, and the repository queries that
    read and write it: lookups by key (absent means `None`), the
    transactions touching an account in a time window, flagged transactions,
    high-risk accounts, the velocity count and the risk-score update.

    A transaction's `from`, `to` and `ip` fields are its DEBITED_FROM,
    CREDITED_TO and FROM_IP relationships. Rows come back in sequence order
    where a query has no ORDER BY; ORDER BY ... DESC is `SortDesc`. */
module Graph {
  import opened Base
  import opened Text
  import opened Entities
  import opened Sorting

  datatype Graph = Graph(
    accounts: seq<Account>,
    customers: seq<Customer>,
    /** OWNS relationships, as (customer id, account id). */
    owns: seq<(string, string)>,
    txns: seq<Transaction>,
    devices: seq<Device>,
    /** USED_DEVICE relationships, as (customer id, device id). */
    deviceUse: set<(string, string)>,
    ips: seq<IpAddress>)
  {
    /** What the adapter's writes maintain: unique keys, field bounds, and
        relationships that end at existing accounts. */
    ghost predicate Valid()
    {
      && (forall i, j :: 0 <= i < j < |accounts| ==> accounts[i].id != accounts[j].id)
      && (forall i, j :: 0 <= i < j < |txns| ==> txns[i].id != txns[j].id)
      && (forall i :: 0 <= i < |accounts| ==> accounts[i].Valid())
      && (forall i :: 0 <= i < |txns| ==> txns[i].Valid())
      && (forall i :: 0 <= i < |txns| && txns[i].from.Some? ==> HasAccount(accounts, txns[i].from.value))
      && (forall i :: 0 <= i < |txns| && txns[i].to.Some? ==> HasAccount(accounts, txns[i].to.value))
    }
  }

  predicate HasAccount(accounts: seq<Account>, id: string)
  {
    exists i :: 0 <= i < |accounts| && accounts[i].id == id
  }

  // ---------------------------------------------------------------------------
  // Lookups by key

  /** `find_by_id` on accounts: the first node with that id, `None` when there is none. */
  function FindAccount(accounts: seq<Account>, id: string): (r: Option<Account>)
    ensures r.Some? <==> HasAccount(accounts, id)
    ensures r.Some? ==> r.value in accounts && r.value.id == id
  {
    if |accounts| == 0 then None
    else if accounts[0].id == id then Some(accounts[0])
    else
      var r := FindAccount(accounts[1..], id);
      assert HasAccount(accounts, id) <==> HasAccount(accounts[1..], id) by {
        if HasAccount(accounts, id) {
          var i :| 0 <= i < |accounts| && accounts[i].id == id;
          assert accounts[1..][i - 1].id == id;
        }
        if HasAccount(accounts[1..], id) {
          var i :| 0 <= i < |accounts[1..]| && accounts[1..][i].id == id;
          assert accounts[i + 1].id == id;
        }
      }
      r
  }

  /** `find_by_account_number`. */
  function FindAccountByNumber(accounts: seq<Account>, number: string): (r: Option<Account>)
    ensures r.Some? ==> r.value in accounts && r.value.number == number
    ensures r.None? ==> forall a :: a in accounts ==> a.number != number
  {
    if |accounts| == 0 then None
    else if accounts[0].number == number then Some(accounts[0])
    else FindAccountByNumber(accounts[1..], number)
  }

  /** Customer `find_by_id`. */
  function FindCustomer(customers: seq<Customer>, id: string): (r: Option<Customer>)
    ensures r.Some? ==> r.value in customers && r.value.id == id
    ensures r.None? ==> forall c :: c in customers ==> c.id != id
  {
    if |customers| == 0 then None
    else if customers[0].id == id then Some(customers[0])
    else FindCustomer(customers[1..], id)
  }

  /** `find_by_email`: the query is lower-cased before matching. */
  function FindCustomerByEmail(customers: seq<Customer>, email: string): (r: Option<Customer>)
    ensures r.Some? ==> r.value in customers && r.value.email == ToLower(email)
    ensures r.None? ==> forall c :: c in customers ==> c.email != ToLower(email)
  {
    if |customers| == 0 then None
    else if customers[0].email == ToLower(email) then Some(customers[0])
    else FindCustomerByEmail(customers[1..], email)
  }

  /** An account id the adapter keeps: a falsy (empty) id reads as absent. */
  function KeptId(o: Option<string>): (r: Option<string>)
    ensures r.Some? <==> o.Some? && o.value != ""
    ensures r.Some? ==> r == o
  {
    if o == Some("") then None else o
  }

  /** A transaction as the adapter reads it back: node properties plus the
      account ids of its two relationships, each kept only when non-empty;
      merchant, device and IP are not read. */
  function ReadBack(t: Transaction): (r: Transaction)
    ensures r.id == t.id && r.amount == t.amount && r.timestamp == t.timestamp && r.flagged == t.flagged
    ensures r.from.Some? <==> t.from.Some? && t.from.value != ""
    ensures r.to.Some? <==> t.to.Some? && t.to.value != ""
    ensures r.from.Some? ==> r.from == t.from
    ensures r.to.Some? ==> r.to == t.to
    ensures r.merchant.None? && r.device.None? && r.ip.None?
  {
    t.(merchant := None, device := None, ip := None, from := KeptId(t.from), to := KeptId(t.to))
  }

  /** Transaction `find_by_id`. */
  function FindTransaction(txns: seq<Transaction>, id: string): (r: Option<Transaction>)
    ensures r.Some? ==> exists t :: t in txns && t.id == id && r.value == ReadBack(t)
    ensures r.None? ==> forall t :: t in txns ==> t.id != id
  {
    if |txns| == 0 then None
    else if txns[0].id == id then Some(ReadBack(txns[0]))
    else FindTransaction(txns[1..], id)
  }

  /** With unique transaction ids, looking a stored transaction up by its id
      finds that transaction. */
  lemma {:induction false} FindStoredTransaction(txns: seq<Transaction>, t: Transaction)
    requires forall i, j :: 0 <= i < j < |txns| ==> txns[i].id != txns[j].id
    requires t in txns
    ensures FindTransaction(txns, t.id) == Some(ReadBack(t))
  {
    if txns[0] != t {
      var k :| 0 <= k < |txns| && txns[k] == t;
      assert txns[0].id != txns[k].id;
      assert txns[1..][k - 1] == t;
      FindStoredTransaction(txns[1..], t);
    }
  }

  /** `find_by_customer`: the accounts the customer OWNS, none when the
      customer does not exist; every OWNS relationship of an existing
      customer to an existing account contributes its account. */
  function AccountsOfCustomer(g: Graph, customerId: string): (r: seq<Account>)
    ensures FindCustomer(g.customers, customerId).None? ==> r == []
    ensures forall a :: a in r ==> a in g.accounts && (customerId, a.id) in g.owns
    ensures FindCustomer(g.customers, customerId).Some? ==>
      forall id :: (customerId, id) in g.owns && HasAccount(g.accounts, id) ==> FindAccount(g.accounts, id).value in r
  {
    if FindCustomer(g.customers, customerId).None? then []
    else OwnedAccounts(g.accounts, g.owns, customerId)
  }

  function OwnedAccounts(accounts: seq<Account>, owns: seq<(string, string)>, customerId: string): (r: seq<Account>)
    ensures forall a :: a in r ==> a in accounts && (customerId, a.id) in owns
    ensures forall id :: (customerId, id) in owns && HasAccount(accounts, id) ==> FindAccount(accounts, id).value in r
  {
    if |owns| == 0 then []
    else
      var rest := OwnedAccounts(accounts, owns[1..], customerId);
      assert forall e :: e in owns <==> e == owns[0] || e in owns[1..];
      if owns[0].0 == customerId && FindAccount(accounts, owns[0].1).Some? then
        [FindAccount(accounts, owns[0].1).value] + rest
      else rest
  }

  /** With unique account ids, an account is what a lookup of its id finds. */
  lemma {:induction false} FindListedAccount(accounts: seq<Account>, a: Account)
    requires forall i, j :: 0 <= i < j < |accounts| ==> accounts[i].id != accounts[j].id
    requires a in accounts
    ensures FindAccount(accounts, a.id) == Some(a)
  {
    if accounts[0] != a {
      var k :| 0 <= k < |accounts| && accounts[k] == a;
      assert accounts[0].id != accounts[k].id;
      assert accounts[1..][k - 1] == a;
      FindListedAccount(accounts[1..], a);
    }
  }

  /** In a well-formed graph an existing customer's accounts are exactly the
      accounts it owns. */
  lemma AccountsOfCustomerExact(g: Graph, customerId: string, a: Account)
    requires g.Valid()
    requires FindCustomer(g.customers, customerId).Some?
    ensures a in AccountsOfCustomer(g, customerId) <==> a in g.accounts && (customerId, a.id) in g.owns
  {
    if a in g.accounts && (customerId, a.id) in g.owns {
      FindListedAccount(g.accounts, a);
    }
  }

  /** Re-scoring accounts leaves which accounts a customer owns unchanged:
      the same number, in the same order, differing in risk score only. */
  lemma {:induction false} OwnedAccountsIgnoreRisk(before: seq<Account>, after: seq<Account>,
                                                  owns: seq<(string, string)>, customerId: string)
    requires |after| == |before|
    requires forall i :: 0 <= i < |before| ==> after[i] == before[i].(riskScore := after[i].riskScore)
    ensures |OwnedAccounts(after, owns, customerId)| == |OwnedAccounts(before, owns, customerId)|
    ensures forall k :: 0 <= k < |OwnedAccounts(before, owns, customerId)| ==>
      OwnedAccounts(after, owns, customerId)[k]
      == OwnedAccounts(before, owns, customerId)[k].(riskScore := OwnedAccounts(after, owns, customerId)[k].riskScore)
  {
    if |owns| > 0 {
      OwnedAccountsIgnoreRisk(before, after, owns[1..], customerId);
      FindAccountIgnoresRisk(before, after, owns[0].1);
      var ra := OwnedAccounts(after, owns[1..], customerId);
      var rb := OwnedAccounts(before, owns[1..], customerId);
      if owns[0].0 == customerId && FindAccount(before, owns[0].1).Some? {
        var fa := FindAccount(after, owns[0].1).value;
        var fb := FindAccount(before, owns[0].1).value;
        assert fa == fb.(riskScore := fa.riskScore);
        assert OwnedAccounts(after, owns, customerId) == [fa] + ra;
        assert OwnedAccounts(before, owns, customerId) == [fb] + rb;
        SameIdsCons(fa, fb, ra, rb);
      } else {
        assert OwnedAccounts(after, owns, customerId) == ra;
        assert OwnedAccounts(before, owns, customerId) == rb;
      }
    }
  }

  lemma SameIdsCons(fa: Account, fb: Account, ra: seq<Account>, rb: seq<Account>)
    requires fa == fb.(riskScore := fa.riskScore) && |ra| == |rb|
    requires forall k :: 0 <= k < |rb| ==> ra[k] == rb[k].(riskScore := ra[k].riskScore)
    ensures |[fa] + ra| == |[fb] + rb|
    ensures forall k :: 0 <= k < |[fb] + rb| ==> ([fa] + ra)[k] == ([fb] + rb)[k].(riskScore := ([fa] + ra)[k].riskScore)
  {
    forall k | 0 <= k < |rb| + 1 ensures ([fa] + ra)[k] == ([fb] + rb)[k].(riskScore := ([fa] + ra)[k].riskScore) {
      if k > 0 { assert ([fa] + ra)[k] == ra[k - 1] && ([fb] + rb)[k] == rb[k - 1]; }
    }
  }

  // ---------------------------------------------------------------------------
  // Transactions touching an account

  /** How many of the transaction's two relationships end at the account: a
      transfer from an account to itself matches twice. */
  function Touches(t: Transaction, id: string): nat
  {
    (if t.from == Some(id) then 1 else 0) + (if t.to == Some(id) then 1 else 0)
  }

  /** The optional date bounds of `find_by_account`, both inclusive. */
  predicate InRange(t: Transaction, start: Option<Time>, end: Option<Time>)
  {
    (start.None? || t.timestamp >= start.value) && (end.None? || t.timestamp <= end.value)
  }

  /** The matched rows before ordering, one per matching relationship. */
  function AccountRows(txns: seq<Transaction>, id: string, start: Option<Time>, end: Option<Time>): (r: seq<Transaction>)
    ensures forall x :: x in r <==>
      exists j :: 0 <= j < |txns| && Touches(txns[j], id) > 0 && InRange(txns[j], start, end)
                  && x == ReadBack(txns[j])
  {
    if |txns| == 0 then []
    else
      var t := txns[0];
      var copies := if InRange(t, start, end) then seq(Touches(t, id), _ => ReadBack(t)) else [];
      var rest := AccountRows(txns[1..], id, start, end);
      assert forall x :: x in copies <==> Touches(t, id) > 0 && InRange(t, start, end) && x == ReadBack(t) by {
        if InRange(t, start, end) && Touches(t, id) > 0 {
          assert copies[0] == ReadBack(t);
        }
      }
      assert forall x :: x in rest <==>
        exists j :: 1 <= j < |txns| && Touches(txns[j], id) > 0 && InRange(txns[j], start, end)
                    && x == ReadBack(txns[j]) by {
        forall x | x in rest
          ensures exists j :: 1 <= j < |txns| && Touches(txns[j], id) > 0 && InRange(txns[j], start, end)
                              && x == ReadBack(txns[j])
        {
          var k :| 0 <= k < |txns[1..]| && Touches(txns[1..][k], id) > 0 && InRange(txns[1..][k], start, end)
                   && x == ReadBack(txns[1..][k]);
          assert txns[1..][k] == txns[k + 1];
        }
        forall x, j | 1 <= j < |txns| && Touches(txns[j], id) > 0 && InRange(txns[j], start, end)
                      && x == ReadBack(txns[j])
          ensures x in rest
        {
          assert txns[1..][j - 1] == txns[j];
        }
      }
      copies + rest
  }

  /** `find_by_account`: every transaction debiting or crediting the account
      with start <= timestamp <= end (an absent bound is unbounded), newest
      first. */
  function FindByAccount(g: Graph, id: string, start: Option<Time>, end: Option<Time>): (r: seq<Transaction>)
    ensures forall x :: x in r <==>
      exists j :: 0 <= j < |g.txns| && Touches(g.txns[j], id) > 0 && InRange(g.txns[j], start, end)
                  && x == ReadBack(g.txns[j])
    ensures SortedDesc(r, Timestamp)
    ensures multiset(r) == multiset(AccountRows(g.txns, id, start, end))
  {
    var rows := AccountRows(g.txns, id, start, end);
    var r := SortDesc(rows, Timestamp);
    assert forall x :: x in r <==> x in rows by {
      forall x { SortDescMembers(rows, Timestamp, x); }
    }
    r
  }

  function Timestamp(t: Transaction): real
  {
    t.timestamp as real
  }

  // ---------------------------------------------------------------------------
  // Velocity

  /** Matched relationships of transactions at or after `cutoff`. */
  function CountSince(txns: seq<Transaction>, id: string, cutoff: Time): (n: nat)
    ensures n == 0 <==> forall j :: 0 <= j < |txns| && txns[j].timestamp >= cutoff ==> Touches(txns[j], id) == 0
  {
    if |txns| == 0 then 0
    else
      var here := if txns[0].timestamp >= cutoff then Touches(txns[0], id) else 0;
      var rest := CountSince(txns[1..], id, cutoff);
      assert (forall j :: 1 <= j < |txns| && txns[j].timestamp >= cutoff ==> Touches(txns[j], id) == 0)
             <==> rest == 0 by {
        if rest == 0 {
          forall j | 1 <= j < |txns| && txns[j].timestamp >= cutoff
            ensures Touches(txns[j], id) == 0
          {
            assert txns[1..][j - 1] == txns[j];
          }
        }
      }
      here + rest
  }

  /** `count_transactions_in_timeframe`: the transactions touching the
      account in the last `minutes` before `now`; 0 when there are none. */
  function CountInTimeframe(g: Graph, id: string, now: Time, minutes: int): (n: nat)
    ensures n == 0 <==> forall j :: 0 <= j < |g.txns| && g.txns[j].timestamp >= now - minutes ==> Touches(g.txns[j], id) == 0
  {
    CountSince(g.txns, id, now - minutes)
  }

  /** The velocity count is the number of rows `find_by_account` returns for
      the same open-ended window. */
  lemma {:induction false} CountMatchesRows(txns: seq<Transaction>, id: string, cutoff: Time)
    ensures CountSince(txns, id, cutoff) == |AccountRows(txns, id, Some(cutoff), None)|
  {
    if |txns| > 0 {
      CountMatchesRows(txns[1..], id, cutoff);
    }
  }

  /** A longer window never counts fewer transactions. */
  lemma {:induction false} CountSinceMonotone(txns: seq<Transaction>, id: string, later: Time, earlier: Time)
    requires earlier <= later
    ensures CountSince(txns, id, later) <= CountSince(txns, id, earlier)
  {
    if |txns| > 0 {
      CountSinceMonotone(txns[1..], id, later, earlier);
    }
  }

  lemma VelocityIsRowCount(g: Graph, id: string, now: Time, minutes: int)
    ensures CountInTimeframe(g, id, now, minutes) == |FindByAccount(g, id, Some(now - minutes), None)|
  {
    CountMatchesRows(g.txns, id, now - minutes);
  }

  // ---------------------------------------------------------------------------
  // Flagged counts

  /** The flagged transactions in `ts`. */
  function CountFlagged(ts: seq<Transaction>): (n: nat)
    ensures n <= |ts|
  {
    if |ts| == 0 then 0 else (if ts[0].flagged then 1 else 0) + CountFlagged(ts[1..])
  }

  lemma {:induction false} CountFlaggedAppend(a: seq<Transaction>, b: seq<Transaction>)
    ensures CountFlagged(a + b) == CountFlagged(a) + CountFlagged(b)
  {
    if |a| > 0 {
      assert (a + b)[1..] == a[1..] + b;
      CountFlaggedAppend(a[1..], b);
    } else {
      assert a + b == b;
    }
  }

  /** Reordering transactions does not change how many are flagged. */
  lemma {:induction false} CountFlaggedPermutation(a: seq<Transaction>, b: seq<Transaction>)
    requires multiset(a) == multiset(b)
    ensures CountFlagged(a) == CountFlagged(b)
    decreases |a|
  {
    if |a| > 0 {
      var x := a[0];
      assert x in multiset(b);
      var k :| 0 <= k < |b| && b[k] == x;
      var rest := b[..k] + b[k + 1..];
      assert b == b[..k] + ([x] + b[k + 1..]);
      assert multiset(b) == multiset(rest) + multiset{x};
      assert a == [x] + a[1..];
      assert multiset(a) == multiset{x} + multiset(a[1..]);
      assert multiset(a[1..]) == multiset(a) - multiset{x};
      assert multiset(rest) == multiset(b) - multiset{x};
      CountFlaggedPermutation(a[1..], rest);
      CountFlaggedAppend(b[..k], [x] + b[k + 1..]);
      CountFlaggedAppend([x], b[k + 1..]);
      CountFlaggedAppend(b[..k], b[k + 1..]);
    }
  }

  /** The flagged transactions touching the account at or after `cutoff`,
      one per relationship to the account, as the account listing counts
      them. */
  function CountFlaggedSince(txns: seq<Transaction>, id: string, cutoff: Time): (n: nat)
    ensures n <= CountSince(txns, id, cutoff)
    ensures n == 0 <==> forall j :: 0 <= j < |txns| && txns[j].flagged && txns[j].timestamp >= cutoff ==>
      Touches(txns[j], id) == 0
  {
    if |txns| == 0 then 0
    else
      var rest := CountFlaggedSince(txns[1..], id, cutoff);
      assert (forall j :: 1 <= j < |txns| && txns[j].flagged && txns[j].timestamp >= cutoff ==> Touches(txns[j], id) == 0)
             <==> rest == 0 by {
        if rest == 0 {
          forall j | 1 <= j < |txns| && txns[j].flagged && txns[j].timestamp >= cutoff
            ensures Touches(txns[j], id) == 0
          {
            assert txns[1..][j - 1] == txns[j];
          }
        }
      }
      (if txns[0].flagged && txns[0].timestamp >= cutoff then Touches(txns[0], id) else 0) + rest
  }

  lemma {:induction false} CopiesFlagged(t: Transaction, n: nat)
    ensures CountFlagged(seq(n, _ => ReadBack(t))) == if t.flagged then n else 0
  {
    if n > 0 {
      assert seq(n, _ => ReadBack(t))[1..] == seq(n - 1, _ => ReadBack(t));
      CopiesFlagged(t, n - 1);
    }
  }

  lemma {:induction false} RowsFlaggedCount(txns: seq<Transaction>, id: string, cutoff: Time)
    ensures CountFlagged(AccountRows(txns, id, Some(cutoff), None)) == CountFlaggedSince(txns, id, cutoff)
  {
    if |txns| > 0 {
      var t := txns[0];
      var copies := if InRange(t, Some(cutoff), None) then seq(Touches(t, id), _ => ReadBack(t)) else [];
      var rest := AccountRows(txns[1..], id, Some(cutoff), None);
      assert AccountRows(txns, id, Some(cutoff), None) == copies + rest;
      CountFlaggedAppend(copies, rest);
      CopiesFlagged(t, Touches(t, id));
      RowsFlaggedCount(txns[1..], id, cutoff);
    }
  }

  /** The flagged rows of the account's listing from `cutoff` on are the
      flagged transactions of the store in that window. */
  lemma FlaggedInWindow(g: Graph, id: string, cutoff: Time)
    ensures CountFlagged(FindByAccount(g, id, Some(cutoff), None)) == CountFlaggedSince(g.txns, id, cutoff)
  {
    CountFlaggedPermutation(FindByAccount(g, id, Some(cutoff), None), AccountRows(g.txns, id, Some(cutoff), None));
    RowsFlaggedCount(g.txns, id, cutoff);
  }

  // ---------------------------------------------------------------------------
  // Flagged transactions

  function FlaggedRows(txns: seq<Transaction>): (r: seq<Transaction>)
    ensures forall x :: x in r <==> exists j :: 0 <= j < |txns| && txns[j].flagged && x == ReadBack(txns[j])
    ensures |r| == CountFlagged(txns)
  {
    if |txns| == 0 then []
    else
      var rest := FlaggedRows(txns[1..]);
      assert forall x :: x in rest <==> exists j :: 1 <= j < |txns| && txns[j].flagged && x == ReadBack(txns[j]) by {
        forall x | x in rest
          ensures exists j :: 1 <= j < |txns| && txns[j].flagged && x == ReadBack(txns[j])
        {
          var k :| 0 <= k < |txns[1..]| && txns[1..][k].flagged && x == ReadBack(txns[1..][k]);
          assert txns[1..][k] == txns[k + 1];
        }
        forall x, j | 1 <= j < |txns| && txns[j].flagged && x == ReadBack(txns[j])
          ensures x in rest
        {
          assert txns[1..][j - 1] == txns[j];
        }
      }
      if txns[0].flagged then [ReadBack(txns[0])] + rest else rest
  }

  /** `find_flagged_transactions`: flagged transactions only, newest first,
      at most `limit` of them, and the newest ones: no flagged transaction
      left out is newer than one kept; all of them when there are no more
      than `limit`. */
  function FindFlagged(g: Graph, limit: nat): (r: seq<Transaction>)
    ensures |r| == if |FlaggedRows(g.txns)| <= limit then |FlaggedRows(g.txns)| else limit
    ensures forall x :: x in r ==> x.flagged && exists j :: 0 <= j < |g.txns| && x == ReadBack(g.txns[j])
    ensures SortedDesc(r, Timestamp)
    ensures multiset(r) <= multiset(FlaggedRows(g.txns))
    ensures forall x, y :: x in r && y in multiset(FlaggedRows(g.txns)) - multiset(r) ==> Timestamp(y) <= Timestamp(x)
    ensures |FlaggedRows(g.txns)| <= limit ==>
      forall j :: 0 <= j < |g.txns| && g.txns[j].flagged ==> ReadBack(g.txns[j]) in r
  {
    var rows := FlaggedRows(g.txns);
    var r := Top(rows, Timestamp, limit);
    assert |rows| <= limit ==> forall j :: 0 <= j < |g.txns| && g.txns[j].flagged ==> ReadBack(g.txns[j]) in r by {
      if |rows| <= limit {
        forall j | 0 <= j < |g.txns| && g.txns[j].flagged ensures ReadBack(g.txns[j]) in r {
          assert ReadBack(g.txns[j]) in rows;
        }
      }
    }
    r
  }

  /** No flagged transaction in the store that the limit left out is newer
      than any transaction returned. */
  lemma FindFlaggedKeepsNewest(g: Graph, limit: nat, x: Transaction, j: int)
    requires x in FindFlagged(g, limit)
    requires 0 <= j < |g.txns| && g.txns[j].flagged && ReadBack(g.txns[j]) !in FindFlagged(g, limit)
    ensures g.txns[j].timestamp <= x.timestamp
  {
    var r := FindFlagged(g, limit);
    var rows := FlaggedRows(g.txns);
    var y := ReadBack(g.txns[j]);
    assert y in rows;
    assert y in multiset(rows) - multiset(r);
    assert Timestamp(y) <= Timestamp(x);
  }

  /** A smaller limit returns a prefix of what a larger one returns. The
      timestamps agree position by position whatever order ties take; the
      rows themselves agree because `SortDesc` keeps store order among
      equal timestamps. */
  lemma FindFlaggedPrefix(g: Graph, n: nat, m: nat)
    requires n <= m
    ensures |FindFlagged(g, n)| <= |FindFlagged(g, m)|
    ensures forall i :: 0 <= i < |FindFlagged(g, n)| ==>
      FindFlagged(g, n)[i].timestamp == FindFlagged(g, m)[i].timestamp
    ensures FindFlagged(g, n) == FindFlagged(g, m)[..|FindFlagged(g, n)|]
  {
    TopPrefix(FlaggedRows(g.txns), Timestamp, n, m);
  }

  // ---------------------------------------------------------------------------
  // High-risk accounts

  /** The accounts scoring at least `threshold`. */
  function CountAtLeast(accounts: seq<Account>, threshold: real): (n: nat)
    ensures n <= |accounts|
  {
    if |accounts| == 0 then 0
    else (if accounts[0].riskScore >= threshold then 1 else 0) + CountAtLeast(accounts[1..], threshold)
  }

  function AtLeast(accounts: seq<Account>, threshold: real): (r: seq<Account>)
    ensures forall a :: a in r <==> a in accounts && a.riskScore >= threshold
    ensures |r| == CountAtLeast(accounts, threshold)
  {
    if |accounts| == 0 then []
    else
      var rest := AtLeast(accounts[1..], threshold);
      assert forall a :: a in accounts <==> a == accounts[0] || a in accounts[1..];
      if accounts[0].riskScore >= threshold then [accounts[0]] + rest else rest
  }

  function RiskOf(a: Account): real
  {
    a.riskScore
  }

  /** `find_high_risk_accounts`: exactly the accounts whose score is at least
      the threshold (the interface documents "above"), highest first. */
  function FindHighRiskAccounts(g: Graph, threshold: real): (r: seq<Account>)
    ensures forall a :: a in r <==> a in g.accounts && a.riskScore >= threshold
    ensures SortedDesc(r, RiskOf)
    ensures |r| == CountAtLeast(g.accounts, threshold)
  {
    var rows := AtLeast(g.accounts, threshold);
    var r := SortDesc(rows, RiskOf);
    assert forall a :: a in r <==> a in rows by {
      forall a { SortDescMembers(rows, RiskOf, a); }
    }
    r
  }

  // ---------------------------------------------------------------------------
  // Risk-score update

  /** `update_risk_score`: every account node with that id gets the new
      score; nothing else changes. */
  function UpdateRiskScore(g: Graph, id: string, score: real): (r: Graph)
    ensures |r.accounts| == |g.accounts|
    ensures forall i :: 0 <= i < |g.accounts| ==>
      r.accounts[i] == if g.accounts[i].id == id then g.accounts[i].(riskScore := score) else g.accounts[i]
    ensures r.txns == g.txns && r.customers == g.customers && r.owns == g.owns
    ensures r.devices == g.devices && r.deviceUse == g.deviceUse && r.ips == g.ips
  {
    g.(accounts := seq(|g.accounts|, i requires 0 <= i < |g.accounts| =>
         if g.accounts[i].id == id then g.accounts[i].(riskScore := score) else g.accounts[i]))
  }

  /** Reading an account after the update sees the new score; other accounts
      read as before. */
  lemma {:induction false} UpdateThenFind(accounts: seq<Account>, updated: seq<Account>, id: string,
                                          score: real, other: string)
    requires |updated| == |accounts|
    requires forall i :: 0 <= i < |accounts| ==>
      updated[i] == if accounts[i].id == id then accounts[i].(riskScore := score) else accounts[i]
    ensures FindAccount(updated, other).Some? <==> FindAccount(accounts, other).Some?
    ensures other == id && FindAccount(accounts, id).Some? ==>
      FindAccount(updated, id) == Some(FindAccount(accounts, id).value.(riskScore := score))
    ensures other != id ==> FindAccount(updated, other) == FindAccount(accounts, other)
  {
    if |accounts| > 0 {
      UpdateThenFind(accounts[1..], updated[1..], id, score, other);
    }
  }

  /** Changing risk scores alone changes neither whether a lookup finds an
      account nor anything but the score of the account it finds. */
  lemma {:induction false} FindAccountIgnoresRisk(before: seq<Account>, after: seq<Account>, id: string)
    requires |after| == |before|
    requires forall i :: 0 <= i < |before| ==> after[i] == before[i].(riskScore := after[i].riskScore)
    ensures FindAccount(after, id).Some? <==> FindAccount(before, id).Some?
    ensures FindAccount(after, id).Some? ==>
      FindAccount(after, id).value == FindAccount(before, id).value.(riskScore := FindAccount(after, id).value.riskScore)
  {
    if |before| > 0 {
      FindAccountIgnoresRisk(before[1..], after[1..], id);
    }
  }
}

=== FILE: GraphQueries.dfy ===
/** The detection queries of the graph store, restated over the in-memory
    graph: circular flows, fan-out and fan-in, money mules and shared
    infrastructure. Each function follows the text of its Cypher query:
    which nodes and relationships are matched, what is aggregated and how,
    and which filter runs before or after the row limit. */
module GraphQueries {
  import opened Base
  import opened Text
  import opened Entities
  import opened Sorting
  import opened Graph

  // ---------------------------------------------------------------------------
  // Circular flows

  /** A transaction built from its node properties alone: the account,
      merchant, device and IP relationships are not read back. */
  function NodeProps(t: Transaction): (r: Transaction)
    ensures r.id == t.id && r.amount == t.amount && r.timestamp == t.timestamp && r.flagged == t.flagged
    ensures r.from.None? && r.to.None? && r.merchant.None? && r.device.None? && r.ip.None?
  {
    t.(from := None, to := None, merchant := None, device := None, ip := None)
  }

  /** The matched path: `t1` moves money from `start` to `a2`, `t2` from
      `a2` to `a3`, `t3` from `a3` back to `start`; all three are flagged
      and the three accounts are pairwise distinct. */
  predicate Cycle(t1: Transaction, t2: Transaction, t3: Transaction)
  {
    && t1.flagged && t2.flagged && t3.flagged
    && t1.from.Some? && t1.to.Some? && t2.to.Some?
    && t2.from == t1.to && t3.from == t2.to && t3.to == t1.from
    && t1.from != t1.to && t1.from != t2.to && t1.to != t2.to
  }

  function CycleRow(t1: Transaction, t2: Transaction, t3: Transaction): seq<Transaction>
  {
    [NodeProps(t1), NodeProps(t2), NodeProps(t3)]
  }

  /** Rows for fixed first and second legs, closing leg ranging over `ts`. */
  function ClosingLegs(t1: Transaction, t2: Transaction, ts: seq<Transaction>): (r: seq<seq<Transaction>>)
    ensures forall row :: row in r ==> exists t3 :: t3 in ts && Cycle(t1, t2, t3) && row == CycleRow(t1, t2, t3)
    ensures forall t3 :: t3 in ts && Cycle(t1, t2, t3) ==> CycleRow(t1, t2, t3) in r
  {
    if |ts| == 0 then []
    else
      var rest := ClosingLegs(t1, t2, ts[1..]);
      assert forall t :: t in ts <==> t == ts[0] || t in ts[1..];
      (if Cycle(t1, t2, ts[0]) then [CycleRow(t1, t2, ts[0])] else []) + rest
  }

  /** Rows for a fixed first leg, second leg ranging over `ts`. */
  function MiddleLegs(t1: Transaction, ts: seq<Transaction>, all: seq<Transaction>): (r: seq<seq<Transaction>>)
    ensures forall row :: row in r ==>
      exists t2, t3 :: t2 in ts && t3 in all && Cycle(t1, t2, t3) && row == CycleRow(t1, t2, t3)
    ensures forall t2, t3 :: t2 in ts && t3 in all && Cycle(t1, t2, t3) ==> CycleRow(t1, t2, t3) in r
  {
    if |ts| == 0 then []
    else
      var here := ClosingLegs(t1, ts[0], all);
      var rest := MiddleLegs(t1, ts[1..], all);
      assert forall t :: t in ts <==> t == ts[0] || t in ts[1..];
      here + rest
  }

  /** Every row the path pattern matches, first leg ranging over `ts`. */
  function CycleRows(ts: seq<Transaction>, all: seq<Transaction>): (r: seq<seq<Transaction>>)
    ensures forall row :: row in r ==>
      exists t1, t2, t3 :: t1 in ts && t2 in all && t3 in all && Cycle(t1, t2, t3) && row == CycleRow(t1, t2, t3)
    ensures forall t1, t2, t3 :: t1 in ts && t2 in all && t3 in all && Cycle(t1, t2, t3) ==>
      CycleRow(t1, t2, t3) in r
  {
    if |ts| == 0 then []
    else
      var here := MiddleLegs(ts[0], all, all);
      var rest := CycleRows(ts[1..], all);
      assert forall t :: t in ts <==> t == ts[0] || t in ts[1..];
      here + rest
  }

  const CycleLimit: nat := 100

  /** `find_circular_transactions`: only three-transaction cycles are
      matched, `maxLen` is not used, the row limit of 100 applies before the
      length filter, and that filter drops everything when `minLen` exceeds
      three. The starting account is not fixed, so each rotation of a cycle
      is its own row. */
  function FindCircular(g: Graph, minLen: int, maxLen: int): (r: seq<seq<Transaction>>)
    ensures minLen > 3 ==> r == []
    ensures |r| <= CycleLimit
    ensures forall row :: row in r ==>
      |row| == 3 && exists t1, t2, t3 :: t1 in g.txns && t2 in g.txns && t3 in g.txns
                                           && Cycle(t1, t2, t3) && row == CycleRow(t1, t2, t3)
    ensures minLen <= 3 && |CycleRows(g.txns, g.txns)| <= CycleLimit ==>
      forall t1, t2, t3 :: t1 in g.txns && t2 in g.txns && t3 in g.txns && Cycle(t1, t2, t3) ==>
        CycleRow(t1, t2, t3) in r
  {
    var rows := CycleRows(g.txns, g.txns);
    var limited := rows[..if |rows| <= CycleLimit then |rows| else CycleLimit];
    assert forall row :: row in limited ==> row in rows;
    if minLen <= 3 then limited else []
  }

  /** Every rotation of a matched cycle is matched too, as a different row. */
  lemma CycleRotations(g: Graph, t1: Transaction, t2: Transaction, t3: Transaction)
    requires t1 in g.txns && t2 in g.txns && t3 in g.txns && Cycle(t1, t2, t3)
    ensures Cycle(t2, t3, t1) && Cycle(t3, t1, t2)
    ensures CycleRow(t1, t2, t3) in CycleRows(g.txns, g.txns)
    ensures CycleRow(t2, t3, t1) in CycleRows(g.txns, g.txns)
    ensures CycleRow(t3, t1, t2) in CycleRows(g.txns, g.txns)
  {
  }

  // ---------------------------------------------------------------------------
  // Fan-out and fan-in

  /** Fan-out groups by the debited account and counts recipients; fan-in
      groups by the credited account and counts senders. */
  datatype Direction = FanOut | FanIn

  function GroupKey(t: Transaction, d: Direction): Option<string>
  {
    if d == FanOut then t.from else t.to
  }

  function Counterpart(t: Transaction, d: Direction): Option<string>
  {
    if d == FanOut then t.to else t.from
  }

  /** A transaction the pattern matches: both relationships exist and the
      timestamp is at or after the cutoff. */
  predicate InWindow(t: Transaction, cutoff: Time)
  {
    t.from.Some? && t.to.Some? && t.timestamp >= cutoff
  }

  function Window(txns: seq<Transaction>, cutoff: Time): (r: seq<Transaction>)
    ensures forall t :: t in r <==> t in txns && InWindow(t, cutoff)
  {
    if |txns| == 0 then []
    else
      assert forall t :: t in txns <==> t == txns[0] || t in txns[1..];
      (if InWindow(txns[0], cutoff) then [txns[0]] else []) + Window(txns[1..], cutoff)
  }

  /** The accounts at the other end of `key`'s matched transactions. */
  function Partners(ts: seq<Transaction>, d: Direction, key: string): set<string>
  {
    set t | t in ts && GroupKey(t, d) == Some(key) && Counterpart(t, d).Some? :: Counterpart(t, d).value
  }

  /** `count(DISTINCT ...)`: the counterpart ids, each once. */
  function DistinctPartners(ts: seq<Transaction>, d: Direction, key: string): (r: seq<string>)
    ensures forall x :: x in r <==> x in Partners(ts, d, key)
    ensures NoDup(r)
  {
    if |ts| == 0 then []
    else
      var rest := DistinctPartners(ts[1..], d, key);
      assert forall t :: t in ts <==> t == ts[0] || t in ts[1..];
      var t := ts[0];
      if GroupKey(t, d) == Some(key) && Counterpart(t, d).Some? && Counterpart(t, d).value !in rest then
        [Counterpart(t, d).value] + rest
      else rest
  }

  /** `sum(t.amount)` over the group's transactions. */
  function GroupTotal(ts: seq<Transaction>, d: Direction, key: string): real
  {
    if |ts| == 0 then 0.0
    else (if GroupKey(ts[0], d) == Some(key) then ts[0].amount else 0.0) + GroupTotal(ts[1..], d, key)
  }

  /** The grouping keys, each once. */
  function GroupKeys(ts: seq<Transaction>, d: Direction): (r: seq<string>)
    ensures forall k :: k in r <==> exists t :: t in ts && GroupKey(t, d) == Some(k)
    ensures NoDup(r)
  {
    if |ts| == 0 then []
    else
      var rest := GroupKeys(ts[1..], d);
      assert forall t :: t in ts <==> t == ts[0] || t in ts[1..];
      var k := GroupKey(ts[0], d);
      if k.Some? && k.value !in rest then [k.value] + rest else rest
  }

  /** One result row: the grouped account, its distinct counterpart count
      and the total amount of its matched transactions. */
  datatype FanRow = FanRow(account: string, count: nat, total: real)

  function CountOf(row: FanRow): real
  {
    row.count as real
  }

  function FanRows(keys: seq<string>, ts: seq<Transaction>, d: Direction, minCount: int): (r: seq<FanRow>)
    requires NoDup(keys)
    ensures forall row :: row in r ==>
      row.account in keys && row.count == |Partners(ts, d, row.account)| && row.count >= minCount
      && row.total == GroupTotal(ts, d, row.account)
    ensures forall k :: k in keys && |Partners(ts, d, k)| >= minCount ==> exists row :: row in r && row.account == k
    ensures forall i, j :: 0 <= i < j < |r| ==> r[i].account != r[j].account
  {
    if |keys| == 0 then []
    else
      assert NoDup(keys[1..]) by {
        forall i, j | 0 <= i < j < |keys[1..]| ensures keys[1..][i] != keys[1..][j] {
          assert keys[1..][i] == keys[i + 1] && keys[1..][j] == keys[j + 1];
        }
      }
      var rest := FanRows(keys[1..], ts, d, minCount);
      var k := keys[0];
      var partners := DistinctPartners(ts, d, k);
      NoDupCard(partners);
      assert (set x | x in partners) == Partners(ts, d, k);
      assert forall x :: x in keys <==> x == k || x in keys[1..];
      assert k !in keys[1..] by {
        forall m | 0 <= m < |keys[1..]| ensures keys[1..][m] != k {
          assert keys[1..][m] == keys[m + 1];
        }
      }
      if |partners| >= minCount then
        ConsDistinctAccounts(FanRow(k, |partners|, GroupTotal(ts, d, k)), rest);
        [FanRow(k, |partners|, GroupTotal(ts, d, k))] + rest
      else rest
  }

  /** A row whose account is new keeps the accounts of the rows distinct. */
  lemma ConsDistinctAccounts(row: FanRow, rest: seq<FanRow>)
    requires forall i, j :: 0 <= i < j < |rest| ==> rest[i].account != rest[j].account
    requires forall x :: x in rest ==> x.account != row.account
    ensures var r := [row] + rest;
      forall i, j :: 0 <= i < j < |r| ==> r[i].account != r[j].account
  {
    var r := [row] + rest;
    forall i, j | 0 <= i < j < |r| ensures r[i].account != r[j].account {
      assert r[j] == rest[j - 1] && rest[j - 1] in rest;
      if i > 0 {
        assert r[i] == rest[i - 1];
      }
    }
  }

  /** Rows with distinct accounts stay so when rearranged. */
  lemma SortedDistinctAccounts(rows: seq<FanRow>, sorted: seq<FanRow>)
    requires multiset(rows) == multiset(sorted)
    requires forall i, j :: 0 <= i < j < |rows| ==> rows[i].account != rows[j].account
    ensures forall i, j :: 0 <= i < j < |sorted| ==> sorted[i].account != sorted[j].account
  {
    NoDupPermutation(rows, sorted);
    forall i, j | 0 <= i < j < |sorted| ensures sorted[i].account != sorted[j].account {
      assert sorted[i] in multiset(rows) && sorted[j] in multiset(rows);
      var a :| 0 <= a < |rows| && rows[a] == sorted[i];
      var b :| 0 <= b < |rows| && rows[b] == sorted[j];
      assert sorted[i] != sorted[j];
    }
  }

  /** `detect_fan_out_pattern` / `detect_fan_in_pattern`: per account, the
      distinct counterparts among transactions since `now - hours`, kept when
      there are at least `minCount`, largest count first. */
  function DetectFan(g: Graph, d: Direction, minCount: int, now: Time, hours: int): (r: seq<FanRow>)
    ensures SortedDesc(r, CountOf)
    ensures forall row :: row in r ==>
      && row.count >= minCount
      && row.count == |Partners(Window(g.txns, now - hours * MinutesPerHour), d, row.account)|
      && row.total == GroupTotal(Window(g.txns, now - hours * MinutesPerHour), d, row.account)
      && exists t :: t in g.txns && InWindow(t, now - hours * MinutesPerHour) && GroupKey(t, d) == Some(row.account)
    ensures forall t :: (t in g.txns && InWindow(t, now - hours * MinutesPerHour) &&
      |Partners(Window(g.txns, now - hours * MinutesPerHour), d, GroupKey(t, d).value)| >= minCount) ==>
      exists row :: row in r && Some(row.account) == GroupKey(t, d)
    ensures forall r1, r2 :: r1 in r && r2 in r && r1.account == r2.account ==> r1 == r2
  {
    var ts := Window(g.txns, now - hours * MinutesPerHour);
    var keys := GroupKeys(ts, d);
    var rows := FanRows(keys, ts, d, minCount);
    var sorted := SortDesc(rows, CountOf);
    assert forall row :: row in sorted <==> row in rows by {
      forall row { SortDescMembers(rows, CountOf, row); }
    }
    assert forall t :: t in ts ==> GroupKey(t, d).Some? by {
      forall t | t in ts ensures GroupKey(t, d).Some? { assert InWindow(t, now - hours * MinutesPerHour); }
    }
    sorted
  }

  /** The aggregation yields one row per grouping key: no account has two
      rows. */
  lemma DetectFanOneRowPerAccount(g: Graph, d: Direction, minCount: int, now: Time, hours: int)
    ensures var r := DetectFan(g, d, minCount, now, hours);
      forall i, j :: 0 <= i < j < |r| ==> r[i].account != r[j].account
  {
    var ts := Window(g.txns, now - hours * MinutesPerHour);
    var rows := FanRows(GroupKeys(ts, d), ts, d, minCount);
    SortedDistinctAccounts(rows, SortDesc(rows, CountOf));
  }

  /** Fan-out confidence in the detection service is count / 10 capped at
      0.9: the count alone decides the order of confidences too. */
  lemma FanCountsAreDistinctRecipients(g: Graph, now: Time, hours: int, row: FanRow)
    requires row in DetectFan(g, FanOut, 1, now, hours)
    ensures row.count >= 1
    ensures forall x :: x in Partners(Window(g.txns, now - hours * MinutesPerHour), FanOut, row.account) ==>
      exists t :: t in g.txns && t.from == Some(row.account) && t.to == Some(x)
                  && t.timestamp >= now - hours * MinutesPerHour
  {
  }

  // ---------------------------------------------------------------------------
  // Money mules

  /** `duration.between(t_in, t_out)` in whole hours, truncated toward zero
      (negative when the outgoing transaction is the earlier one). */
  function HoldHours(tin: Transaction, tout: Transaction): (h: int)
    ensures tout.timestamp >= tin.timestamp ==>
      h * MinutesPerHour <= tout.timestamp - tin.timestamp < (h + 1) * MinutesPerHour
    ensures tout.timestamp < tin.timestamp ==>
      (h - 1) * MinutesPerHour < tout.timestamp - tin.timestamp <= h * MinutesPerHour
  {
    var elapsed := tout.timestamp - tin.timestamp;
    if elapsed >= 0 then elapsed / MinutesPerHour else -((-elapsed) / MinutesPerHour)
  }

  /** `duration.between(t_in.timestamp, t_out.timestamp).hours` as the query
      writes it. A duration between two date-times keeps whole days apart
      from the time of day, and `.hours` reads the time-of-day part only: the
      elapsed hours modulo a day, carrying the sign of the gap. */
  function HourComponent(tin: Transaction, tout: Transaction): (h: int)
    ensures -24 < h < 24
    ensures tout.timestamp >= tin.timestamp ==> h == HoldHours(tin, tout) % 24
    ensures tout.timestamp < tin.timestamp ==> h == -((-HoldHours(tin, tout)) % 24)
  {
    var elapsed := tout.timestamp - tin.timestamp;
    if elapsed >= 0 then
      DayRemainder(elapsed);
      (elapsed % MinutesPerDay) / MinutesPerHour
    else
      DayRemainder(-elapsed);
      -(((-elapsed) % MinutesPerDay) / MinutesPerHour)
  }

  /** The hour of the leftover day is the whole hours modulo 24. */
  lemma DayRemainder(e: nat)
    ensures (e % MinutesPerDay) / MinutesPerHour == (e / MinutesPerHour) % 24
    ensures (e % MinutesPerDay) / MinutesPerHour < 24
  {
    var d := e / MinutesPerDay;
    var m := e % MinutesPerDay;
    assert e == d * MinutesPerDay + m && 0 <= m < MinutesPerDay;
    var hm := m / MinutesPerHour;
    assert m == hm * MinutesPerHour + m % MinutesPerHour;
    assert e == (d * 24 + hm) * MinutesPerHour + m % MinutesPerHour;
    assert e / MinutesPerHour == d * 24 + hm;
  }

  /** The join condition as written: the hour component against the limit. */
  predicate HoldPairAsWritten(tin: Transaction, tout: Transaction, id: string, maxHold: int)
  {
    tin.to == Some(id) && tout.from == Some(id) && HourComponent(tin, tout) <= maxHold
  }

  /** With any limit of a day or more, the default of 48 included, the
      written filter lets every pair of an incoming and an outgoing
      transaction through, however far apart they are. */
  lemma HourFilterNeverExcludes(tin: Transaction, tout: Transaction, id: string, maxHold: int)
    requires maxHold >= 23
    ensures HoldPairAsWritten(tin, tout, id, maxHold) <==> tin.to == Some(id) && tout.from == Some(id)
  {
  }

  /** Money held for 50 hours: the hour component is 2, so the written
      filter joins the pair, while the elapsed time of 50 hours is over the
      48-hour limit. */
  lemma FiftyHourHold(tin: Transaction, tout: Transaction, id: string)
    requires tin.to == Some(id) && tout.from == Some(id)
    requires tout.timestamp == tin.timestamp + 50 * MinutesPerHour
    ensures HourComponent(tin, tout) == 2
    ensures HoldPairAsWritten(tin, tout, id, 48)
    ensures HoldHours(tin, tout) == 50 && !HoldPair(tin, tout, id, 48)
  {
  }

  /** A joined row of the two MATCH clauses: `tin` credits the account,
      `tout` debits it, within the hold time. Both clauses match
      independently, so one transaction may appear in many rows. */
  predicate HoldPair(tin: Transaction, tout: Transaction, id: string, maxHold: int)
  {
    tin.to == Some(id) && tout.from == Some(id) && HoldHours(tin, tout) <= maxHold
  }

  function PairsWith(tin: Transaction, outs: seq<Transaction>, id: string, maxHold: int)
    : (r: seq<(Transaction, Transaction)>)
    ensures forall p :: p in r <==> p.0 == tin && p.1 in outs && HoldPair(tin, p.1, id, maxHold)
    ensures forall k :: 0 <= k < |r| ==> r[k].0 == tin
  {
    if |outs| == 0 then []
    else
      assert forall t :: t in outs <==> t == outs[0] || t in outs[1..];
      (if HoldPair(tin, outs[0], id, maxHold) then [(tin, outs[0])] else [])
      + PairsWith(tin, outs[1..], id, maxHold)
  }

  function HoldPairs(ins: seq<Transaction>, outs: seq<Transaction>, id: string, maxHold: int)
    : (r: seq<(Transaction, Transaction)>)
    ensures forall p :: p in r <==> p.0 in ins && p.1 in outs && HoldPair(p.0, p.1, id, maxHold)
  {
    if |ins| == 0 then []
    else
      assert forall t :: t in ins <==> t == ins[0] || t in ins[1..];
      PairsWith(ins[0], outs, id, maxHold) + HoldPairs(ins[1..], outs, id, maxHold)
  }

  function SumIn(ps: seq<(Transaction, Transaction)>): real
  {
    if |ps| == 0 then 0.0 else ps[0].0.amount + SumIn(ps[1..])
  }

  function SumOut(ps: seq<(Transaction, Transaction)>): real
  {
    if |ps| == 0 then 0.0 else ps[0].1.amount + SumOut(ps[1..])
  }

  /** The mule test on the joined rows: incoming total at least the
      threshold, outgoing total within 10% of it. A zero incoming total makes
      the ratio undefined and the comparison false. */
  predicate MuleTotals(totalIn: real, totalOut: real, minThroughput: real)
  {
    totalIn > 0.0 && totalIn >= minThroughput && Abs(totalIn - totalOut) < 0.1 * totalIn
  }

  predicate IsMule(g: Graph, a: Account, minThroughput: real, maxHold: int)
  {
    var ps := HoldPairs(g.txns, g.txns, a.id, maxHold);
    MuleTotals(SumIn(ps), SumOut(ps), minThroughput)
  }

  /** `detect_mule_accounts`: the account nodes passing the mule test, in
      node order. */
  function DetectMules(accounts: seq<Account>, g: Graph, minThroughput: real, maxHold: int): (r: seq<Account>)
    ensures forall a :: a in r <==> a in accounts && IsMule(g, a, minThroughput, maxHold)
    ensures |r| <= |accounts|
  {
    if |accounts| == 0 then []
    else
      assert forall a :: a in accounts <==> a == accounts[0] || a in accounts[1..];
      (if IsMule(g, accounts[0], minThroughput, maxHold) then [accounts[0]] else [])
      + DetectMules(accounts[1..], g, minThroughput, maxHold)
  }

  /** `n` copies of `x` added up. */
  function Repeat(n: nat, x: real): (r: real)
  {
    if n == 0 then 0.0 else x + Repeat(n - 1, x)
  }

  lemma {:induction false} RepeatIsProduct(n: nat, x: real)
    ensures Repeat(n, x) == n as real * x
  {
    if n > 0 {
      RepeatIsProduct(n - 1, x);
      assert (n - 1) as real * x + x == n as real * x;
    }
  }

  /** The sums run over joined rows, not over distinct transactions: one
      incoming transaction paired with k outgoing ones adds its amount k
      times to the incoming total. */
  lemma IncomingCountedPerPair(tin: Transaction, outs: seq<Transaction>, id: string, maxHold: int)
    ensures SumIn(PairsWith(tin, outs, id, maxHold)) == Repeat(|PairsWith(tin, outs, id, maxHold)|, tin.amount)
  {
    SumInRepeated(PairsWith(tin, outs, id, maxHold), tin);
  }

  lemma {:induction false} SumInRepeated(ps: seq<(Transaction, Transaction)>, tin: Transaction)
    requires forall k :: 0 <= k < |ps| ==> ps[k].0 == tin
    ensures SumIn(ps) == Repeat(|ps|, tin.amount)
  {
    if |ps| > 0 {
      SumInRepeated(ps[1..], tin);
    }
  }

  lemma {:induction false} SumInConcat(a: seq<(Transaction, Transaction)>, b: seq<(Transaction, Transaction)>)
    ensures SumIn(a + b) == SumIn(a) + SumIn(b)
  {
    if |a| == 0 {
      assert a + b == b;
    } else {
      assert (a + b)[0] == a[0];
      assert (a + b)[1..] == a[1..] + b;
      SumInConcat(a[1..], b);
    }
  }

  /** A deposit of 10000 forwarded as two withdrawals of 5000 within the hold
      time is not a mule: the joined rows total 20000 in and 10000 out,
      although the distinct transactions total 10000 each way. */
  lemma SplitForwardingIsNotMule(tin: Transaction, o1: Transaction, o2: Transaction, id: string)
    requires tin.amount == 10000.0 && o1.amount == 5000.0 && o2.amount == 5000.0
    requires HoldPair(tin, o1, id, 48) && HoldPair(tin, o2, id, 48)
    ensures SumIn(HoldPairs([tin], [o1, o2], id, 48)) == 20000.0
    ensures SumOut(HoldPairs([tin], [o1, o2], id, 48)) == 10000.0
    ensures !MuleTotals(20000.0, 10000.0, 10000.0)
    ensures MuleTotals(10000.0, 10000.0, 10000.0)
  {
    var ps := [(tin, o1), (tin, o2)];
    assert [o1, o2][1..] == [o2];
    assert [o2][1..] == [];
    assert PairsWith(tin, [o2], id, 48) == [(tin, o2)];
    assert PairsWith(tin, [o1, o2], id, 48) == ps;
    assert [tin][1..] == [];
    assert HoldPairs([tin], [o1, o2], id, 48) == ps + [];
    assert ps[1..] == [(tin, o2)];
    assert ps[1..][1..] == [];
    assert SumIn(ps[1..]) == 10000.0;
    assert SumOut(ps[1..]) == 5000.0;
  }

  // ---------------------------------------------------------------------------
  // Shared infrastructure

  /** The customers with a USED_DEVICE relationship to the device. */
  function DeviceUsers(g: Graph, device: string): set<string>
  {
    set p | p in g.deviceUse && p.1 == device :: p.0
  }

  /** The matched customer pairs: two users of the device, the first id
      strictly smaller. */
  function DevicePairs(g: Graph, device: string): set<(string, string)>
  {
    set p, q | p in g.deviceUse && q in g.deviceUse && p.1 == device && q.1 == device && Less(p.0, q.0)
      :: (p.0, q.0)
  }

  /** The pair condition admits no self-pair, orients every pair one way,
      and covers every two distinct users. */
  lemma DevicePairsOriented(g: Graph, device: string, x: string, y: string)
    ensures (x, y) in DevicePairs(g, device) ==> x != y && (y, x) !in DevicePairs(g, device)
    ensures x in DeviceUsers(g, device) && y in DeviceUsers(g, device) && x != y ==>
      (x, y) in DevicePairs(g, device) || (y, x) in DevicePairs(g, device)
  {
    if (x, y) in DevicePairs(g, device) {
      LessIrreflexive(x);
      LessAsymmetric(x, y);
    }
    if x in DeviceUsers(g, device) && y in DeviceUsers(g, device) && x != y {
      LessTotal(x, y);
      var p :| p in g.deviceUse && p.1 == device && p.0 == x;
      var q :| q in g.deviceUse && q.1 == device && q.0 == y;
      if Less(x, y) {
        assert (p.0, q.0) in DevicePairs(g, device);
      } else {
        assert (q.0, p.0) in DevicePairs(g, device);
      }
    }
  }

  /** A shared-infrastructure row: the infrastructure id with the collected
      distinct first and second members of its pairs. */
  datatype InfraRow = InfraRow(id: string, firsts: set<string>, seconds: set<string>)

  function Firsts(pairs: set<(string, string)>): set<string>
  {
    set p | p in pairs :: p.0
  }

  function Seconds(pairs: set<(string, string)>): set<string>
  {
    set p | p in pairs :: p.1
  }

  /** A row with some pair has someone on each side. */
  lemma PairSides(pairs: set<(string, string)>)
    ensures pairs != {} ==> Firsts(pairs) != {} && Seconds(pairs) != {}
  {
    if pairs != {} {
      var pr :| pr in pairs;
      assert pr.0 in Firsts(pairs) && pr.1 in Seconds(pairs);
    }
  }

  /** `count(DISTINCT c1) + count(DISTINCT c2)` as the query writes it. */
  function UserCountAsWritten(row: InfraRow): nat
  {
    |row.firsts| + |row.seconds|
  }

  /** The number of distinct customers in the row. */
  function UserCount(row: InfraRow): (n: nat)
    ensures n <= UserCountAsWritten(row)
  {
    var all := row.firsts + row.seconds;
    assert all <= row.firsts + row.seconds;
    SetUnionCard(row.firsts, row.seconds);
    |all|
  }

  lemma SetUnionCard<T>(a: set<T>, b: set<T>)
    ensures |a + b| <= |a| + |b|
  {
    assert |a + b| == |a| + |b - a|;
    assert b - a <= b;
  }

  function DeviceRow(g: Graph, device: string): InfraRow
  {
    var pairs := DevicePairs(g, device);
    InfraRow(device, Firsts(pairs), Seconds(pairs))
  }

  /** The members of a device row are exactly the device's users, as soon
      as it has two. */
  lemma {:induction false} DeviceRowMembers(g: Graph, device: string)
    requires |DeviceUsers(g, device)| >= 2
    ensures DeviceRow(g, device).firsts + DeviceRow(g, device).seconds == DeviceUsers(g, device)
    ensures UserCount(DeviceRow(g, device)) == |DeviceUsers(g, device)|
  {
    var users := DeviceUsers(g, device);
    var row := DeviceRow(g, device);
    var pairs := DevicePairs(g, device);
    forall x | x in users ensures x in row.firsts + row.seconds {
      var y :| y in users && y != x by {
        var a :| a in users;
        var b :| b in users - {a} by {
          assert |users - {a}| >= 1;
        }
        if a == x { assert b in users && b != x; } else { assert a in users && a != x; }
      }
      DevicePairsOriented(g, device, x, y);
      if (x, y) in pairs {
        assert x in Firsts(pairs);
      } else {
        assert x in Seconds(pairs);
      }
    }
    forall x | x in row.firsts + row.seconds ensures x in users {
      if x in Firsts(pairs) {
        var pr :| pr in pairs && pr.0 == x;
      } else {
        var pr :| pr in pairs && pr.1 == x;
      }
    }
  }

  /** Three customers on one device: the query reports a user count of 4,
      while the device has 3 distinct users. */
  lemma UserCountOvercounts(g: Graph)
    requires g.deviceUse == {("a", "d"), ("b", "d"), ("c", "d")}
    ensures |DeviceUsers(g, "d")| == 3
    ensures UserCountAsWritten(DeviceRow(g, "d")) == 4
    ensures UserCount(DeviceRow(g, "d")) == 3
  {
    ThreeUsers(g);
    ThreeRow(g);
    ThreeCounts();
  }

  /** Example for `UserCountOvercounts`: the row the query writes for the three-user device. */
  lemma ThreeRow(g: Graph)
    requires g.deviceUse == {("a", "d"), ("b", "d"), ("c", "d")}
    ensures DeviceRow(g, "d") == InfraRow("d", {"a", "b"}, {"b", "c"})
  {
    ThreePairs(g);
    ThreeEnds();
  }

  /** Example for `UserCountOvercounts`: the set arithmetic of the three-user row. */
  lemma ThreeCounts()
    ensures |{"a", "b"}| == 2 && |{"b", "c"}| == 2
    ensures {"a", "b"} + {"b", "c"} == {"a", "b", "c"} && |{"a", "b", "c"}| == 3
  {
  }

  /** Example for `UserCountOvercounts`: the first and second ids of the three oriented pairs. */
  lemma ThreeEnds()
    ensures Firsts({("a", "b"), ("a", "c"), ("b", "c")}) == {"a", "b"}
    ensures Seconds({("a", "b"), ("a", "c"), ("b", "c")}) == {"b", "c"}
  {
    var pairs := {("a", "b"), ("a", "c"), ("b", "c")};
    assert ("a", "b") in pairs && ("b", "c") in pairs;
  }

  /** Example for `UserCountOvercounts`: the three users of the device. */
  lemma ThreeUsers(g: Graph)
    requires g.deviceUse == {("a", "d"), ("b", "d"), ("c", "d")}
    ensures DeviceUsers(g, "d") == {"a", "b", "c"}
  {
    var users := DeviceUsers(g, "d");
    assert ("a", "d") in g.deviceUse && ("b", "d") in g.deviceUse && ("c", "d") in g.deviceUse;
    assert "a" in users && "b" in users && "c" in users;
  }

  /** Example for `UserCountOvercounts`: the oriented pairs of the three users. */
  lemma ThreePairs(g: Graph)
    requires g.deviceUse == {("a", "d"), ("b", "d"), ("c", "d")}
    ensures DevicePairs(g, "d") == {("a", "b"), ("a", "c"), ("b", "c")}
  {
    var pairs := DevicePairs(g, "d");
    assert Less("a", "b") && Less("b", "c") && Less("a", "c");
    assert ("a", "d") in g.deviceUse && ("b", "d") in g.deviceUse && ("c", "d") in g.deviceUse;
    assert ("a", "b") in pairs && ("a", "c") in pairs && ("b", "c") in pairs;
    forall pr | pr in pairs ensures pr in {("a", "b"), ("a", "c"), ("b", "c")} {
      var p, q :| p in g.deviceUse && q in g.deviceUse && p.1 == "d" && q.1 == "d" && Less(p.0, q.0)
                  && pr == (p.0, q.0);
      assert !Less("b", "a") && !Less("c", "a") && !Less("c", "b");
      LessIrreflexive(p.0);
    }
  }

  /** The accounts at either end of a transaction. */
  function Ends(t: Transaction): set<string>
  {
    (if t.from.Some? then {t.from.value} else {}) + (if t.to.Some? then {t.to.value} else {})
  }

  /** The matched account pairs for an IP: two different transactions from
      that address, an account of each, the first id strictly smaller. */
  function IpPairs(g: Graph, address: string): set<(string, string)>
  {
    set i, j, a1, a2 | 0 <= i < |g.txns| && 0 <= j < |g.txns| && i != j
                       && g.txns[i].ip == Some(address) && g.txns[j].ip == Some(address)
                       && a1 in Ends(g.txns[i]) && a2 in Ends(g.txns[j]) && Less(a1, a2)
      :: (a1, a2)
  }

  function IpRow(g: Graph, address: string): InfraRow
  {
    var pairs := IpPairs(g, address);
    InfraRow(address, Firsts(pairs), Seconds(pairs))
  }

  /** IP pairs share the device pairs' orientation: no account is paired
      with itself, and no pair appears both ways. */
  lemma IpPairsOriented(g: Graph, address: string, x: string, y: string)
    ensures (x, y) in IpPairs(g, address) ==> x != y && (y, x) !in IpPairs(g, address)
  {
    if (x, y) in IpPairs(g, address) {
      LessIrreflexive(x);
      LessAsymmetric(x, y);
    }
  }

  /** The rows with someone on each side, in order: a device or address
      yields a row exactly when it has at least one pair. */
  function NonEmptyRows(rows: seq<InfraRow>): (r: seq<InfraRow>)
    ensures forall row :: row in r <==> row in rows && row.firsts != {} && row.seconds != {}
  {
    if |rows| == 0 then []
    else
      assert forall row :: row in rows <==> row == rows[0] || row in rows[1..];
      (if rows[0].firsts != {} && rows[0].seconds != {} then [rows[0]] else []) + NonEmptyRows(rows[1..])
  }

  function DeviceRows(g: Graph, devices: seq<Device>): (r: seq<InfraRow>)
    ensures forall row :: row in r ==> row.firsts != {} && row.seconds != {}
    ensures forall row :: row in r ==> exists dv :: dv in devices && row == DeviceRow(g, dv.id)
    ensures forall dv :: dv in devices && DevicePairs(g, dv.id) != {} ==> DeviceRow(g, dv.id) in r
  {
    var all := seq(|devices|, i requires 0 <= i < |devices| => DeviceRow(g, devices[i].id));
    assert forall dv :: dv in devices ==> DeviceRow(g, dv.id) in all by {
      forall dv | dv in devices ensures DeviceRow(g, dv.id) in all {
        var i :| 0 <= i < |devices| && devices[i] == dv;
        assert all[i] == DeviceRow(g, dv.id);
      }
    }
    assert forall row :: row in all ==> exists dv :: dv in devices && row == DeviceRow(g, dv.id) by {
      forall row | row in all ensures exists dv :: dv in devices && row == DeviceRow(g, dv.id) {
        var i :| 0 <= i < |all| && all[i] == row;
        assert devices[i] in devices;
      }
    }
    assert forall dv :: dv in devices && DevicePairs(g, dv.id) != {} ==>
      DeviceRow(g, dv.id).firsts != {} && DeviceRow(g, dv.id).seconds != {} by {
      forall dv | dv in devices && DevicePairs(g, dv.id) != {}
        ensures DeviceRow(g, dv.id).firsts != {} && DeviceRow(g, dv.id).seconds != {}
      {
        PairSides(DevicePairs(g, dv.id));
      }
    }
    NonEmptyRows(all)
  }

  function IpRows(g: Graph, ips: seq<IpAddress>): (r: seq<InfraRow>)
    ensures forall row :: row in r ==> row.firsts != {} && row.seconds != {}
    ensures forall row :: row in r ==> exists ip :: ip in ips && row == IpRow(g, ip.address) && IpPairs(g, ip.address) != {}
    ensures forall ip :: ip in ips && IpPairs(g, ip.address) != {} ==> IpRow(g, ip.address) in r
  {
    var all := seq(|ips|, i requires 0 <= i < |ips| => IpRow(g, ips[i].address));
    assert forall ip :: ip in ips ==> IpRow(g, ip.address) in all by {
      forall ip | ip in ips ensures IpRow(g, ip.address) in all {
        var i :| 0 <= i < |ips| && ips[i] == ip;
        assert all[i] == IpRow(g, ip.address);
      }
    }
    assert forall row :: row in all && row.firsts != {} ==>
      exists ip :: ip in ips && row == IpRow(g, ip.address) && IpPairs(g, ip.address) != {} by {
      forall row | row in all && row.firsts != {}
        ensures exists ip :: ip in ips && row == IpRow(g, ip.address) && IpPairs(g, ip.address) != {}
      {
        var i :| 0 <= i < |all| && all[i] == row;
        assert ips[i] in ips;
        var x :| x in row.firsts;
      }
    }
    assert forall ip :: ip in ips && IpPairs(g, ip.address) != {} ==>
      IpRow(g, ip.address).firsts != {} && IpRow(g, ip.address).seconds != {} by {
      forall ip | ip in ips && IpPairs(g, ip.address) != {}
        ensures IpRow(g, ip.address).firsts != {} && IpRow(g, ip.address).seconds != {}
      {
        PairSides(IpPairs(g, ip.address));
      }
    }
    NonEmptyRows(all)
  }

  /** `find_shared_infrastructure`: "device" selects device rows; any other
      kind, "address" included, runs the IP query. */
  function FindSharedInfrastructure(g: Graph, kind: string): (r: seq<InfraRow>)
    ensures kind == "device" ==> forall row :: row in r ==>
      exists dv :: dv in g.devices && row == DeviceRow(g, dv.id) && |DeviceUsers(g, dv.id)| >= 2
    ensures kind != "device" ==> forall row :: row in r ==>
      exists ip :: ip in g.ips && row == IpRow(g, ip.address) && IpPairs(g, ip.address) != {}
    ensures kind == "device" ==> forall dv :: dv in g.devices && |DeviceUsers(g, dv.id)| >= 2 ==>
      DeviceRow(g, dv.id) in r
    ensures kind != "device" ==> forall ip :: ip in g.ips && IpPairs(g, ip.address) != {} ==> IpRow(g, ip.address) in r
    ensures kind != "device" ==> forall row :: row in r ==> row.firsts != {} && row.seconds != {}
  {
    if kind == "device" then
      var rows := DeviceRows(g, g.devices);
      assert forall dv :: dv in g.devices ==> (DevicePairs(g, dv.id) != {} <==> |DeviceUsers(g, dv.id)| >= 2) by {
        forall dv | dv in g.devices
          ensures DevicePairs(g, dv.id) != {} <==> |DeviceUsers(g, dv.id)| >= 2
        {
          DeviceHasPairs(g, dv.id);
        }
      }
      rows
    else IpRows(g, g.ips)
  }

  /** A device has a pair exactly when it has two users. */
  lemma DeviceHasPairs(g: Graph, device: string)
    ensures DevicePairs(g, device) != {} <==> |DeviceUsers(g, device)| >= 2
  {
    if DevicePairs(g, device) != {} {
      PairMeansTwoUsers(g, device);
    }
    if |DeviceUsers(g, device)| >= 2 {
      TwoUsersMeanPair(g, device);
    }
  }

  lemma PairMeansTwoUsers(g: Graph, device: string)
    requires DevicePairs(g, device) != {}
    ensures |DeviceUsers(g, device)| >= 2
  {
    var users := DeviceUsers(g, device);
    var pr :| pr in DevicePairs(g, device);
    DevicePairsOriented(g, device, pr.0, pr.1);
    assert pr.0 in users && pr.1 in users;
    assert {pr.0, pr.1} <= users;
    assert |{pr.0, pr.1}| == 2;
    SubsetCard({pr.0, pr.1}, users);
  }

  lemma TwoUsersMeanPair(g: Graph, device: string)
    requires |DeviceUsers(g, device)| >= 2
    ensures DevicePairs(g, device) != {}
  {
    var users := DeviceUsers(g, device);
    var a :| a in users;
    var b :| b in users - {a} by {
      assert |users - {a}| >= 1;
    }
    DevicePairsOriented(g, device, a, b);
  }

  lemma SubsetCard<T>(a: set<T>, b: set<T>)
    requires a <= b
    ensures |a| <= |b|
  {
    assert b == a + (b - a);
  }
}

=== FILE: Investigation.dfy ===
/** The analyst-facing investigation service: risk categories, the
    dashboard summary, account and customer investigations, the detection
    sweep that re-scores the accounts behind flagged transactions, and the
    account lists behind each pattern kind. The pattern lists recover
    account ids from the evidence strings the detectors write, parsing them
    the way the service does. */
module Investigation {
  import opened Base
  import opened Text
  import opened Entities
  import opened ValueObjects
  import opened Sorting
  import opened Graph
  import opened GraphQueries
  import opened Stores
  import opened Scoring
  import opened Detection

  // ---------------------------------------------------------------------------
  // Risk categories

  /** `get_risk_category`: the band a 0-100 score falls in. */
  function RiskCategory(score: real): (c: string)
    ensures c == "CRITICAL" <==> score >= 80.0
    ensures c == "HIGH" <==> 60.0 <= score < 80.0
    ensures c == "MEDIUM" <==> 40.0 <= score < 60.0
    ensures c == "LOW" <==> score < 40.0
  {
    if score >= 80.0 then "CRITICAL"
    else if score >= 60.0 then "HIGH"
    else if score >= 40.0 then "MEDIUM"
    else "LOW"
  }

  /** The order of the bands, lowest first. */
  function CategoryRank(c: string): nat
  {
    if c == "CRITICAL" then 3 else if c == "HIGH" then 2 else if c == "MEDIUM" then 1 else 0
  }

  /** A higher score never falls in a lower band. */
  lemma RiskCategoryMonotone(lo: real, hi: real)
    requires lo <= hi
    ensures CategoryRank(RiskCategory(lo)) <= CategoryRank(RiskCategory(hi))
  {
  }

  // ---------------------------------------------------------------------------
  // Dashboard

  const DashboardFlaggedLimit: nat := 1000
  const DashboardRiskThreshold: real := 70.0

  datatype DashboardSummary = DashboardSummary(
    flaggedTransactions: nat,
    highRiskAccounts: nat,
    activeRings: nat,
    unresolvedAlerts: nat,
    criticalAlerts: nat,
    timestamp: Time)

  function CountCritical(alerts: seq<Alert>): (n: nat)
    ensures n <= |alerts|
    ensures n == 0 <==> forall a :: a in alerts ==> a.severity != Critical
  {
    if |alerts| == 0 then 0
    else
      assert forall a :: a in alerts <==> a == alerts[0] || a in alerts[1..];
      (if alerts[0].severity == Critical then 1 else 0) + CountCritical(alerts[1..])
  }

  /** The flagged listing is empty exactly when no transaction is flagged. */
  lemma NoFlaggedRows(g: Graph)
    ensures |FlaggedRows(g.txns)| == 0 <==> forall j :: 0 <= j < |g.txns| ==> !g.txns[j].flagged
  {
    var rows := FlaggedRows(g.txns);
    if |rows| > 0 {
      assert rows[0] in rows;
    }
    if exists j :: 0 <= j < |g.txns| && g.txns[j].flagged {
      var j :| 0 <= j < |g.txns| && g.txns[j].flagged;
      assert ReadBack(g.txns[j]) in rows;
    }
  }

  /** The critical alerts among the unresolved ones are the store's open
      critical alerts. */
  lemma {:induction false} CriticalOfUnresolved(alerts: seq<Alert>)
    ensures CountCritical(Unresolved(alerts)) == CountCriticalOpen(alerts)
  {
    if |alerts| > 0 {
      CriticalOfUnresolved(alerts[1..]);
      var rest := Unresolved(alerts[1..]);
      if !alerts[0].resolved {
        assert Unresolved(alerts) == [alerts[0]] + rest;
        assert ([alerts[0]] + rest)[1..] == rest;
      } else {
        assert Unresolved(alerts) == rest;
      }
    }
  }

  /** `get_dashboard_summary`: the flagged transactions (at most 1000), the
      accounts scoring at least 70, the rings under investigation, the
      unresolved alerts and the critical ones among them; each count is zero
      exactly when the store holds nothing of that kind. */
  function Dashboard(g: Graph, rings: RingStore, alerts: AlertStore, now: Time): (d: DashboardSummary)
    ensures d.flaggedTransactions ==
      if CountFlagged(g.txns) <= DashboardFlaggedLimit then CountFlagged(g.txns) else DashboardFlaggedLimit
    ensures d.flaggedTransactions == 0 <==> forall j :: 0 <= j < |g.txns| ==> !g.txns[j].flagged
    ensures d.highRiskAccounts == CountAtLeast(g.accounts, DashboardRiskThreshold)
    ensures d.highRiskAccounts == 0 <==> forall a :: a in g.accounts ==> a.riskScore < DashboardRiskThreshold
    ensures d.activeRings == if rings.RingMemory? then CountInvestigating(rings.rings) else 0
    ensures d.activeRings == 0 <==>
      forall x :: rings.RingMemory? && x in rings.rings ==> x.status != Investigating
    ensures d.unresolvedAlerts == if alerts.AlertMemory? then CountUnresolved(alerts.alerts) else 0
    ensures d.unresolvedAlerts == 0 <==> forall a :: alerts.AlertMemory? && a in alerts.alerts ==> a.resolved
    ensures d.criticalAlerts == if alerts.AlertMemory? then CountCriticalOpen(alerts.alerts) else 0
    ensures d.criticalAlerts <= d.unresolvedAlerts
    ensures d.timestamp == now
  {
    var flagged := FindFlagged(g, DashboardFlaggedLimit);
    NoFlaggedRows(g);
    var high := FindHighRiskAccounts(g, DashboardRiskThreshold);
    assert |high| > 0 ==> high[0] in high;
    var active := ActiveRings(rings);
    assert |active| > 0 ==> active[0] in active;
    var open := UnresolvedAlerts(alerts);
    assert |open| > 0 ==> open[0] in open;
    CriticalOfUnresolved(if alerts.AlertMemory? then alerts.alerts else []);
    DashboardSummary(|flagged|, |high|, |active|, |open|, CountCritical(open), now)
  }

  /** Raising an alert moves the dashboard by exactly that alert: one more
      unresolved alert when it is open, one more critical when it is also
      critical, every other count as before. */
  lemma DashboardAfterSave(g: Graph, rings: RingStore, alerts: AlertStore, a: Alert, now: Time)
    requires alerts.AlertMemory?
    ensures var before := Dashboard(g, rings, alerts, now);
      var after := Dashboard(g, rings, SaveAlert(alerts, a).0, now);
      && after.unresolvedAlerts == before.unresolvedAlerts + (if !a.resolved then 1 else 0)
      && after.criticalAlerts == before.criticalAlerts + (if !a.resolved && a.severity == Critical then 1 else 0)
      && after.flaggedTransactions == before.flaggedTransactions
      && after.highRiskAccounts == before.highRiskAccounts
      && after.activeRings == before.activeRings
  {
    CountAppendAlert(alerts.alerts, a);
  }

  // ---------------------------------------------------------------------------
  // Account investigation

  const InvestigationWindowMinutes: int := 30 * MinutesPerDay
  const RecentListLength: int := 10

  datatype AccountInvestigation = AccountInvestigation(
    account: Account,
    risk: RiskScore,
    transactionCount: nat,
    flaggedCount: nat,
    velocityHour: nat,
    velocityDay: nat,
    recent: seq<Transaction>)

  /** `investigate_account`: the account's report, or an error when no
      account has the id. */
  function InvestigateAccount(g: Graph, id: string, now: Time, show: real -> string)
    : (r: Result<AccountInvestigation>)
    ensures r.Err? <==> !HasAccount(g.accounts, id)
    ensures r.Err? ==> r.msg == "Account not found"
    ensures r.Ok? ==> r.value.account in g.accounts && r.value.account.id == id
    ensures r.Ok? ==> r.value == InvestigationOf(g, r.value.account, now, show)
  {
    match FindAccount(g.accounts, id)
    case None => Err("Account not found")
    case Some(a) => Ok(InvestigationOf(g, a, now, show))
  }

  /** The report on a found account: the last thirty days of its
      transactions, its fresh risk score and its velocity over the last hour
      and day. */
  function InvestigationOf(g: Graph, a: Account, now: Time, show: real -> string): (v: AccountInvestigation)
    ensures v.account == a
    ensures v.risk.Valid() && v.risk.calculatedAt == now
    ensures v.risk.score == AccountAssessment(g, a, now).score
    ensures v.transactionCount == CountInTimeframe(g, a.id, now, InvestigationWindowMinutes)
    ensures v.flaggedCount == CountFlaggedSince(g.txns, a.id, now - InvestigationWindowMinutes)
    ensures v.flaggedCount <= v.transactionCount
    ensures v.velocityHour <= v.velocityDay <= v.transactionCount
    ensures v.recent == RecentTransactions(g, a.id, now)
  {
    var rows := FindByAccount(g, a.id, Some(now - InvestigationWindowMinutes), None);
    VelocityIsRowCount(g, a.id, now, InvestigationWindowMinutes);
    FlaggedInWindow(g, a.id, now - InvestigationWindowMinutes);
    VelocityNested(g, a.id, now);
    AccountInvestigation(a, AccountRisk(g, a, now, show), |rows|, CountFlagged(rows),
                         CountInTimeframe(g, a.id, now, MinutesPerHour),
                         CountInTimeframe(g, a.id, now, MinutesPerDay),
                         RecentTransactions(g, a.id, now))
  }

  /** The (at most ten) newest transactions of the account's last thirty
      days, newest first: none of the window's rows left out is newer than
      one kept, and with ten or fewer rows all are kept. */
  function RecentTransactions(g: Graph, id: string, now: Time): (r: seq<Transaction>)
    ensures |r| == if CountInTimeframe(g, id, now, InvestigationWindowMinutes) <= RecentListLength
                   then CountInTimeframe(g, id, now, InvestigationWindowMinutes) else RecentListLength
    ensures SortedDesc(r, Timestamp)
    ensures forall t :: t in r ==>
      t.timestamp >= now - InvestigationWindowMinutes && t in FindByAccount(g, id, Some(now - InvestigationWindowMinutes), None)
    ensures multiset(r) <= multiset(FindByAccount(g, id, Some(now - InvestigationWindowMinutes), None))
    ensures var window := FindByAccount(g, id, Some(now - InvestigationWindowMinutes), None);
      forall x, y :: x in r && y in multiset(window) - multiset(r) ==> Timestamp(y) <= Timestamp(x)
    ensures CountInTimeframe(g, id, now, InvestigationWindowMinutes) <= RecentListLength ==>
      r == FindByAccount(g, id, Some(now - InvestigationWindowMinutes), None)
  {
    var rows := FindByAccount(g, id, Some(now - InvestigationWindowMinutes), None);
    VelocityIsRowCount(g, id, now, InvestigationWindowMinutes);
    RecentSlice(rows, now - InvestigationWindowMinutes);
    SliceTo(rows, RecentListLength)
  }

  /** The first ten of a newest-first list of rows in the window. */
  lemma RecentSlice(rows: seq<Transaction>, cutoff: Time)
    requires SortedDesc(rows, Timestamp)
    requires forall t :: t in rows ==> t.timestamp >= cutoff
    ensures var r := SliceTo(rows, RecentListLength);
      && |r| == (if |rows| <= RecentListLength then |rows| else RecentListLength)
      && SortedDesc(r, Timestamp)
      && (forall t :: t in r ==> t.timestamp >= cutoff && t in rows)
      && multiset(r) <= multiset(rows)
      && (forall x, y :: x in r && y in multiset(rows) - multiset(r) ==> Timestamp(y) <= Timestamp(x))
      && (|rows| <= RecentListLength ==> r == rows)
  {
    SlicePrefix(rows, RecentListLength);
    SliceTop(rows, Timestamp, RecentListLength);
  }

  /** No transaction of the account in the thirty-day window that the list
      leaves out is newer than one it shows. */
  lemma RecentKeepsNewest(g: Graph, id: string, now: Time, x: Transaction, j: int)
    requires x in RecentTransactions(g, id, now)
    requires 0 <= j < |g.txns| && Touches(g.txns[j], id) > 0 && g.txns[j].timestamp >= now - InvestigationWindowMinutes
    requires ReadBack(g.txns[j]) !in RecentTransactions(g, id, now)
    ensures g.txns[j].timestamp <= x.timestamp
  {
    var rows := FindByAccount(g, id, Some(now - InvestigationWindowMinutes), None);
    var r := RecentTransactions(g, id, now);
    var y := ReadBack(g.txns[j]);
    assert InRange(g.txns[j], Some(now - InvestigationWindowMinutes), None);
    assert y in rows;
    assert y in multiset(rows) - multiset(r);
    assert Timestamp(y) <= Timestamp(x);
  }

  /** The hour's count is within the day's, and the day's within the
      thirty days'. */
  lemma VelocityNested(g: Graph, id: string, now: Time)
    ensures CountInTimeframe(g, id, now, MinutesPerHour) <= CountInTimeframe(g, id, now, MinutesPerDay)
    ensures CountInTimeframe(g, id, now, MinutesPerDay) <= CountInTimeframe(g, id, now, InvestigationWindowMinutes)
  {
    CountSinceMonotone(g.txns, id, now - MinutesPerHour, now - MinutesPerDay);
    CountSinceMonotone(g.txns, id, now - MinutesPerDay, now - InvestigationWindowMinutes);
  }

  // ---------------------------------------------------------------------------
  // Customer investigation

  datatype CustomerInvestigation = CustomerInvestigation(
    customer: Customer,
    risk: RiskScore,
    accounts: seq<Account>,
    accountCount: nat,
    totalBalance: real)

  function Balances(accounts: seq<Account>): (r: seq<real>)
    ensures |r| == |accounts|
    ensures forall i :: 0 <= i < |accounts| ==> r[i] == accounts[i].balance
  {
    seq(|accounts|, i requires 0 <= i < |accounts| => accounts[i].balance)
  }

  /** `investigate_customer`: the customer's owned accounts, their total
      balance and the customer's fresh risk score. Stored account scores are
      within 0..100, as the account entity guarantees. */
  function InvestigateCustomer(g: Graph, id: string, now: Time, show: real -> string)
    : (r: Result<CustomerInvestigation>)
    requires forall i :: 0 <= i < |g.accounts| ==> g.accounts[i].Valid()
    ensures r.Err? <==> FindCustomer(g.customers, id).None?
    ensures r.Err? ==> r.msg == "Customer not found"
    ensures r.Ok? ==> r.value.customer in g.customers && r.value.customer.id == id
    ensures r.Ok? ==> r.value.accountCount == |r.value.accounts|
    ensures r.Ok? ==> forall a :: a in r.value.accounts ==> a in g.accounts && (id, a.id) in g.owns
    ensures r.Ok? ==> forall aid :: (id, aid) in g.owns && HasAccount(g.accounts, aid) ==>
      FindAccount(g.accounts, aid).value in r.value.accounts
    ensures r.Ok? ==> forall i :: 0 <= i < |r.value.accounts| ==> r.value.accounts[i].Valid()
    ensures r.Ok? ==> r.value.risk.Valid() && r.value.risk.calculatedAt == now
    ensures r.Ok? ==> r.value.risk.score == Min(100.0, CustomerPoints(r.value.customer, r.value.accounts, now))
    ensures r.Ok? && r.value.customer.kyc == KycFailed ==> r.value.risk.score >= 25.0
    ensures r.Ok? ==> r.value.totalBalance == Sum(Balances(r.value.accounts))
  {
    match FindCustomer(g.customers, id)
    case None => Err("Customer not found")
    case Some(c) =>
      var accounts := AccountsOfCustomer(g, id);
      assert forall i :: 0 <= i < |accounts| ==> accounts[i].Valid() by {
        forall i | 0 <= i < |accounts| ensures accounts[i].Valid() {
          assert accounts[i] in g.accounts;
        }
      }
      Ok(CustomerInvestigation(c, CustomerRisk(c, accounts, now, show), accounts, |accounts|,
                               Sum(Balances(accounts))))
  }

  /** Re-scoring an account changes neither which accounts a customer
      investigation lists nor their total balance. */
  lemma InvestigateCustomerAfterUpdate(g: Graph, id: string, aid: string, score: real, now: Time,
                                       show: real -> string)
    requires forall i :: 0 <= i < |g.accounts| ==> g.accounts[i].Valid()
    requires 0.0 <= score <= 100.0
    ensures forall i :: 0 <= i < |UpdateRiskScore(g, aid, score).accounts| ==>
      UpdateRiskScore(g, aid, score).accounts[i].Valid()
    ensures var before := InvestigateCustomer(g, id, now, show);
      var after := InvestigateCustomer(UpdateRiskScore(g, aid, score), id, now, show);
      && (after.Ok? <==> before.Ok?)
      && (after.Ok? ==> after.value.accountCount == before.value.accountCount)
      && (after.Ok? ==> forall k :: 0 <= k < after.value.accountCount ==>
            after.value.accounts[k].id == before.value.accounts[k].id)
      && (after.Ok? ==> after.value.totalBalance == before.value.totalBalance)
  {
    var h := UpdateRiskScore(g, aid, score);
    if FindCustomer(g.customers, id).Some? {
      OwnedAccountsIgnoreRisk(g.accounts, h.accounts, g.owns, id);
      var xs := AccountsOfCustomer(g, id);
      var ys := AccountsOfCustomer(h, id);
      assert Balances(ys) == Balances(xs);
    }
  }

  // ---------------------------------------------------------------------------
  // Detection sweep

  const SweepFlaggedLimit: nat := 1000
  const SweepRiskThreshold: real := 70.0
  const SweepMinCycleLength: int := 3
  const SweepMinCounterparts: int := 5

  /** The account ids of a transaction that the service collects: its
      truthiness test (`if txn.from_account_id:`) passes over an empty id. */
  function NamedEnds(t: Transaction): (r: set<string>)
    ensures forall id :: id in r <==> id != "" && (t.from == Some(id) || t.to == Some(id))
  {
    Ends(t) - {""}
  }

  /** The non-empty account ids at either end of some transaction in `ts`. */
  function SweepIds(ts: seq<Transaction>): (ids: set<string>)
    ensures forall id :: id in ids <==> id != "" && exists t :: t in ts && (t.from == Some(id) || t.to == Some(id))
  {
    if |ts| == 0 then {}
    else
      assert forall t :: t in ts <==> t == ts[0] || t in ts[1..];
      NamedEnds(ts[0]) + SweepIds(ts[1..])
  }

  /** The account's freshly computed score (0 when there is no account). */
  function FreshScore(g: Graph, id: string, now: Time): real
  {
    match FindAccount(g.accounts, id)
    case None => 0.0
    case Some(a) => AccountAssessment(g, a, now).score
  }

  /** A fresh score is a score in 0..100 of a stored account with that id,
      and 0 when there is none. */
  lemma FreshScoreOf(g: Graph, id: string, now: Time)
    ensures 0.0 <= FreshScore(g, id, now) <= 100.0
    ensures !HasAccount(g.accounts, id) ==> FreshScore(g, id, now) == 0.0
    ensures HasAccount(g.accounts, id) ==>
      exists a :: a in g.accounts && a.id == id && FreshScore(g, id, now) == AccountAssessment(g, a, now).score
  {
  }

  /** The ids of the stored accounts. */
  function AccountIds(g: Graph): (r: set<string>)
    ensures forall id :: id in r <==> HasAccount(g.accounts, id)
  {
    set a | a in g.accounts :: a.id
  }

  /** The ids of the stored accounts whose fresh score is high. */
  function HighScoring(g: Graph, now: Time): (r: set<string>)
    ensures forall id :: id in r <==> HasAccount(g.accounts, id) && FreshScore(g, id, now) >= SweepRiskThreshold
  {
    set a | a in g.accounts && FreshScore(g, a.id, now) >= SweepRiskThreshold :: a.id
  }

  /** The ids that name an existing account. */
  function Known(g: Graph, ids: set<string>): (r: set<string>)
    ensures forall id :: id in r <==> id in ids && HasAccount(g.accounts, id)
  {
    ids * AccountIds(g)
  }

  /** The existing accounts whose fresh score is high. */
  function HighRisk(g: Graph, ids: set<string>, now: Time): (r: set<string>)
    ensures forall id :: id in r <==> id in Known(g, ids) && FreshScore(g, id, now) >= SweepRiskThreshold
  {
    ids * HighScoring(g, now)
  }

  /** The stored accounts once every account named in `ids` carries its
      fresh score. */
  function Rescored(g: Graph, ids: set<string>, now: Time): (r: seq<Account>)
    ensures |r| == |g.accounts|
    ensures forall i :: 0 <= i < |g.accounts| ==>
      r[i] == if g.accounts[i].id in ids then g.accounts[i].(riskScore := FreshScore(g, g.accounts[i].id, now))
              else g.accounts[i]
  {
    seq(|g.accounts|, i requires 0 <= i < |g.accounts| =>
          if g.accounts[i].id in ids then g.accounts[i].(riskScore := FreshScore(g, g.accounts[i].id, now))
          else g.accounts[i])
  }

  /** Storing one more fresh score is one `update_risk_score`. */
  lemma RescoredStep(g: Graph, done: set<string>, id: string, now: Time)
    ensures UpdateRiskScore(g.(accounts := Rescored(g, done, now)), id, FreshScore(g, id, now))
            == g.(accounts := Rescored(g, done + {id}, now))
  {
    var before := Rescored(g, done, now);
    var after := UpdateRiskScore(g.(accounts := before), id, FreshScore(g, id, now));
    assert after.accounts == Rescored(g, done + {id}, now);
  }

  /** An id without an account changes nothing. */
  lemma RescoredSkip(g: Graph, done: set<string>, id: string, now: Time)
    requires !HasAccount(g.accounts, id)
    ensures Rescored(g, done + {id}, now) == Rescored(g, done, now)
  {
    assert forall i :: 0 <= i < |g.accounts| ==> g.accounts[i].id != id;
  }

  /** Scoring an account of a partly re-scored store gives its fresh score:
      scoring does not read stored scores. */
  lemma RescoredAssessment(g: Graph, done: set<string>, id: string, now: Time)
    ensures FindAccount(Rescored(g, done, now), id).Some? <==> HasAccount(g.accounts, id)
    ensures FindAccount(Rescored(g, done, now), id).Some? ==>
      AccountAssessment(g.(accounts := Rescored(g, done, now)), FindAccount(Rescored(g, done, now), id).value, now).score
      == FreshScore(g, id, now)
  {
    var r := Rescored(g, done, now);
    assert forall i :: 0 <= i < |g.accounts| ==> r[i] == g.accounts[i].(riskScore := r[i].riskScore);
    FindAccountIgnoresRisk(g.accounts, r, id);
    if HasAccount(g.accounts, id) {
      AccountAssessmentReads(g.(accounts := r), g, FindAccount(r, id).value, FindAccount(g.accounts, id).value, now);
    }
  }

  /** One step of the sweep on a partly re-scored store: look the id up,
      and when it names an account, score it and store the score. The
      result is the store with that id re-scored as well; `found` and
      `high` say whether the id names an account and whether its fresh
      score is high. */
  method SweepOne(g: Graph, ghost done: set<string>, id: string, now: Time, cur: Graph)
    returns (next: Graph, found: bool, high: bool)
    requires cur == g.(accounts := Rescored(g, done, now))
    ensures next == g.(accounts := Rescored(g, done + {id}, now))
    ensures found <==> id in AccountIds(g)
    ensures high <==> id in HighScoring(g, now)
  {
    RescoredAssessment(g, done, id, now);
    var account := FindAccount(cur.accounts, id);
    if account.Some? {
      var score := AccountAssessment(cur, account.value, now).score;
      RescoredStep(g, done, id, now);
      next := UpdateRiskScore(cur, id, score);
      found := true;
      high := score >= SweepRiskThreshold;
    } else {
      RescoredSkip(g, done, id, now);
      next := cur;
      found := false;
      high := false;
    }
  }

  /** Sweeping one more id adds one to each count it qualifies for. */
  lemma CountStep(g: Graph, done: set<string>, id: string, now: Time)
    requires id !in done
    ensures |Known(g, done + {id})| == |Known(g, done)| + if id in AccountIds(g) then 1 else 0
    ensures |HighRisk(g, done + {id}, now)| == |HighRisk(g, done, now)| + if id in HighScoring(g, now) then 1 else 0
  {
    IntersectGrows(done, id, AccountIds(g));
    IntersectGrows(done, id, HighScoring(g, now));
  }

  /** One pattern as the sweep reports it. */
  datatype PatternSummary = PatternSummary(patternType: string, confidence: real, evidenceCount: nat)

  function Summaries(ps: seq<TransactionPattern>): (r: seq<PatternSummary>)
    ensures |r| == |ps|
    ensures forall i :: 0 <= i < |ps| ==>
      r[i] == PatternSummary(ps[i].patternType, ps[i].confidence, |ps[i].evidence|)
  {
    seq(|ps|, i requires 0 <= i < |ps| => PatternSummary(ps[i].patternType, ps[i].confidence, |ps[i].evidence|))
  }

  datatype PatternReport = PatternReport(
    circular: seq<PatternSummary>,
    fanOut: seq<PatternSummary>,
    fanIn: seq<PatternSummary>,
    mules: seq<Account>,
    sharedDevices: nat,
    sharedIps: nat)

  /** The detection half of `detect_fraud_patterns`. */
  function PatternReportOf(g: Graph, now: Time, show: real -> string): (r: PatternReport)
    ensures |r.circular| <= CycleLimit
    ensures forall s :: s in r.circular ==> s.patternType == "circular_flow" && s.confidence == 0.8 && s.evidenceCount == 3
    ensures forall s :: s in r.fanOut ==> s.patternType == "fan_out" && 0.5 <= s.confidence <= 0.9 && s.evidenceCount == 2
    ensures forall s :: s in r.fanIn ==> s.patternType == "fan_in" && 0.5 <= s.confidence <= 0.9 && s.evidenceCount == 2
    ensures forall a :: a in r.mules <==> a in g.accounts && IsMule(g, a, MuleThroughput, MuleHoldHours)
    ensures |r.circular| == |FindCircular(g, SweepMinCycleLength, MaxCycleLength)|
    ensures var rows := DetectFan(g, FanOut, SweepMinCounterparts, now, FanTimeframeHours);
      |r.fanOut| == |rows| && forall i :: 0 <= i < |rows| ==> r.fanOut[i].confidence == FanConfidence(rows[i].count)
    ensures var rows := DetectFan(g, FanIn, SweepMinCounterparts, now, FanTimeframeHours);
      |r.fanIn| == |rows| && forall i :: 0 <= i < |rows| ==> r.fanIn[i].confidence == FanConfidence(rows[i].count)
    ensures r.sharedDevices == |FindSharedInfrastructure(g, "device")|
    ensures r.sharedIps == |FindSharedInfrastructure(g, "ip")|
  {
    var circular := DetectCircularFlow(g, SweepMinCycleLength, now, show);
    var fanOut := DetectFanPatterns(g, FanOut, SweepMinCounterparts, now, show);
    var fanIn := DetectFanPatterns(g, FanIn, SweepMinCounterparts, now, show);
    FanSummaryBounds(g, FanOut, now, show);
    FanSummaryBounds(g, FanIn, now, show);
    var shared := DetectSharedInfrastructure(g);
    PatternReport(Summaries(circular), Summaries(fanOut), Summaries(fanIn), DetectMuleAccounts(g),
                  |shared.devices|, |shared.ips|)
  }

  /** A fan pattern the sweep reports has at least five counterparts, so its
      confidence is at least one half. */
  lemma FanSummaryBounds(g: Graph, d: Direction, now: Time, show: real -> string)
    ensures forall s :: s in Summaries(DetectFanPatterns(g, d, SweepMinCounterparts, now, show)) ==>
      s.patternType == PatternName(d) && 0.5 <= s.confidence <= 0.9 && s.evidenceCount == 2
  {
    var ps := DetectFanPatterns(g, d, SweepMinCounterparts, now, show);
    var rows := DetectFan(g, d, SweepMinCounterparts, now, FanTimeframeHours);
    forall s | s in Summaries(ps)
      ensures s.patternType == PatternName(d) && 0.5 <= s.confidence <= 0.9 && s.evidenceCount == 2
    {
      var i :| 0 <= i < |ps| && Summaries(ps)[i] == s;
      assert rows[i] in rows;
      FanConfidenceMonotone(5, rows[i].count);
      assert FanConfidence(5) == 0.5;
    }
  }

  /** The re-scoring half of `detect_fraud_patterns`: every non-empty
      account id at either end of the (at most 1000) newest flagged
      transactions that names an account gets its freshly computed score
      stored. The counts are of the
      ids collected, of the accounts updated, and of those scoring at least
      70. Nothing but those risk scores changes. */
  method Sweep(g: Graph, now: Time)
    returns (after: Graph, evaluated: nat, updated: nat, highRisk: nat, processed: nat)
    ensures processed == |FindFlagged(g, SweepFlaggedLimit)|
    ensures evaluated == |SweepIds(FindFlagged(g, SweepFlaggedLimit))|
    ensures updated == |Known(g, SweepIds(FindFlagged(g, SweepFlaggedLimit)))|
    ensures highRisk == |HighRisk(g, SweepIds(FindFlagged(g, SweepFlaggedLimit)), now)|
    ensures highRisk <= updated <= evaluated
    ensures after == g.(accounts := Rescored(g, SweepIds(FindFlagged(g, SweepFlaggedLimit)), now))
  {
    var flagged := FindFlagged(g, SweepFlaggedLimit);
    var ids := SweepIds(flagged);
    var remaining := ids;
    ghost var done: set<string> := {};
    after := g;
    updated := 0;
    highRisk := 0;
    assert after == g.(accounts := Rescored(g, {}, now));
    while remaining != {}
      invariant done !! remaining && done + remaining == ids
      invariant after == g.(accounts := Rescored(g, done, now))
      invariant updated == |Known(g, done)|
      invariant highRisk == |HighRisk(g, done, now)|
      decreases |remaining|
    {
      var id :| id in remaining;
      var found, high;
      after, found, high := SweepOne(g, done, id, now, after);
      CountStep(g, done, id, now);
      if found {
        updated := updated + 1;
      }
      if high {
        highRisk := highRisk + 1;
      }
      MoveOne(done, remaining, ids, id);
      done := done + {id};
      remaining := remaining - {id};
    }
    assert done == ids;
    evaluated := |ids|;
    processed := |flagged|;
    SubsetCard(Known(g, ids), ids);
    SubsetCard(HighRisk(g, ids, now), Known(g, ids));
  }

  /** After re-scoring, an account's stored score is exactly what scoring it
      again computes: the stored scores are current. */
  lemma RescoredScoresAreCurrent(g: Graph, ids: set<string>, now: Time, id: string)
    requires id in ids && HasAccount(g.accounts, id)
    ensures FindAccount(Rescored(g, ids, now), id).Some?
    ensures FindAccount(Rescored(g, ids, now), id).value.riskScore
            == AccountAssessment(g.(accounts := Rescored(g, ids, now)), FindAccount(Rescored(g, ids, now), id).value, now).score
  {
    RescoredAssessment(g, ids, id, now);
    RescoredStored(g, ids, now, id);
  }

  /** A re-scored account found in the store carries its fresh score. */
  lemma RescoredStored(g: Graph, ids: set<string>, now: Time, id: string)
    requires id in ids && HasAccount(g.accounts, id)
    ensures FindAccount(Rescored(g, ids, now), id).Some? ==>
      FindAccount(Rescored(g, ids, now), id).value.riskScore == FreshScore(g, id, now)
  {
    var r := Rescored(g, ids, now);
    if FindAccount(r, id).Some? {
      var b := FindAccount(r, id).value;
      var i :| 0 <= i < |r| && r[i] == b;
      assert r[i].id == g.accounts[i].id == id;
    }
  }

  // ---------------------------------------------------------------------------
  // Account detail rows

  const DetailWindowMinutes: int := 7 * MinutesPerDay

  /** The row the service builds for an account in a pattern list. */
  datatype AccountDetail = AccountDetail(
    id: string,
    number: string,
    riskScore: real,
    category: string,
    status: AccountStatus,
    balance: real,
    recentCount: nat,
    flaggedCount: nat)

  /** The row for one account: its stored fields, its risk band, and its
      transactions of the last seven days with the flagged ones among them. */
  function Detail(g: Graph, a: Account, now: Time): (d: AccountDetail)
    ensures d.id == a.id && d.number == a.number && d.riskScore == a.riskScore
    ensures d.status == a.status && d.balance == a.balance
    ensures d.category == RiskCategory(a.riskScore)
  {
    var recent := FindByAccount(g, a.id, Some(now - DetailWindowMinutes), None);
    AccountDetail(a.id, a.number, a.riskScore, RiskCategory(a.riskScore), a.status, a.balance,
                  |recent|, CountFlagged(recent))
  }

  /** A detail row counts the account's transactions of the last seven
      days, and the flagged ones among them. */
  lemma DetailCounts(g: Graph, a: Account, now: Time)
    ensures Detail(g, a, now).recentCount == CountInTimeframe(g, a.id, now, DetailWindowMinutes)
    ensures Detail(g, a, now).flaggedCount == CountFlaggedSince(g.txns, a.id, now - DetailWindowMinutes)
    ensures Detail(g, a, now).flaggedCount <= Detail(g, a, now).recentCount
  {
    VelocityIsRowCount(g, a.id, now, DetailWindowMinutes);
    FlaggedInWindow(g, a.id, now - DetailWindowMinutes);
  }

  function DetailRisk(d: AccountDetail): real
  {
    d.riskScore
  }

  /** One detail row per account, in order. */
  function Details(g: Graph, accounts: seq<Account>, now: Time): (r: seq<AccountDetail>)
    ensures |r| == |accounts|
    ensures forall i :: 0 <= i < |accounts| ==> r[i] == Detail(g, accounts[i], now)
  {
    seq(|accounts|, i requires 0 <= i < |accounts| => Detail(g, accounts[i], now))
  }

  /** `rows` holds one detail row for each id in `ids` that names an
      account, and nothing else. */
  ghost predicate DetailsOf(g: Graph, ids: set<string>, rows: seq<AccountDetail>, now: Time)
  {
    && |rows| == |Known(g, ids)|
    && (forall d :: d in rows ==>
          d.id in ids && HasAccount(g.accounts, d.id) && d == Detail(g, FindAccount(g.accounts, d.id).value, now))
    && (forall id :: id in ids && HasAccount(g.accounts, id) ==> exists d :: d in rows && d.id == id)
  }

  /** One step of `_get_account_details`: look the id up and append its row
      when it names an account. */
  method AddDetail(g: Graph, ghost done: set<string>, id: string, now: Time, rows: seq<AccountDetail>)
    returns (next: seq<AccountDetail>)
    requires id !in done && DetailsOf(g, done, rows, now)
    ensures DetailsOf(g, done + {id}, next, now)
    ensures HasAccount(g.accounts, id) ==> |next| == |rows| + 1
    ensures !HasAccount(g.accounts, id) ==> next == rows
  {
    IntersectGrows(done, id, AccountIds(g));
    var found := FindAccount(g.accounts, id);
    if found.Some? {
      var d := Detail(g, found.value, now);
      next := rows + [d];
      assert d in next;
    } else {
      next := rows;
    }
  }

  /** `_get_account_details`: one row per id that names an account, highest
      stored risk first. */
  method AccountDetails(g: Graph, ids: set<string>, now: Time) returns (rows: seq<AccountDetail>)
    ensures |rows| == |Known(g, ids)|
    ensures forall d :: d in rows ==>
      d.id in ids && HasAccount(g.accounts, d.id) && d == Detail(g, FindAccount(g.accounts, d.id).value, now)
    ensures forall id :: id in ids && HasAccount(g.accounts, id) ==> exists d :: d in rows && d.id == id
    ensures SortedDesc(rows, DetailRisk)
  {
    var remaining := ids;
    ghost var done: set<string> := {};
    var collected: seq<AccountDetail> := [];
    while remaining != {}
      invariant done !! remaining && done + remaining == ids
      invariant DetailsOf(g, done, collected, now)
      decreases |remaining|
    {
      var id :| id in remaining;
      collected := AddDetail(g, done, id, now, collected);
      MoveOne(done, remaining, ids, id);
      done := done + {id};
      remaining := remaining - {id};
    }
    assert done == ids;
    rows := SortDesc(collected, DetailRisk);
    forall d ensures d in rows <==> d in collected {
      SortDescMembers(collected, DetailRisk, d);
    }
  }

  /** The rows of `Details` are exactly the rows of the given accounts. */
  lemma DetailsMembers(g: Graph, accounts: seq<Account>, now: Time)
    ensures forall a :: a in accounts ==> Detail(g, a, now) in Details(g, accounts, now)
    ensures forall d :: d in Details(g, accounts, now) ==> exists a :: a in accounts && d == Detail(g, a, now)
  {
    var r := Details(g, accounts, now);
    forall a | a in accounts ensures Detail(g, a, now) in r {
      var i :| 0 <= i < |accounts| && accounts[i] == a;
      assert r[i] == Detail(g, a, now);
    }
    forall d | d in r ensures exists a :: a in accounts && d == Detail(g, a, now) {
      var i :| 0 <= i < |r| && r[i] == d;
      assert accounts[i] in accounts;
    }
  }

  /** `get_high_risk_accounts`: accounts scoring at least 60, highest first,
      cut to `limit` as Python's `[:limit]` does; no high-risk account left
      out scores above one listed, and with no more than `limit` of them all
      are listed. */
  const HighRiskListThreshold: real := 60.0

  function HighRiskAccountList(g: Graph, limit: int, now: Time): (r: seq<AccountDetail>)
    ensures |r| <= CountAtLeast(g.accounts, HighRiskListThreshold)
    ensures 0 <= limit ==> |r| == if CountAtLeast(g.accounts, HighRiskListThreshold) <= limit
                                 then CountAtLeast(g.accounts, HighRiskListThreshold) else limit
    ensures forall i :: 0 <= i < |r| ==>
      r[i].riskScore >= HighRiskListThreshold && (r[i].category == "HIGH" || r[i].category == "CRITICAL")
    ensures forall d :: d in r ==> exists a :: a in g.accounts && d == Detail(g, a, now)
    ensures forall i, j :: 0 <= i < j < |r| ==> r[i].riskScore >= r[j].riskScore
    ensures forall d, a :: d in r && a in g.accounts && a.riskScore >= HighRiskListThreshold && Detail(g, a, now) !in r ==>
      a.riskScore <= d.riskScore
    ensures CountAtLeast(g.accounts, HighRiskListThreshold) <= limit ==>
      forall a :: a in g.accounts && a.riskScore >= HighRiskListThreshold ==> Detail(g, a, now) in r
  {
    var all := FindHighRiskAccounts(g, HighRiskListThreshold);
    HighRiskSlice(g, all, limit, now);
    HighRiskTop(g, all, limit, now);
    Details(g, SliceTo(all, limit), now)
  }

  /** The detail rows of the first `limit` high-risk accounts. */
  lemma HighRiskSlice(g: Graph, all: seq<Account>, limit: int, now: Time)
    requires forall a :: a in all <==> a in g.accounts && a.riskScore >= HighRiskListThreshold
    requires SortedDesc(all, RiskOf)
    ensures var r := Details(g, SliceTo(all, limit), now);
      && |r| <= |all|
      && (0 <= limit ==> |r| == if |all| <= limit then |all| else limit)
      && (forall i :: 0 <= i < |r| ==>
            r[i].riskScore >= HighRiskListThreshold && (r[i].category == "HIGH" || r[i].category == "CRITICAL"))
      && (forall d :: d in r ==> exists a :: a in g.accounts && d == Detail(g, a, now))
      && (forall i, j :: 0 <= i < j < |r| ==> r[i].riskScore >= r[j].riskScore)
      && (|all| <= limit ==>
            forall a :: a in g.accounts && a.riskScore >= HighRiskListThreshold ==> Detail(g, a, now) in r)
  {
    var accounts := SliceTo(all, limit);
    SlicePrefix(all, limit);
    DetailsMembers(g, accounts, now);
  }

  /** No high-risk account the first `limit` leave out scores above a
      listed one. */
  lemma HighRiskTop(g: Graph, all: seq<Account>, limit: int, now: Time)
    requires forall a :: a in all <==> a in g.accounts && a.riskScore >= HighRiskListThreshold
    requires SortedDesc(all, RiskOf)
    ensures var r := Details(g, SliceTo(all, limit), now);
      forall d, a :: d in r && a in g.accounts && a.riskScore >= HighRiskListThreshold && Detail(g, a, now) !in r ==>
        a.riskScore <= d.riskScore
  {
    var accounts := SliceTo(all, limit);
    var r := Details(g, accounts, now);
    SliceTop(all, RiskOf, limit);
    forall d, a | d in r && a in g.accounts && a.riskScore >= HighRiskListThreshold && Detail(g, a, now) !in r
      ensures a.riskScore <= d.riskScore
    {
      var i :| 0 <= i < |r| && r[i] == d;
      assert accounts[i] in accounts;
      assert a !in accounts;
      assert a in multiset(all) - multiset(accounts);
      assert RiskOf(a) <= RiskOf(accounts[i]);
    }
  }

  /** A smaller limit lists a prefix of what a larger limit lists. The risk
      scores agree position by position whatever order ties take; the rows
      themselves agree because `SortDesc` keeps store order among equal
      scores. */
  lemma HighRiskListPrefix(g: Graph, n: nat, m: nat, now: Time)
    requires n <= m
    ensures |HighRiskAccountList(g, n, now)| <= |HighRiskAccountList(g, m, now)|
    ensures forall i :: 0 <= i < |HighRiskAccountList(g, n, now)| ==>
      HighRiskAccountList(g, n, now)[i].riskScore == HighRiskAccountList(g, m, now)[i].riskScore
    ensures HighRiskAccountList(g, n, now) == HighRiskAccountList(g, m, now)[..|HighRiskAccountList(g, n, now)|]
  {
    var all := FindHighRiskAccounts(g, HighRiskListThreshold);
    var sn := SliceTo(all, n);
    var sm := SliceTo(all, m);
    assert sn == sm[..|sn|];
    var rn := Details(g, sn, now);
    var rm := Details(g, sm, now);
    assert rn == rm[..|rn|];
  }

  /** `get_mule_accounts_details`: a detail row per detected mule account,
      in the detector's order. */
  function MuleAccountDetails(g: Graph, now: Time): (r: seq<AccountDetail>)
    ensures |r| == |DetectMuleAccounts(g)|
    ensures forall i :: 0 <= i < |r| ==> r[i].id == DetectMuleAccounts(g)[i].id
  {
    Details(g, DetectMuleAccounts(g), now)
  }

  /** The mule rows are the detail rows of exactly the stored accounts that
      pass the mule test. */
  lemma MuleRowsAreMules(g: Graph, now: Time)
    ensures forall d :: d in MuleAccountDetails(g, now) ==>
      exists a :: a in g.accounts && IsMule(g, a, MuleThroughput, MuleHoldHours) && d == Detail(g, a, now)
    ensures forall a :: a in g.accounts && IsMule(g, a, MuleThroughput, MuleHoldHours) ==>
      Detail(g, a, now) in MuleAccountDetails(g, now)
  {
    var mules := DetectMuleAccounts(g);
    var r := MuleAccountDetails(g, now);
    DetailsMembers(g, mules, now);
    forall d | d in r
      ensures exists a :: a in g.accounts && IsMule(g, a, MuleThroughput, MuleHoldHours) && d == Detail(g, a, now)
    {
      var i :| 0 <= i < |r| && r[i] == d;
      assert mules[i] in mules && d == Detail(g, mules[i], now);
    }
  }

  // ---------------------------------------------------------------------------
  // Circular-flow accounts, recovered from evidence lines

  /** `evidence.split(':')[0].replace('Transaction ', '').strip()` for a line
      containing "Transaction"; nothing otherwise. */
  function EvidenceTxnId(line: string): (r: Option<string>)
    ensures r.Some? <==> Contains(line, "Transaction")
  {
    if Contains(line, "Transaction") then Some(Strip(Replace(BeforeFirst(line, ':'), "Transaction ", "")))
    else None
  }

  /** A transaction id the evidence parser reads back unchanged. */
  predicate CleanTxnId(id: string)
  {
    && ':' !in id
    && !Contains(id, "Transaction ")
    && (|id| > 0 ==> !IsSpace(id[0]) && !IsSpace(id[|id| - 1]))
  }

  /** Writing a transaction's evidence line and parsing it gives its id back. */
  lemma EvidenceTxnIdRoundTrip(t: Transaction, show: real -> string)
    requires CleanTxnId(t.id)
    ensures EvidenceTxnId(TransactionEvidence(t, show)) == Some(t.id)
  {
    var line := TransactionEvidence(t, show);
    var head := "Transaction " + t.id;
    assert line == head + [':'] + (" " + show(t.amount));
    assert ':' !in "Transaction ";
    assert ':' !in head;
    BeforeFirstOfConcat(head, ':', " " + show(t.amount));
    assert line[..11] == "Transaction";
    assert Contains(line, "Transaction");
    ReplaceLeading("Transaction ", t.id);
    StripUntrimmed(t.id);
  }

  /** The non-empty account ids of the transaction an evidence line names. */
  function EvidenceAccounts(g: Graph, line: string): (r: set<string>)
    ensures forall id :: id in r ==> id != "" && exists t :: t in g.txns && id in Ends(t)
  {
    match EvidenceTxnId(line)
    case None => {}
    case Some(tid) =>
      match FindTransaction(g.txns, tid)
      case None => {}
      case Some(t) =>
        var u :| u in g.txns && u.id == tid && t == ReadBack(u);
        assert NamedEnds(t) == NamedEnds(u);
        NamedEnds(t)
  }

  function LinesAccounts(g: Graph, lines: seq<string>): (r: set<string>)
    ensures forall id :: id in r ==> id != "" && exists t :: t in g.txns && id in Ends(t)
  {
    if |lines| == 0 then {} else EvidenceAccounts(g, lines[0]) + LinesAccounts(g, lines[1..])
  }

  /** The account ids `get_circular_flow_accounts` collects. */
  function CircularAccountIds(g: Graph, patterns: seq<TransactionPattern>): (r: set<string>)
    ensures forall id :: id in r ==> id != "" && exists t :: t in g.txns && id in Ends(t)
  {
    if |patterns| == 0 then {}
    else LinesAccounts(g, patterns[0].evidence) + CircularAccountIds(g, patterns[1..])
  }

  /** With unique transaction ids, the evidence line written for a cycle leg
      leads back to the non-empty account ids of the stored transaction. */
  lemma EvidenceNamesAccounts(g: Graph, t: Transaction, u: Transaction, show: real -> string)
    requires forall i, j :: 0 <= i < j < |g.txns| ==> g.txns[i].id != g.txns[j].id
    requires t in g.txns && u.id == t.id && CleanTxnId(t.id)
    ensures EvidenceAccounts(g, TransactionEvidence(u, show)) == NamedEnds(t)
  {
    EvidenceTxnIdRoundTrip(u, show);
    FindStoredTransaction(g.txns, t);
  }

  lemma LinesAccountsThree(g: Graph, a: string, b: string, c: string)
    ensures LinesAccounts(g, [a, b, c]) == EvidenceAccounts(g, a) + EvidenceAccounts(g, b) + EvidenceAccounts(g, c)
  {
    assert [c][1..] == [];
    assert LinesAccounts(g, [c]) == EvidenceAccounts(g, c);
    assert [b, c][1..] == [c];
    assert LinesAccounts(g, [b, c]) == EvidenceAccounts(g, b) + EvidenceAccounts(g, c);
    assert [a, b, c][1..] == [b, c];
  }

  /** Every non-empty account id of a cycle the detector reports is in the
      circular-flow account list, when transaction ids are unique and parse back. */
  lemma CircularPatternAccounts(g: Graph, t1: Transaction, t2: Transaction, t3: Transaction,
                                now: Time, show: real -> string)
    requires forall i, j :: 0 <= i < j < |g.txns| ==> g.txns[i].id != g.txns[j].id
    requires t1 in g.txns && t2 in g.txns && t3 in g.txns
    requires CleanTxnId(t1.id) && CleanTxnId(t2.id) && CleanTxnId(t3.id)
    ensures LinesAccounts(g, CircularPattern(CycleRow(t1, t2, t3), now, show).evidence)
            == NamedEnds(t1) + NamedEnds(t2) + NamedEnds(t3)
  {
    var e1 := TransactionEvidence(NodeProps(t1), show);
    var e2 := TransactionEvidence(NodeProps(t2), show);
    var e3 := TransactionEvidence(NodeProps(t3), show);
    assert CircularPattern(CycleRow(t1, t2, t3), now, show).evidence == [e1, e2, e3];
    EvidenceNamesAccounts(g, t1, NodeProps(t1), show);
    EvidenceNamesAccounts(g, t2, NodeProps(t2), show);
    EvidenceNamesAccounts(g, t3, NodeProps(t3), show);
    LinesAccountsThree(g, e1, e2, e3);
  }

  /** `get_circular_flow_accounts`: the detail rows of every account the
      circular patterns' evidence leads to. */
  method CircularFlowAccounts(g: Graph, now: Time, show: real -> string) returns (rows: seq<AccountDetail>)
    ensures forall d :: d in rows ==> d.id != "" && HasAccount(g.accounts, d.id) && exists t :: t in g.txns && d.id in Ends(t)
    ensures var ids := CircularAccountIds(g, DetectCircularFlow(g, SweepMinCycleLength, now, show));
      && |rows| == |Known(g, ids)|
      && (forall d :: d in rows ==> d.id in ids && d == Detail(g, FindAccount(g.accounts, d.id).value, now))
    ensures forall id :: (id in CircularAccountIds(g, DetectCircularFlow(g, SweepMinCycleLength, now, show))
                         && HasAccount(g.accounts, id)) ==> exists d :: d in rows && d.id == id
    ensures SortedDesc(rows, DetailRisk)
  {
    rows := AccountDetails(g, CircularAccountIds(g, DetectCircularFlow(g, SweepMinCycleLength, now, show)), now);
  }

  // ---------------------------------------------------------------------------
  // Fan-out and fan-in accounts, recovered from evidence lines

  /** The service's test for an account id: 36 characters with a hyphen. */
  predicate UuidLike(w: string)
  {
    |w| == 36 && '-' in w
  }

  /** The words of a line containing "Account" that look like account ids. */
  function EvidenceUuids(line: string): (r: set<string>)
    ensures forall w :: w in r ==> UuidLike(w) && Contains(line, "Account")
  {
    if Contains(line, "Account") then set w | w in Words(line) && UuidLike(w) else {}
  }

  function LinesUuids(lines: seq<string>): (r: set<string>)
    ensures forall w :: w in r ==> UuidLike(w)
  {
    if |lines| == 0 then {} else EvidenceUuids(lines[0]) + LinesUuids(lines[1..])
  }

  /** The account ids `get_fan_out_accounts` and `get_fan_in_accounts` collect. */
  function FanAccountIds(patterns: seq<TransactionPattern>): (r: set<string>)
    ensures forall w :: w in r ==> UuidLike(w)
  {
    if |patterns| == 0 then {} else LinesUuids(patterns[0].evidence) + FanAccountIds(patterns[1..])
  }

  lemma LetterWords()
    ensures NoSpace("Account") && NoSpace("sent") && NoSpace("to") && NoSpace("received")
    ensures NoSpace("from") && NoSpace("accounts") && NoSpace("Total") && NoSpace("amount:")
  {
  }

  /** The first evidence line of a fan pattern is its words joined by
      single spaces. */
  lemma HeadlineWords(row: FanRow, d: Direction)
    ensures FanHeadline(row, d) == JoinSpaces(HeadlineWordList(row, d))
  {
    var n := NatToString(row.count);
    var acc := row.account;
    assert "Account " == "Account" + " ";
    assert " accounts" == " " + "accounts";
    if d == FanOut {
      assert " sent to " == " " + "sent" + " " + "to" + " ";
      JoinSix("Account", acc, "sent", "to", n, "accounts");
    } else {
      assert " received from " == " " + "received" + " " + "from" + " ";
      JoinSix("Account", acc, "received", "from", n, "accounts");
    }
  }

  function HeadlineWordList(row: FanRow, d: Direction): (ws: seq<string>)
    ensures |ws| == 6 && ws[1] == row.account && ws[4] == NatToString(row.count)
    ensures forall i :: 0 <= i < 6 && i != 1 && i != 4 ==> |ws[i]| <= 8
  {
    if d == FanOut then ["Account", row.account, "sent", "to", NatToString(row.count), "accounts"]
    else ["Account", row.account, "received", "from", NatToString(row.count), "accounts"]
  }

  /** The id-like words of a list in which exactly one word is id-like. */
  lemma OneUuid(ws: seq<string>, k: nat)
    requires k < |ws| && UuidLike(ws[k])
    requires forall i :: 0 <= i < |ws| && i != k ==> !UuidLike(ws[i])
    ensures (set w | w in ws && UuidLike(w)) == {ws[k]}
  {
    forall w | w in ws && UuidLike(w) ensures w == ws[k] {
      var i :| 0 <= i < |ws| && ws[i] == w;
    }
  }

  /** The id-like words of a list in which no word is id-like. */
  lemma NoUuid(ws: seq<string>)
    requires forall i :: 0 <= i < |ws| ==> !UuidLike(ws[i])
    ensures (set w | w in ws && UuidLike(w)) == {}
  {
    forall w | w in ws ensures !UuidLike(w) {
      var i :| 0 <= i < |ws| && ws[i] == w;
    }
  }

  /** A fan headline starts with "Account". */
  lemma HeadlineMentionsAccount(row: FanRow, d: Direction)
    ensures Contains(FanHeadline(row, d), "Account")
  {
    assert FanHeadline(row, d)[..7] == "Account";
  }

  /** The words of a fan headline are non-empty and free of spaces. */
  lemma HeadlineWordsClean(row: FanRow, d: Direction)
    requires NoSpace(row.account) && |row.account| > 0
    ensures forall i :: 0 <= i < |HeadlineWordList(row, d)| ==>
      |HeadlineWordList(row, d)[i]| > 0 && NoSpace(HeadlineWordList(row, d)[i])
  {
    LetterWords();
    assert NoSpace(NatToString(row.count));
  }

  /** A fan headline splits into its word list. */
  lemma HeadlineSplits(row: FanRow, d: Direction)
    requires NoSpace(row.account) && |row.account| > 0
    ensures Words(FanHeadline(row, d)) == HeadlineWordList(row, d)
  {
    HeadlineWordsClean(row, d);
    HeadlineWords(row, d);
    WordsOfJoin(HeadlineWordList(row, d));
  }

  /** Parsing the headline of a fan pattern finds its account and nothing
      else, when the account looks like an id. */
  lemma HeadlineUuids(row: FanRow, d: Direction)
    requires UuidLike(row.account) && NoSpace(row.account)
    ensures EvidenceUuids(FanHeadline(row, d)) == {row.account}
  {
    var line := FanHeadline(row, d);
    var ws := HeadlineWordList(row, d);
    assert '-' !in ws[4];
    OneUuid(ws, 1);
    HeadlineMentionsAccount(row, d);
    HeadlineSplits(row, d);
    assert EvidenceUuids(line) == (set w | w in Words(line) && UuidLike(w));
  }

  /** The total line of a fan pattern yields no id when the rendered amount
      does not look like one. */
  lemma TotalLineUuids(total: string)
    requires |total| > 0 && NoSpace(total) && !UuidLike(total)
    ensures EvidenceUuids("Total amount: " + total) == {}
  {
    var ws := ["Total", "amount:", total];
    NoUuid(ws);
    var split := TotalLineWords(total);
    NoWordUuids("Total amount: " + total, ws);
  }

  /** A line none of whose words looks like an id yields none. */
  lemma NoWordUuids(line: string, ws: seq<string>)
    requires Words(line) == ws && (set w | w in ws && UuidLike(w)) == {}
    ensures EvidenceUuids(line) == {}
  {
  }

  /** The total line splits into "Total", "amount:" and the rendered total. */
  lemma TotalLineWords(total: string) returns (ws: seq<string>)
    requires |total| > 0 && NoSpace(total)
    ensures ws == ["Total", "amount:", total]
    ensures Words("Total amount: " + total) == ws
  {
    ws := ["Total", "amount:", total];
    LetterWords();
    assert "Total amount: " + total == "Total" + " " + "amount:" + " " + total;
    JoinThree("Total", "amount:", total);
    WordsOfJoin(ws);
  }

  /** When the account id looks like an id and the rendered total does not,
      parsing a fan pattern's evidence gives exactly its account back. */
  lemma FanEvidenceNamesAccount(row: FanRow, d: Direction, now: Time, show: real -> string)
    requires UuidLike(row.account) && NoSpace(row.account)
    requires |show(row.total)| > 0 && NoSpace(show(row.total)) && !UuidLike(show(row.total))
    ensures LinesUuids(FanPattern(row, d, now, show).evidence) == {row.account}
  {
    var lines := FanPattern(row, d, now, show).evidence;
    HeadlineUuids(row, d);
    TotalLineUuids(show(row.total));
    assert lines[1..][1..] == [];
    assert LinesUuids(lines[1..]) == EvidenceUuids(lines[1]);
  }

  /** `get_fan_out_accounts` / `get_fan_in_accounts`: the detail rows of
      every id-like word in the fan patterns' evidence that names an
      account. */
  method FanAccounts(g: Graph, d: Direction, now: Time, show: real -> string) returns (rows: seq<AccountDetail>)
    ensures forall x :: x in rows ==> UuidLike(x.id) && HasAccount(g.accounts, x.id)
    ensures var ids := FanAccountIds(DetectFanPatterns(g, d, SweepMinCounterparts, now, show));
      && |rows| == |Known(g, ids)|
      && (forall x :: x in rows ==> x.id in ids && x == Detail(g, FindAccount(g.accounts, x.id).value, now))
    ensures forall id :: (id in FanAccountIds(DetectFanPatterns(g, d, SweepMinCounterparts, now, show))
                         && HasAccount(g.accounts, id)) ==> exists x :: x in rows && x.id == id
    ensures SortedDesc(rows, DetailRisk)
  {
    rows := AccountDetails(g, FanAccountIds(DetectFanPatterns(g, d, SweepMinCounterparts, now, show)), now);
  }

  // ---------------------------------------------------------------------------
  // Shared infrastructure

  /** A shared-infrastructure row as the service reports it. */
  datatype InfraDetail = InfraDetail(id: string, sharedBy: nat, members: set<string>)

  /** `get_shared_infrastructure_details`, counting each sharer once. */
  function SharedInfrastructureDetails(g: Graph, kind: string): (r: seq<InfraDetail>)
    ensures |r| == |FindSharedInfrastructure(g, kind)|
    ensures forall i :: 0 <= i < |r| ==> r[i] == InfraDetailOf(FindSharedInfrastructure(g, kind)[i])
    ensures forall x :: x in r ==> x.sharedBy == |x.members|
    ensures kind == "device" ==> forall x :: x in r ==>
      exists dv :: dv in g.devices && x.id == dv.id && x.members == DeviceUsers(g, dv.id) && x.sharedBy >= 2
  {
    var rows := FindSharedInfrastructure(g, kind);
    var r := seq(|rows|, i requires 0 <= i < |rows| => InfraDetailOf(rows[i]));
    if kind == "device" then DeviceDetails(g, rows, r); r else r
  }

  /** One row of the details: the sharers of both sides, each counted once. */
  function InfraDetailOf(row: InfraRow): (d: InfraDetail)
    ensures d.id == row.id && d.members == row.firsts + row.seconds
    ensures d.sharedBy == |d.members|
  {
    InfraDetail(row.id, UserCount(row), row.firsts + row.seconds)
  }

  /** A shared-infrastructure row as the service writes it: the
      concatenation of the two sides' id lists, in an order the query does
      not fix, and its length. */
  datatype InfraListing = InfraListing(id: string, sharedBy: nat, entities: multiset<string>)

  /** One row as `get_shared_infrastructure_details` writes it: each side
      lists its ids once, so an id on both sides is listed, and counted,
      twice. */
  function InfraListingOf(row: InfraRow): (d: InfraListing)
    ensures d.id == row.id
    ensures d.sharedBy == |d.entities|
    ensures forall x :: d.entities[x] == (if x in row.firsts then 1 else 0) + (if x in row.seconds then 1 else 0)
  {
    SetMultisetCard(row.firsts);
    SetMultisetCard(row.seconds);
    InfraListing(row.id, |row.firsts| + |row.seconds|, multiset(row.firsts) + multiset(row.seconds))
  }

  lemma {:induction false} SetMultisetCard(xs: set<string>)
    ensures |multiset(xs)| == |xs|
    decreases |xs|
  {
    if xs != {} {
      var x :| x in xs;
      assert xs == (xs - {x}) + {x};
      assert multiset(xs) == multiset(xs - {x}) + multiset{x};
      SetMultisetCard(xs - {x});
    }
  }

  /** `get_shared_infrastructure_details` as written: one listing per row of
      the query. */
  function SharedInfrastructureListing(g: Graph, kind: string): (r: seq<InfraListing>)
    ensures |r| == |FindSharedInfrastructure(g, kind)|
    ensures forall i :: 0 <= i < |r| ==> r[i] == InfraListingOf(FindSharedInfrastructure(g, kind)[i])
    ensures forall x :: x in r ==> x.sharedBy == |x.entities|
  {
    Listings(FindSharedInfrastructure(g, kind))
  }

  function Listings(rows: seq<InfraRow>): (r: seq<InfraListing>)
    ensures |r| == |rows|
    ensures forall i :: 0 <= i < |r| ==> r[i] == InfraListingOf(rows[i])
    ensures forall x :: x in r ==> x.sharedBy == |x.entities|
  {
    seq(|rows|, i requires 0 <= i < |rows| => InfraListingOf(rows[i]))
  }

  /** The written listing names the same sharers as the corrected details,
      and never counts fewer: it counts every sharer on both sides twice. */
  lemma ListingOvercounts(g: Graph, kind: string)
    ensures |SharedInfrastructureListing(g, kind)| == |SharedInfrastructureDetails(g, kind)|
    ensures forall i :: 0 <= i < |SharedInfrastructureListing(g, kind)| ==>
      ListingMatches(SharedInfrastructureListing(g, kind)[i], SharedInfrastructureDetails(g, kind)[i])
  {
    var rows := FindSharedInfrastructure(g, kind);
    forall i | 0 <= i < |rows| ensures ListingMatches(InfraListingOf(rows[i]), InfraDetailOf(rows[i])) {
      RowListingOvercounts(rows[i]);
    }
  }

  /** A written listing against the corrected detail of the same row: same
      id, same sharers, a count at least as large, and equal counts exactly
      when every sharer is listed once. */
  ghost predicate ListingMatches(w: InfraListing, c: InfraDetail)
  {
    && w.id == c.id
    && (forall x :: x in w.entities <==> x in c.members)
    && w.sharedBy >= c.sharedBy
    && (w.sharedBy == c.sharedBy <==> forall x :: x in c.members ==> w.entities[x] == 1)
  }

  lemma RowListingOvercounts(row: InfraRow)
    ensures ListingMatches(InfraListingOf(row), InfraDetailOf(row))
  {
    OverlapCount(row);
    var w := InfraListingOf(row);
    var c := InfraDetailOf(row);
    assert w.sharedBy == |row.firsts| + |row.seconds| && c.sharedBy == |row.firsts + row.seconds|;
    if row.firsts * row.seconds != {} {
      var x :| x in row.firsts * row.seconds;
      assert w.entities[x] == 2 && x in c.members;
    } else {
      forall x | x in c.members ensures w.entities[x] == 1 {
        assert x !in row.firsts * row.seconds;
      }
    }
  }

  /** The concatenated lists are as long as the distinct sharers exactly
      when no one is on both sides. */
  lemma OverlapCount(row: InfraRow)
    ensures |row.firsts| + |row.seconds| == |row.firsts + row.seconds| + |row.firsts * row.seconds|
    ensures (|row.firsts| + |row.seconds| == |row.firsts + row.seconds|) <==> row.firsts * row.seconds == {}
  {
    var a, b := row.firsts, row.seconds;
    assert a + b == a + (b - a);
    assert b == (b - a) + (a * b);
    assert (b - a) * (a * b) == {};
  }

  /** Three customers on one device: the written listing reports 4 sharers
      and lists the middle customer twice; the corrected details report the
      3 distinct users. */
  lemma ThreeUsersListed(g: Graph)
    requires g.deviceUse == {("a", "d"), ("b", "d"), ("c", "d")}
    ensures InfraListingOf(DeviceRow(g, "d")).sharedBy == 4
    ensures InfraListingOf(DeviceRow(g, "d")).entities == multiset{"a", "b", "b", "c"}
    ensures InfraDetailOf(DeviceRow(g, "d")).sharedBy == 3
    ensures InfraDetailOf(DeviceRow(g, "d")).members == {"a", "b", "c"}
  {
    ThreeRow(g);
    ThreeCounts();
    ThreeRowListed();
  }

  lemma ThreeRowListed()
    ensures InfraListingOf(InfraRow("d", {"a", "b"}, {"b", "c"})).entities == multiset{"a", "b", "b", "c"}
  {
    assert multiset({"a", "b"}) == multiset{"a", "b"};
    assert multiset({"b", "c"}) == multiset{"b", "c"};
  }

  /** The details of shared devices name exactly the device's users. */
  lemma DeviceDetails(g: Graph, rows: seq<InfraRow>, r: seq<InfraDetail>)
    requires forall row :: row in rows ==>
      exists dv :: dv in g.devices && row == DeviceRow(g, dv.id) && |DeviceUsers(g, dv.id)| >= 2
    requires |r| == |rows| && forall i :: 0 <= i < |r| ==> r[i] == InfraDetailOf(rows[i])
    ensures forall x :: x in r ==>
      exists dv :: dv in g.devices && x.id == dv.id && x.members == DeviceUsers(g, dv.id) && x.sharedBy >= 2
  {
    forall x | x in r
      ensures exists dv :: dv in g.devices && x.id == dv.id && x.members == DeviceUsers(g, dv.id) && x.sharedBy >= 2
    {
      var i :| 0 <= i < |r| && r[i] == x;
      assert rows[i] in rows;
      var dv :| dv in g.devices && rows[i] == DeviceRow(g, dv.id) && |DeviceUsers(g, dv.id)| >= 2;
      DeviceRowMembers(g, dv.id);
    }
  }

  // ---------------------------------------------------------------------------
  // Search

  datatype Entity = AccountEntity(account: Account) | CustomerEntity(customer: Customer)

  /** `search_entities`: an account by number, else by id; a customer by
      email, else by id; any other kind finds nothing. At most one result. */
  function SearchEntities(g: Graph, query: string, kind: string): (r: seq<Entity>)
    ensures |r| <= 1
    ensures kind != "account" && kind != "customer" ==> r == []
    ensures kind == "account" ==>
      (|r| == 1 <==> exists a :: a in g.accounts && (a.number == query || a.id == query))
    ensures kind == "account" && |r| == 1 ==>
      r[0].AccountEntity? && r[0].account in g.accounts && (r[0].account.number == query || r[0].account.id == query)
    ensures kind == "account" && (exists a :: a in g.accounts && a.number == query) ==>
      |r| == 1 && r[0].AccountEntity? && r[0].account.number == query
    ensures kind == "customer" ==>
      (|r| == 1 <==> exists c :: c in g.customers && (c.email == ToLower(query) || c.id == query))
    ensures kind == "customer" && |r| == 1 ==>
      r[0].CustomerEntity? && r[0].customer in g.customers
      && (r[0].customer.email == ToLower(query) || r[0].customer.id == query)
    ensures kind == "customer" && (exists c :: c in g.customers && c.email == ToLower(query)) ==>
      |r| == 1 && r[0].CustomerEntity? && r[0].customer.email == ToLower(query)
  {
    if kind == "account" then
      match FindAccountByNumber(g.accounts, query)
      case Some(a) => [AccountEntity(a)]
      case None =>
        match FindAccount(g.accounts, query)
        case Some(a) => [AccountEntity(a)]
        case None =>
          assert forall a :: a in g.accounts ==> a.id != query by {
            forall a | a in g.accounts ensures a.id != query {
              var i :| 0 <= i < |g.accounts| && g.accounts[i] == a;
            }
          }
          []
    else if kind == "customer" then
      match FindCustomerByEmail(g.customers, query)
      case Some(c) => [CustomerEntity(c)]
      case None =>
        match FindCustomer(g.customers, query)
        case Some(c) => [CustomerEntity(c)]
        case None => []
    else []
  }
}

=== FILE: Scoring.dfy ===
/** The risk-scoring service: account and customer risk as sums of
    independently capped factors, clamped to 100, each factor that
    contributes named in the result. The store queries the account score
    needs (velocity count, last-seven-days transactions) run against the
    in-memory graph, and `now` is a parameter. */
module Scoring {
  import opened Base
  import opened Text
  import opened Entities
  import opened ValueObjects
  import opened Graph

  /** A reason that raised a score. */
  datatype Factor =
    | HighVelocity(count: nat)
    | FlaggedTransactions(count: nat)
    | YoungAccount(days: int)
    | AccountSuspended
    | HighValueTransactions(count: nat)
    | FailedKyc
    | PendingKyc
    | HighAverageAccountRisk(average: real)
    | YoungCustomer(days: int)
    | MultipleAccounts(count: nat)

  /** The factor's text; `show` renders a real with one decimal. */
  function Describe(f: Factor, show: real -> string): string
  {
    match f
    case HighVelocity(n) => "High transaction velocity: " + NatToString(n) + " in last hour"
    case FlaggedTransactions(n) => "Flagged transactions: " + NatToString(n)
    case YoungAccount(d) => "New account: " + IntToString(d) + " days old"
    case AccountSuspended => "Account suspended"
    case HighValueTransactions(n) => "High-value transactions: " + NatToString(n)
    case FailedKyc => "KYC verification failed"
    case PendingKyc => "KYC verification pending"
    case HighAverageAccountRisk(avg) => "High average account risk: " + show(avg)
    case YoungCustomer(d) => "New customer: " + IntToString(d) + " days"
    case MultipleAccounts(n) => "Multiple accounts: " + NatToString(n)
  }

  function Render(fs: seq<Factor>, show: real -> string): (r: seq<string>)
    ensures |r| == |fs|
  {
    seq(|fs|, i requires 0 <= i < |fs| => Describe(fs[i], show))
  }

  /** A score before it is wrapped with its rendered factors and timestamp. */
  datatype Assessment = Assessment(score: real, factors: seq<Factor>)

  const VelocityWindowMinutes: int := 60
  const RecentWindowMinutes: int := 7 * MinutesPerDay
  const HighValueAmount: real := 10000.0

  // ---------------------------------------------------------------------------
  // Account factors

  /** Velocity: nothing up to 10 transactions in the hour, then twice the
      count, capped at 30. */
  function VelocityPoints(count: nat): (p: real)
    ensures count <= 10 ==> p == 0.0
    ensures 10 < count < 15 ==> p == 2.0 * count as real
    ensures count >= 15 ==> p == 30.0
    ensures count > 10 ==> 22.0 <= p <= 30.0
  {
    if count > 10 then Min(30.0, count as real * 2.0) else 0.0
  }

  /** Flagged history: five per flagged transaction, capped at 25. */
  function FlaggedPoints(count: nat): (p: real)
    ensures count == 0 ==> p == 0.0
    ensures 0 < count < 5 ==> p == 5.0 * count as real
    ensures count >= 5 ==> p == 25.0
  {
    if count > 0 then Min(25.0, count as real * 5.0) else 0.0
  }

  /** Account age: only under 30 days, 15 minus half a point per day. */
  function AccountAgePoints(days: int): (p: real)
    ensures days >= 30 ==> p == 0.0
    ensures 0 <= days < 30 ==> 0.0 < p <= 15.0
    ensures days < 30 ==> p + 0.5 * days as real == 15.0
    ensures p >= 0.0
  {
    if days < 30 then 15.0 - days as real * 0.5 else 0.0
  }

  /** Status: a flat 20 for a suspended account. */
  function StatusPoints(s: AccountStatus): (p: real)
    ensures p == 20.0 <==> s == Suspended
    ensures p == 0.0 <==> s != Suspended
  {
    if s == Suspended then 20.0 else 0.0
  }

  /** High-value activity: two per transaction above 10000, capped at 10. */
  function HighValuePoints(count: nat): (p: real)
    ensures count == 0 ==> p == 0.0
    ensures 0 < count < 5 ==> p == 2.0 * count as real
    ensures count >= 5 ==> p == 10.0
  {
    if count > 0 then Min(10.0, count as real * 2.0) else 0.0
  }

  function CountHighValue(ts: seq<Transaction>): (n: nat)
    ensures n <= |ts|
  {
    if |ts| == 0 then 0 else (if ts[0].amount > HighValueAmount then 1 else 0) + CountHighValue(ts[1..])
  }

  /** The transactions the account score looks at: last seven days. */
  function RecentTransactions(g: Graph, a: Account, now: Time): seq<Transaction>
  {
    FindByAccount(g, a.id, Some(now - RecentWindowMinutes), None)
  }

  function Velocity(g: Graph, a: Account, now: Time): nat
  {
    CountInTimeframe(g, a.id, now, VelocityWindowMinutes)
  }

  function AccountAge(a: Account, now: Time): int
  {
    DaysBetween(a.created, now)
  }

  /** What the account score measures, read from the store. */
  datatype AccountSignals = AccountSignals(velocity: nat, flagged: nat, age: int,
                                           status: AccountStatus, highValue: nat)

  function Signals(g: Graph, a: Account, now: Time): AccountSignals
  {
    var recent := RecentTransactions(g, a, now);
    AccountSignals(Velocity(g, a, now), CountFlagged(recent), AccountAge(a, now),
                   a.status, CountHighValue(recent))
  }

  /** The factors of an account, in the order the service lists them. */
  function AccountFactors(s: AccountSignals): (fs: seq<Factor>)
    ensures HighVelocity(s.velocity) in fs <==> s.velocity > 10
    ensures FlaggedTransactions(s.flagged) in fs <==> s.flagged > 0
    ensures YoungAccount(s.age) in fs <==> s.age < 30
    ensures AccountSuspended in fs <==> s.status == Suspended
    ensures HighValueTransactions(s.highValue) in fs <==> s.highValue > 0
    ensures |fs| <= 5
  {
    (if s.velocity > 10 then [HighVelocity(s.velocity)] else [])
    + (if s.flagged > 0 then [FlaggedTransactions(s.flagged)] else [])
    + (if s.age < 30 then [YoungAccount(s.age)] else [])
    + (if s.status == Suspended then [AccountSuspended] else [])
    + (if s.highValue > 0 then [HighValueTransactions(s.highValue)] else [])
  }

  /** The uncapped sum of the five account components. */
  function AccountPoints(s: AccountSignals): (p: real)
    ensures p >= 0.0
    ensures p == 0.0 <==> AccountFactors(s) == []
    ensures s.status == Suspended ==> p >= 20.0
    ensures s.velocity > 10 ==> p >= 22.0
  {
    VelocityPoints(s.velocity) + FlaggedPoints(s.flagged) + AccountAgePoints(s.age)
    + StatusPoints(s.status) + HighValuePoints(s.highValue)
  }

  /** `calculate_account_risk`, before rendering: the component sum clamped
      to 100, with the factors that contributed. */
  function AccountAssessment(g: Graph, a: Account, now: Time): (r: Assessment)
    ensures 0.0 <= r.score <= 100.0
    ensures r.score == 0.0 <==> r.factors == []
    ensures r.score == Min(100.0, AccountPoints(Signals(g, a, now)))
    ensures AccountSuspended in r.factors <==> a.status == Suspended
    ensures a.status == Suspended ==> r.score >= 20.0
    ensures Velocity(g, a, now) > 10 ==> r.score >= 22.0
    ensures HighVelocity(Velocity(g, a, now)) in r.factors <==> Velocity(g, a, now) > 10
  {
    var s := Signals(g, a, now);
    Assessment(Min(100.0, AccountPoints(s)), AccountFactors(s))
  }

  /** `calculate_account_risk`: the score with its rendered factors, stamped `now`. */
  function AccountRisk(g: Graph, a: Account, now: Time, show: real -> string): (r: RiskScore)
    ensures r.Valid()
    ensures r.calculatedAt == now
    ensures |r.factors| == |AccountAssessment(g, a, now).factors|
    ensures r.score == AccountAssessment(g, a, now).score
  {
    var s := AccountAssessment(g, a, now);
    RiskScore(s.score, Render(s.factors, show), now)
  }

  /** The account score reads the transactions and the account's id,
      creation time and status, nothing else: in particular not any stored
      risk score. */
  lemma AccountAssessmentReads(g: Graph, h: Graph, a: Account, b: Account, now: Time)
    requires g.txns == h.txns
    requires a.id == b.id && a.created == b.created && a.status == b.status
    ensures AccountAssessment(g, a, now) == AccountAssessment(h, b, now)
  {
  }

  /** Suspending an account never lowers its score. */
  lemma SuspensionNeverLowers(g: Graph, a: Account, now: Time)
    ensures AccountAssessment(g, a.(status := Suspended), now).score >= AccountAssessment(g, a, now).score
  {
  }

  /** Eleven transactions in the last hour contribute 22 points. */
  lemma ElevenInAnHour()
    ensures VelocityPoints(11) == 22.0
    ensures VelocityPoints(10) == 0.0
  {
  }

  // ---------------------------------------------------------------------------
  // Customer factors

  function KycPoints(k: KycStatus): (p: real)
    ensures k == KycFailed ==> p == 25.0
    ensures k == KycPending ==> p == 15.0
    ensures k == KycVerified ==> p == 0.0
  {
    match k
    case KycFailed => 25.0
    case KycPending => 15.0
    case KycVerified => 0.0
  }

  function SumRisk(accounts: seq<Account>): (s: real)
    requires forall i :: 0 <= i < |accounts| ==> accounts[i].Valid()
    ensures 0.0 <= s <= 100.0 * |accounts| as real
  {
    if |accounts| == 0 then 0.0
    else
      assert accounts[0].Valid();
      assert 100.0 * |accounts| as real == 100.0 + 100.0 * |accounts[1..]| as real;
      accounts[0].riskScore + SumRisk(accounts[1..])
  }

  /** A total of at most 100 per item averages to at most 100. */
  lemma MeanBound(total: real, n: real)
    requires n > 0.0 && 0.0 <= total <= 100.0 * n
    ensures 0.0 <= total / n <= 100.0
  {
  }

  /** The mean stored risk of the customer's accounts. */
  function AverageRisk(accounts: seq<Account>): (avg: real)
    requires |accounts| > 0
    requires forall i :: 0 <= i < |accounts| ==> accounts[i].Valid()
    ensures 0.0 <= avg <= 100.0
  {
    var total := SumRisk(accounts);
    var n := |accounts| as real;
    MeanBound(total, n);
    total / n
  }

  /** Average account risk scaled to at most 30; nothing without accounts. */
  function AccountRiskPoints(accounts: seq<Account>): (p: real)
    requires forall i :: 0 <= i < |accounts| ==> accounts[i].Valid()
    ensures 0.0 <= p <= 30.0
    ensures |accounts| == 0 ==> p == 0.0
    ensures |accounts| > 0 ==> p * 100.0 == AverageRisk(accounts) * 30.0
  {
    if |accounts| > 0 then (AverageRisk(accounts) / 100.0) * 30.0 else 0.0
  }

  /** Customer age: only under 60 days, 15 minus a quarter point per day. */
  function CustomerAgePoints(days: int): (p: real)
    ensures days >= 60 ==> p == 0.0
    ensures 0 <= days < 60 ==> 0.0 < p <= 15.0
    ensures days < 60 ==> p + 0.25 * days as real == 15.0
    ensures p >= 0.0
  {
    if days < 60 then 15.0 - days as real * 0.25 else 0.0
  }

  /** More than five accounts: two per extra account, capped at 10. */
  function AccountCountPoints(n: nat): (p: real)
    ensures n <= 5 ==> p == 0.0
    ensures 5 < n < 10 ==> p == 2.0 * (n - 5) as real
    ensures n >= 10 ==> p == 10.0
  {
    if n > 5 then Min(10.0, (n - 5) as real * 2.0) else 0.0
  }

  /** The customer rule points before the clamp: KYC, average account risk,
      customer age and account count. For a customer whose creation time is
      not in the future the rules add up to at most 25 + 30 + 15 + 10. */
  function CustomerPoints(c: Customer, accounts: seq<Account>, now: Time): (p: real)
    requires forall i :: 0 <= i < |accounts| ==> accounts[i].Valid()
    ensures p >= KycPoints(c.kyc) && p >= AccountRiskPoints(accounts)
    ensures p >= CustomerAgePoints(DaysBetween(c.since, now)) && p >= AccountCountPoints(|accounts|)
    ensures DaysBetween(c.since, now) >= 0 ==> p <= 80.0
  {
    KycPoints(c.kyc) + AccountRiskPoints(accounts) + CustomerAgePoints(DaysBetween(c.since, now))
    + AccountCountPoints(|accounts|)
  }

  /** `calculate_customer_risk`, before rendering: the rule points clamped to
      100, which only bites for a customer created in the future. The
      accounts carry valid risk scores, as every account entity does. */
  function CustomerAssessment(c: Customer, accounts: seq<Account>, now: Time): (r: Assessment)
    requires forall i :: 0 <= i < |accounts| ==> accounts[i].Valid()
    ensures 0.0 <= r.score <= 100.0
    ensures r.score == Min(100.0, CustomerPoints(c, accounts, now))
    ensures DaysBetween(c.since, now) >= 0 ==> r.score == CustomerPoints(c, accounts, now) <= 80.0
    ensures r.factors == CustomerFactors(c, accounts, now)
    ensures c.kyc == KycFailed ==> r.score >= 25.0
    ensures r.score == 0.0 ==> r.factors == []
  {
    var age := DaysBetween(c.since, now);
    var n := |accounts|;
    var raw := CustomerPoints(c, accounts, now);
    assert c.kyc != KycVerified ==> KycPoints(c.kyc) > 0.0;
    assert n > 0 && AverageRisk(accounts) > 50.0 ==> AccountRiskPoints(accounts) > 0.0;
    assert age < 60 ==> CustomerAgePoints(age) > 0.0;
    assert n > 5 ==> AccountCountPoints(n) > 0.0;
    CustomerFactorsEmpty(c, accounts, now);
    Assessment(Min(100.0, raw), CustomerFactors(c, accounts, now))
  }

  /** A worse KYC status never lowers the customer score: failed scores at
      least as high as pending, pending at least as high as verified. */
  lemma KycNeverLowers(c: Customer, accounts: seq<Account>, now: Time, worse: KycStatus)
    requires forall i :: 0 <= i < |accounts| ==> accounts[i].Valid()
    requires KycPoints(worse) >= KycPoints(c.kyc)
    ensures CustomerAssessment(c.(kyc := worse), accounts, now).score >= CustomerAssessment(c, accounts, now).score
  {
    var p := CustomerPoints(c, accounts, now);
    var q := CustomerPoints(c.(kyc := worse), accounts, now);
    assert q - p == KycPoints(worse) - KycPoints(c.kyc);
  }

  /** More accounts never lower the account-count points. */
  lemma AccountCountMonotone(n: nat, m: nat)
    requires n <= m
    ensures AccountCountPoints(n) <= AccountCountPoints(m)
  {
  }

  /** No reason is given exactly when no customer rule fires. */
  lemma CustomerFactorsEmpty(c: Customer, accounts: seq<Account>, now: Time)
    requires forall i :: 0 <= i < |accounts| ==> accounts[i].Valid()
    ensures CustomerFactors(c, accounts, now) == [] <==>
      c.kyc == KycVerified && !(|accounts| > 0 && AverageRisk(accounts) > 50.0)
      && DaysBetween(c.since, now) >= 60 && |accounts| <= 5
  {
  }

  /** The reasons `calculate_customer_risk` gives, one per scoring rule that
      fired, in rule order. */
  function CustomerFactors(c: Customer, accounts: seq<Account>, now: Time): (f: seq<Factor>)
    requires forall i :: 0 <= i < |accounts| ==> accounts[i].Valid()
    ensures FailedKyc in f <==> c.kyc == KycFailed
    ensures PendingKyc in f <==> c.kyc == KycPending
    ensures (exists avg :: HighAverageAccountRisk(avg) in f) <==> |accounts| > 0 && AverageRisk(accounts) > 50.0
    ensures MultipleAccounts(|accounts|) in f <==> |accounts| > 5
    ensures YoungCustomer(DaysBetween(c.since, now)) in f <==> DaysBetween(c.since, now) < 60
  {
    var age := DaysBetween(c.since, now);
    var n := |accounts|;
    (if c.kyc == KycFailed then [FailedKyc] else if c.kyc == KycPending then [PendingKyc] else [])
    + (if n > 0 && AverageRisk(accounts) > 50.0 then [HighAverageAccountRisk(AverageRisk(accounts))] else [])
    + (if age < 60 then [YoungCustomer(age)] else [])
    + (if n > 5 then [MultipleAccounts(n)] else [])
  }

  /** `calculate_customer_risk`: the score with its rendered factors, stamped `now`. */
  function CustomerRisk(c: Customer, accounts: seq<Account>, now: Time, show: real -> string): (r: RiskScore)
    requires forall i :: 0 <= i < |accounts| ==> accounts[i].Valid()
    ensures r.Valid()
    ensures r.score == CustomerAssessment(c, accounts, now).score
    ensures |r.factors| == |CustomerAssessment(c, accounts, now).factors|
  {
    var s := CustomerAssessment(c, accounts, now);
    RiskScore(s.score, Render(s.factors, show), now)
  }

  /** A long-standing customer with failed KYC and no accounts scores exactly
      25, for the one reason "KYC verification failed". */
  lemma FailedKycAlone(c: Customer, now: Time, show: real -> string)
    requires c.kyc == KycFailed
    requires DaysBetween(c.since, now) >= 60
    ensures CustomerRisk(c, [], now, show).score == 25.0
    ensures CustomerRisk(c, [], now, show).factors == ["KYC verification failed"]
  {
    var s := CustomerAssessment(c, [], now);
    assert s.factors == [FailedKyc];
  }
}

=== FILE: Sorting.dfy ===
/** `ORDER BY key DESC` and Python's `list.sort(key=..., reverse=True)`:
    a stable insertion sort on sequences, with its two defining properties
    (the result is ordered and is a permutation of the input) proved. */
module Sorting {
  import opened Base

  /** `s` is ordered from the largest key to the smallest. */
  ghost predicate SortedDesc<T>(s: seq<T>, key: T -> real)
  {
    forall i, j :: 0 <= i < j < |s| ==> key(s[i]) >= key(s[j])
  }

  /** Inserts `x` in front of the first element whose key is smaller. */
  function Insert<T>(x: T, s: seq<T>, key: T -> real): (r: seq<T>)
    requires SortedDesc(s, key)
    ensures SortedDesc(r, key)
    ensures multiset(r) == multiset(s) + multiset{x}
    ensures |r| == |s| + 1
  {
    if |s| == 0 then [x]
    else if key(x) >= key(s[0]) then
      ConsSorted(x, s, key);
      [x] + s
    else
      var rest := Insert(x, s[1..], key);
      assert s == [s[0]] + s[1..];
      AddedBound(x, s[1..], rest, key, key(s[0]));
      ConsSorted(s[0], rest, key);
      [s[0]] + rest
  }

  /** Putting an element with the largest key in front keeps the order. */
  lemma ConsSorted<T>(h: T, s: seq<T>, key: T -> real)
    requires SortedDesc(s, key)
    requires |s| > 0 ==> key(h) >= key(s[0])
    ensures SortedDesc([h] + s, key)
  {
    var r := [h] + s;
    forall i, j | 0 <= i < j < |r| ensures key(r[i]) >= key(r[j]) {
      if i == 0 {
        assert r[j] == s[j - 1];
        assert key(s[0]) >= key(s[j - 1]);
      } else {
        assert r[i] == s[i - 1] && r[j] == s[j - 1];
      }
    }
  }

  /** A bound on `x` and on the keys of `s` bounds the keys of any
      rearrangement of `s` with `x` added. */
  lemma AddedBound<T>(x: T, s: seq<T>, r: seq<T>, key: T -> real, b: real)
    requires multiset(r) == multiset(s) + multiset{x}
    requires key(x) <= b && forall k :: 0 <= k < |s| ==> key(s[k]) <= b
    ensures forall k :: 0 <= k < |r| ==> key(r[k]) <= b
  {
    forall k | 0 <= k < |r| ensures key(r[k]) <= b {
      assert r[k] in multiset(r);
      if r[k] != x {
        assert r[k] in multiset(s);
        var j :| 0 <= j < |s| && s[j] == r[k];
      }
    }
  }

  /** The elements of `s`, largest key first; equal keys keep their order. */
  function SortDesc<T>(s: seq<T>, key: T -> real): (r: seq<T>)
    ensures SortedDesc(r, key)
    ensures multiset(r) == multiset(s)
    ensures |r| == |s|
  {
    if |s| == 0 then []
    else
      assert s == [s[0]] + s[1..];
      Insert(s[0], SortDesc(s[1..], key), key)
  }

  /** Membership is what a permutation preserves. */
  lemma SortDescMembers<T>(s: seq<T>, key: T -> real, x: T)
    ensures x in SortDesc(s, key) <==> x in s
  {
    var r := SortDesc(s, key);
    assert x in r <==> x in multiset(r);
    assert x in s <==> x in multiset(s);
  }

  /** A prefix of a sorted sequence holds its largest keys: nothing left
      behind outranks anything kept. */
  lemma PrefixTop<T>(s: seq<T>, key: T -> real, k: nat)
    requires SortedDesc(s, key) && k <= |s|
    ensures multiset(s[..k]) <= multiset(s)
    ensures forall x, y :: x in s[..k] && y in multiset(s) - multiset(s[..k]) ==> key(y) <= key(x)
  {
    assert s == s[..k] + s[k..];
    assert multiset(s) == multiset(s[..k]) + multiset(s[k..]);
    forall x, y | x in s[..k] && y in multiset(s) - multiset(s[..k]) ensures key(y) <= key(x) {
      assert y in multiset(s[k..]);
      var i :| 0 <= i < k && s[..k][i] == x;
      var j :| 0 <= j < |s| - k && s[k..][j] == y;
      assert s[i] == x && s[k + j] == y;
    }
  }

  /** `ORDER BY key DESC LIMIT n`: the `n` elements of `s` with the largest
      keys, largest first. Nothing left out outranks anything kept, and all
      of `s` is kept when it has no more than `n` elements. */
  function Top<T>(s: seq<T>, key: T -> real, n: nat): (r: seq<T>)
    ensures |r| == if |s| <= n then |s| else n
    ensures SortedDesc(r, key)
    ensures multiset(r) <= multiset(s)
    ensures forall x, y :: x in r && y in multiset(s) - multiset(r) ==> key(y) <= key(x)
    ensures |s| <= n ==> multiset(r) == multiset(s)
    ensures forall x :: x in r ==> x in s
    ensures |s| <= n ==> forall x :: x in s ==> x in r
  {
    var sorted := SortDesc(s, key);
    var k := if n <= |sorted| then n else |sorted|;
    PrefixTop(sorted, key, k);
    assert k == |sorted| ==> sorted[..k] == sorted;
    PrefixSorted(sorted, key, k);
    var r := sorted[..k];
    assert forall x :: x in r ==> x in s by {
      forall x | x in r ensures x in s {
        assert x in multiset(r);
      }
    }
    assert |s| <= n ==> forall x :: x in s ==> x in r by {
      if |s| <= n {
        forall x | x in s ensures x in r {
          assert x in multiset(s);
        }
      }
    }
    r
  }

  /** A prefix of a sorted sequence is sorted. */
  lemma PrefixSorted<T>(s: seq<T>, key: T -> real, k: nat)
    requires SortedDesc(s, key) && k <= |s|
    ensures SortedDesc(s[..k], key)
  {
    forall i, j | 0 <= i < j < k ensures key(s[..k][i]) >= key(s[..k][j]) {
      assert s[..k][i] == s[i] && s[..k][j] == s[j];
    }
  }

  /** A smaller limit keeps a prefix of what a larger limit keeps. The keys
      agree position by position whatever order ties take; the elements
      themselves agree because `SortDesc` keeps store order among equal
      keys. */
  lemma TopPrefix<T>(s: seq<T>, key: T -> real, n: nat, m: nat)
    requires n <= m
    ensures |Top(s, key, n)| <= |Top(s, key, m)|
    ensures forall i :: 0 <= i < |Top(s, key, n)| ==> key(Top(s, key, n)[i]) == key(Top(s, key, m)[i])
    ensures Top(s, key, n) == Top(s, key, m)[..|Top(s, key, n)|]
  {
    var sorted := SortDesc(s, key);
    var kn := if n <= |sorted| then n else |sorted|;
    var km := if m <= |sorted| then m else |sorted|;
    assert sorted[..kn] == sorted[..km][..kn];
  }

  /** Python's `[:n]` on a sorted list keeps a prefix, so it keeps the
      largest keys: nothing dropped outranks anything kept. */
  lemma SliceTop<T>(s: seq<T>, key: T -> real, n: int)
    requires SortedDesc(s, key)
    ensures SortedDesc(SliceTo(s, n), key)
    ensures multiset(SliceTo(s, n)) <= multiset(s)
    ensures forall x, y :: x in SliceTo(s, n) && y in multiset(s) - multiset(SliceTo(s, n)) ==> key(y) <= key(x)
  {
    var k := |SliceTo(s, n)|;
    assert SliceTo(s, n) == s[..k];
    PrefixTop(s, key, k);
    PrefixSorted(s, key, k);
  }
}

=== FILE: Stores.dfy ===
/** The fraud-ring and alert repositories. A store is either an in-memory
    value, which keeps what is saved, or the graph adapter's placeholder,
    which stores nothing: its `save` hands the entity back, its lookups find
    nothing and its lists are empty. */
module Stores {
  import opened Base
  import opened Entities

  /** An entity linked to a ring with a role, e.g. "participant". */
  datatype Link = Link(ringId: string, entityId: string, role: string)

  datatype RingStore =
    | RingMemory(rings: seq<FraudRing>, links: seq<Link>)
    | RingPlaceholder

  /** Ring `find_by_id`. */
  function FindRing(s: RingStore, id: string): (r: Option<FraudRing>)
    ensures s.RingPlaceholder? ==> r.None?
    ensures s.RingMemory? ==> (r.Some? <==> exists k :: 0 <= k < |s.rings| && s.rings[k].id == id)
    ensures r.Some? ==> r.value.id == id && s.RingMemory? && r.value in s.rings
  {
    match s
    case RingPlaceholder => None
    case RingMemory(rings, _) => FirstRing(rings, id)
  }

  function FirstRing(rings: seq<FraudRing>, id: string): (r: Option<FraudRing>)
    ensures r.Some? <==> exists k :: 0 <= k < |rings| && rings[k].id == id
    ensures r.Some? ==> r.value.id == id && r.value in rings
  {
    if |rings| == 0 then None
    else if rings[0].id == id then Some(rings[0])
    else
      var r := FirstRing(rings[1..], id);
      assert (exists k :: 0 <= k < |rings| && rings[k].id == id)
             <==> (exists k :: 0 <= k < |rings[1..]| && rings[1..][k].id == id) by {
        if exists k :: 0 <= k < |rings| && rings[k].id == id {
          var k :| 0 <= k < |rings| && rings[k].id == id;
          assert rings[1..][k - 1] == rings[k];
        }
      }
      r
  }

  /** Ring `save`: an upsert by id in memory; the placeholder keeps nothing.
      Either way the ring itself is handed back. */
  function SaveRing(s: RingStore, ring: FraudRing): (r: (RingStore, FraudRing))
    ensures r.1 == ring
    ensures s.RingPlaceholder? ==> r.0 == s
    ensures s.RingMemory? ==> r.0.RingMemory? && r.0.links == s.links
    ensures s.RingMemory? ==> FindRing(r.0, ring.id) == Some(ring)
    ensures forall id :: id != ring.id ==> FindRing(r.0, id) == FindRing(s, id)
  {
    match s
    case RingPlaceholder => (s, ring)
    case RingMemory(rings, links) =>
      UpsertFinds(rings, ring);
      (RingMemory(Upsert(rings, ring), links), ring)
  }

  /** A ring with the same id is replaced in place; a new one is appended. */
  function Upsert(rings: seq<FraudRing>, ring: FraudRing): seq<FraudRing>
  {
    if exists k :: 0 <= k < |rings| && rings[k].id == ring.id then Replaced(rings, ring)
    else rings + [ring]
  }

  lemma UpsertFinds(rings: seq<FraudRing>, ring: FraudRing)
    ensures FirstRing(Upsert(rings, ring), ring.id) == Some(ring)
    ensures forall id :: id != ring.id ==> FirstRing(Upsert(rings, ring), id) == FirstRing(rings, id)
  {
    if exists k :: 0 <= k < |rings| && rings[k].id == ring.id {
      ReplacedFindsRing(rings, ring);
      forall id | id != ring.id ensures FirstRing(Replaced(rings, ring), id) == FirstRing(rings, id) {
        ReplacedFindsOthers(rings, ring, id);
      }
    } else {
      AppendedFind(rings, ring);
    }
  }

  /** Every ring with the saved ring's id replaced by it. */
  function Replaced(rings: seq<FraudRing>, ring: FraudRing): (r: seq<FraudRing>)
    ensures |r| == |rings|
    ensures forall k :: 0 <= k < |r| ==> r[k] == if rings[k].id == ring.id then ring else rings[k]
  {
    if |rings| == 0 then []
    else [if rings[0].id == ring.id then ring else rings[0]] + Replaced(rings[1..], ring)
  }

  lemma {:induction false} ReplacedFindsRing(rings: seq<FraudRing>, ring: FraudRing)
    requires exists k :: 0 <= k < |rings| && rings[k].id == ring.id
    ensures FirstRing(Replaced(rings, ring), ring.id) == Some(ring)
  {
    if rings[0].id != ring.id {
      var k :| 0 <= k < |rings| && rings[k].id == ring.id;
      assert rings[1..][k - 1] == rings[k];
      ReplacedFindsRing(rings[1..], ring);
      assert Replaced(rings, ring)[1..] == Replaced(rings[1..], ring);
    }
  }

  lemma {:induction false} ReplacedFindsOthers(rings: seq<FraudRing>, ring: FraudRing, id: string)
    requires id != ring.id
    ensures FirstRing(Replaced(rings, ring), id) == FirstRing(rings, id)
  {
    if |rings| > 0 {
      ReplacedFindsOthers(rings[1..], ring, id);
      assert Replaced(rings, ring)[1..] == Replaced(rings[1..], ring);
    }
  }

  lemma {:induction false} AppendedFind(rings: seq<FraudRing>, ring: FraudRing)
    requires forall k :: 0 <= k < |rings| ==> rings[k].id != ring.id
    ensures FirstRing(rings + [ring], ring.id) == Some(ring)
    ensures forall id :: id != ring.id ==> FirstRing(rings + [ring], id) == FirstRing(rings, id)
  {
    if |rings| > 0 {
      assert (rings + [ring])[1..] == rings[1..] + [ring];
      AppendedFind(rings[1..], ring);
    } else {
      assert ([] + [ring])[1..] == [];
    }
  }

  /** Rings still under investigation. */
  function ActiveRings(s: RingStore): (r: seq<FraudRing>)
    ensures s.RingPlaceholder? ==> r == []
    ensures forall x :: x in r <==> s.RingMemory? && x in s.rings && x.status == Investigating
  {
    match s
    case RingPlaceholder => []
    case RingMemory(rings, _) => InvestigatingRings(rings)
  }

  /** The rings under investigation. */
  function CountInvestigating(rings: seq<FraudRing>): (n: nat)
    ensures n <= |rings|
  {
    if |rings| == 0 then 0
    else (if rings[0].status == Investigating then 1 else 0) + CountInvestigating(rings[1..])
  }

  function InvestigatingRings(rings: seq<FraudRing>): (r: seq<FraudRing>)
    ensures forall x :: x in r <==> x in rings && x.status == Investigating
    ensures |r| == CountInvestigating(rings)
  {
    if |rings| == 0 then []
    else
      assert forall x :: x in rings <==> x == rings[0] || x in rings[1..];
      (if rings[0].status == Investigating then [rings[0]] else []) + InvestigatingRings(rings[1..])
  }

  /** `link_account_to_ring`: recorded in memory, dropped by the placeholder. */
  function LinkToRing(s: RingStore, ringId: string, entityId: string, role: string): (r: RingStore)
    ensures s.RingPlaceholder? ==> r == s
    ensures s.RingMemory? ==> r == RingMemory(s.rings, s.links + [Link(ringId, entityId, role)])
    ensures forall id :: FindRing(r, id) == FindRing(s, id)
  {
    match s
    case RingPlaceholder => s
    case RingMemory(rings, links) => RingMemory(rings, links + [Link(ringId, entityId, role)])
  }

  // ---------------------------------------------------------------------------
  // Alerts

  datatype AlertStore =
    | AlertMemory(alerts: seq<Alert>)
    | AlertPlaceholder

  /** `find_unresolved_alerts`. */
  function UnresolvedAlerts(s: AlertStore): (r: seq<Alert>)
    ensures s.AlertPlaceholder? ==> r == []
    ensures forall a :: a in r <==> s.AlertMemory? && a in s.alerts && !a.resolved
  {
    match s
    case AlertPlaceholder => []
    case AlertMemory(alerts) => Unresolved(alerts)
  }

  /** The alerts not yet resolved. */
  function CountUnresolved(alerts: seq<Alert>): (n: nat)
    ensures n <= |alerts|
  {
    if |alerts| == 0 then 0
    else (if !alerts[0].resolved then 1 else 0) + CountUnresolved(alerts[1..])
  }

  /** The alerts not yet resolved whose severity is critical. */
  function CountCriticalOpen(alerts: seq<Alert>): (n: nat)
    ensures n <= CountUnresolved(alerts)
  {
    if |alerts| == 0 then 0
    else (if !alerts[0].resolved && alerts[0].severity == Critical then 1 else 0) + CountCriticalOpen(alerts[1..])
  }

  /** Appending an alert adds one unresolved alert when it is unresolved,
      and one open critical alert when it is also critical. */
  lemma {:induction false} CountAppendAlert(alerts: seq<Alert>, a: Alert)
    ensures CountUnresolved(alerts + [a]) == CountUnresolved(alerts) + if !a.resolved then 1 else 0
    ensures CountCriticalOpen(alerts + [a]) ==
      CountCriticalOpen(alerts) + if !a.resolved && a.severity == Critical then 1 else 0
  {
    if |alerts| > 0 {
      assert (alerts + [a])[1..] == alerts[1..] + [a];
      CountAppendAlert(alerts[1..], a);
    } else {
      assert alerts + [a] == [a];
    }
  }

  function Unresolved(alerts: seq<Alert>): (r: seq<Alert>)
    ensures forall a :: a in r <==> a in alerts && !a.resolved
    ensures |r| == CountUnresolved(alerts)
  {
    if |alerts| == 0 then []
    else
      assert forall a :: a in alerts <==> a == alerts[0] || a in alerts[1..];
      (if !alerts[0].resolved then [alerts[0]] else []) + Unresolved(alerts[1..])
  }

  /** Alert `save`: appended in memory, handed back by the placeholder. */
  function SaveAlert(s: AlertStore, a: Alert): (r: (AlertStore, Alert))
    ensures r.1 == a
    ensures s.AlertPlaceholder? ==> r.0 == s
    ensures s.AlertMemory? ==> r.0 == AlertMemory(s.alerts + [a])
    ensures !a.resolved && s.AlertMemory? ==> a in UnresolvedAlerts(r.0)
  {
    match s
    case AlertPlaceholder => (s, a)
    case AlertMemory(alerts) => (AlertMemory(alerts + [a]), a)
  }
}

=== FILE: Text.dfy ===
/** The string operations the Python code leans on, written out so that their
    behaviour on the strings the model builds can be proved: `in` on strings,
    `str.split` (with and without a separator), `str.replace`, `str.strip`,
    `str.lower`, `", ".join`, decimal rendering of integers, and the
    lexicographic comparison Cypher applies to string ids. */
module Text {

  /** The characters `str.isspace` accepts. */
  predicate IsSpace(c: char)
  {
    c == ' ' || ('\t' <= c <= '\r') || ('\U{1C}' <= c <= '\U{1F}')
    || c == '\U{85}' || c == '\U{A0}' || c == '\U{1680}'
    || ('\U{2000}' <= c <= '\U{200A}') || c == '\U{2028}' || c == '\U{2029}'
    || c == '\U{202F}' || c == '\U{205F}' || c == '\U{3000}'
  }

  predicate NoSpace(s: string)
  {
    forall i :: 0 <= i < |s| ==> !IsSpace(s[i])
  }

  /** Python's `sub in s` for strings: `sub` starts at some position of `s`. */
  predicate Contains(s: string, sub: string)
    decreases |s|
  {
    sub <= s || (|s| > 0 && Contains(s[1..], sub))
  }

  // ---------------------------------------------------------------------------
  // s.split(c)

  /** Python's `s.split(c)[0]`: everything before the first `c`. */
  function BeforeFirst(s: string, c: char): (r: string)
    ensures r <= s
    ensures c !in r
    ensures |r| < |s| ==> s[|r|] == c
  {
    if |s| == 0 || s[0] == c then "" else [s[0]] + BeforeFirst(s[1..], c)
  }

  lemma {:induction false} BeforeFirstOfConcat(a: string, c: char, b: string)
    requires c !in a
    ensures BeforeFirst(a + [c] + b, c) == a
  {
    if |a| == 0 {
      assert (a + [c] + b)[0] == c;
    } else {
      assert (a + [c] + b)[1..] == a[1..] + [c] + b;
      BeforeFirstOfConcat(a[1..], c, b);
    }
  }

  /** Python's `s.split(c)`: the pieces between occurrences of `c`. */
  function SplitOn(s: string, c: char): (parts: seq<string>)
    ensures |parts| >= 1
    decreases |s|
  {
    var head := BeforeFirst(s, c);
    if |head| == |s| then [s] else [head] + SplitOn(s[|head| + 1..], c)
  }

  function CountChar(s: string, c: char): nat
  {
    if |s| == 0 then 0 else (if s[0] == c then 1 else 0) + CountChar(s[1..], c)
  }

  lemma {:induction false} CountCharSplit(s: string, c: char, k: nat)
    requires k <= |s|
    ensures CountChar(s, c) == CountChar(s[..k], c) + CountChar(s[k..], c)
  {
    if k == 0 {
      assert s[k..] == s;
    } else {
      assert s[..k][1..] == s[1..][..k - 1];
      assert s[k..] == s[1..][k - 1..];
      CountCharSplit(s[1..], c, k - 1);
    }
  }

  lemma {:induction false} CountCharAbsent(s: string, c: char)
    requires c !in s
    ensures CountChar(s, c) == 0
  {
    if |s| > 0 {
      assert s[1..] <= s[1..];
      assert forall i :: 0 <= i < |s[1..]| ==> s[1..][i] == s[i + 1];
      CountCharAbsent(s[1..], c);
    }
  }

  /** `s.split(c)` has one more piece than `s` has occurrences of `c`. */
  lemma {:induction false} SplitOnLength(s: string, c: char)
    ensures |SplitOn(s, c)| == CountChar(s, c) + 1
    decreases |s|
  {
    var head := BeforeFirst(s, c);
    CountCharSplit(s, c, |head|);
    CountCharAbsent(head, c);
    assert s[..|head|] == head;
    if |head| < |s| {
      var rest := s[|head| + 1..];
      assert s[|head|..] == [c] + rest;
      assert CountChar(s[|head|..], c) == 1 + CountChar(rest, c);
      SplitOnLength(rest, c);
    }
  }

  // ---------------------------------------------------------------------------
  // s.replace(pat, "")

  /** Python's `s.replace(pat, rep)`: left-to-right, non-overlapping. */
  function Replace(s: string, pat: string, rep: string): string
    requires |pat| > 0
    decreases |s|
  {
    if |s| < |pat| then s
    else if s[..|pat|] == pat then rep + Replace(s[|pat|..], pat, rep)
    else [s[0]] + Replace(s[1..], pat, rep)
  }

  lemma {:induction false} ReplaceAbsent(s: string, pat: string, rep: string)
    requires |pat| > 0
    requires !Contains(s, pat)
    ensures Replace(s, pat, rep) == s
    decreases |s|
  {
    if |s| >= |pat| {
      assert s[..|pat|] != pat;
      ReplaceAbsent(s[1..], pat, rep);
      assert s == [s[0]] + s[1..];
    }
  }

  /** Removing the leading occurrence of `pat` gives back the rest. */
  lemma ReplaceLeading(pat: string, s: string)
    requires |pat| > 0
    requires !Contains(s, pat)
    ensures Replace(pat + s, pat, "") == s
  {
    assert (pat + s)[..|pat|] == pat;
    assert (pat + s)[|pat|..] == s;
    ReplaceAbsent(s, pat, "");
  }

  // ---------------------------------------------------------------------------
  // s.strip()

  function StripLeft(s: string): (r: string)
    ensures |r| <= |s|
    ensures r == s[|s| - |r|..]
    ensures |r| > 0 ==> !IsSpace(r[0])
  {
    if |s| > 0 && IsSpace(s[0]) then StripLeft(s[1..]) else s
  }

  function StripRight(s: string): (r: string)
    ensures r <= s
  {
    if |s| > 0 && IsSpace(s[|s| - 1]) then StripRight(s[..|s| - 1]) else s
  }

  /** Python's `s.strip()`. */
  function Strip(s: string): string
  {
    StripRight(StripLeft(s))
  }

  lemma StripUntrimmed(s: string)
    requires |s| > 0 ==> !IsSpace(s[0]) && !IsSpace(s[|s| - 1])
    ensures Strip(s) == s
  {
  }

  // ---------------------------------------------------------------------------
  // s.split()

  /** The first maximal run of non-space characters of `s`. */
  function TakeWord(s: string): (w: string)
    ensures w <= s
    ensures NoSpace(w)
    ensures |w| < |s| ==> IsSpace(s[|w|])
    ensures |s| > 0 && !IsSpace(s[0]) ==> |w| > 0
  {
    if |s| == 0 || IsSpace(s[0]) then "" else [s[0]] + TakeWord(s[1..])
  }

  /** Python's `s.split()` with no argument: the runs of non-space characters. */
  function Words(s: string): seq<string>
    decreases |s|
  {
    var t := StripLeft(s);
    if |t| == 0 then []
    else
      var w := TakeWord(t);
      [w] + Words(t[|w|..])
  }

  /** `" ".join(ws)`. */
  function JoinSpaces(ws: seq<string>): string
  {
    if |ws| == 0 then "" else if |ws| == 1 then ws[0] else ws[0] + " " + JoinSpaces(ws[1..])
  }

  lemma {:induction false} TakeWordPrefix(w: string, rest: string)
    requires NoSpace(w)
    requires |rest| > 0 ==> IsSpace(rest[0])
    ensures TakeWord(w + rest) == w
  {
    if |w| > 0 {
      assert (w + rest)[1..] == w[1..] + rest;
      TakeWordPrefix(w[1..], rest);
    } else {
      assert w + rest == rest;
    }
  }

  lemma WordsLeadingSpace(r: string)
    ensures Words(" " + r) == Words(r)
  {
    assert (" " + r)[1..] == r;
    assert StripLeft(" " + r) == StripLeft(r);
  }

  /** A non-empty word without spaces, followed by nothing or by a space, is
      the first word. */
  lemma WordsCons(w: string, rest: string)
    requires |w| > 0 && NoSpace(w)
    requires |rest| > 0 ==> IsSpace(rest[0])
    ensures Words(w + rest) == [w] + Words(rest)
  {
    var s := w + rest;
    assert s[0] == w[0];
    assert StripLeft(s) == s;
    TakeWordPrefix(w, rest);
    assert s[|w|..] == rest;
    if |rest| == 0 {
      assert StripLeft(rest) == rest;
    } else {
      assert rest == [rest[0]] + rest[1..];
      assert StripLeft(rest) == StripLeft(rest[1..]);
    }
  }

  /** Splitting words joined by single spaces gives the words back, provided
      none is empty or contains a space. */
  lemma {:induction false} WordsOfJoin(ws: seq<string>)
    requires forall i :: 0 <= i < |ws| ==> |ws[i]| > 0 && NoSpace(ws[i])
    ensures Words(JoinSpaces(ws)) == ws
  {
    if |ws| == 0 {
    } else if |ws| == 1 {
      WordsCons(ws[0], "");
      assert ws[0] + "" == ws[0];
    } else {
      var tail := JoinSpaces(ws[1..]);
      assert ws == [ws[0]] + ws[1..];
      assert JoinSpaces(ws) == ws[0] + (" " + tail);
      WordsCons(ws[0], " " + tail);
      WordsLeadingSpace(tail);
      WordsOfJoin(ws[1..]);
    }
  }

  /** A word in front of a non-empty list is joined to it by one space. */
  lemma JoinSpacesCons(w: string, ws: seq<string>)
    requires |ws| > 0
    ensures JoinSpaces([w] + ws) == w + " " + JoinSpaces(ws)
  {
    assert ([w] + ws)[1..] == ws;
  }

  /** Six words joined by single spaces, spelled out. */
  lemma JoinSix(a: string, b: string, c: string, d: string, e: string, f: string)
    ensures JoinSpaces([a, b, c, d, e, f]) == a + " " + b + (" " + c + " " + d + " ") + e + (" " + f)
  {
    assert JoinSpaces([f]) == f;
    JoinSpacesCons(e, [f]);
    assert [e] + [f] == [e, f];
    JoinSpacesCons(d, [e, f]);
    assert [d] + [e, f] == [d, e, f];
    JoinSpacesCons(c, [d, e, f]);
    assert [c] + [d, e, f] == [c, d, e, f];
    JoinSpacesCons(b, [c, d, e, f]);
    assert [b] + [c, d, e, f] == [b, c, d, e, f];
    JoinSpacesCons(a, [b, c, d, e, f]);
    assert [a] + [b, c, d, e, f] == [a, b, c, d, e, f];
  }

  /** Three words joined by single spaces, spelled out. */
  lemma JoinThree(a: string, b: string, c: string)
    ensures JoinSpaces([a, b, c]) == a + " " + b + " " + c
  {
    assert JoinSpaces([c]) == c;
    JoinSpacesCons(b, [c]);
    assert [b] + [c] == [b, c];
    JoinSpacesCons(a, [b, c]);
    assert [a] + [b, c] == [a, b, c];
  }

  // ---------------------------------------------------------------------------
  // ", ".join(parts)

  function Join(sep: string, parts: seq<string>): string
  {
    if |parts| == 0 then "" else if |parts| == 1 then parts[0] else parts[0] + sep + Join(sep, parts[1..])
  }

  lemma JoinFour(sep: string, a: string, b: string, c: string, d: string)
    ensures Join(sep, [a, b, c, d]) == a + sep + b + sep + c + sep + d
  {
    assert [c, d][1..] == [d];
    assert Join(sep, [c, d]) == c + sep + d;
    assert [b, c, d][1..] == [c, d];
    assert b + sep + (c + sep + d) == b + sep + c + sep + d;
    assert Join(sep, [b, c, d]) == b + sep + c + sep + d;
    assert [a, b, c, d][1..] == [b, c, d];
    assert a + sep + (b + sep + c + sep + d) == a + sep + b + sep + c + sep + d;
  }

  lemma JoinFive(sep: string, a: string, b: string, c: string, d: string, e: string)
    ensures Join(sep, [a, b, c, d, e]) == a + sep + b + sep + c + sep + d + sep + e
  {
    assert [a, b, c, d, e][1..] == [b, c, d, e];
    JoinFour(sep, b, c, d, e);
    assert a + sep + (b + sep + c + sep + d + sep + e) == a + sep + b + sep + c + sep + d + sep + e;
  }

  // ---------------------------------------------------------------------------
  // str.lower()

  function LowerChar(c: char): char
  {
    if 'A' <= c <= 'Z' then (c as int + 32) as char else c
  }

  /** `str.lower()` on the ASCII letters. */
  function ToLower(s: string): (r: string)
    ensures |r| == |s|
    ensures forall i :: 0 <= i < |s| ==> r[i] == LowerChar(s[i])
  {
    seq(|s|, i requires 0 <= i < |s| => LowerChar(s[i]))
  }

  // ---------------------------------------------------------------------------
  // str(n)

  function DigitChar(d: nat): char
    requires d < 10
  {
    "0123456789"[d]
  }

  /** `str(n)` for a natural number: its decimal digits. */
  function NatToString(n: nat): (r: string)
    ensures |r| > 0
    ensures forall i :: 0 <= i < |r| ==> '0' <= r[i] <= '9'
  {
    if n < 10 then [DigitChar(n)] else NatToString(n / 10) + [DigitChar(n % 10)]
  }

  /** `str(n)` for any integer. */
  function IntToString(n: int): string
  {
    if n < 0 then "-" + NatToString(-n) else NatToString(n)
  }

  // ---------------------------------------------------------------------------
  // Lexicographic order on strings (the `<` of a Cypher WHERE clause)

  predicate Less(a: string, b: string)
    decreases |a|
  {
    if |a| == 0 then |b| > 0
    else if |b| == 0 then false
    else if a[0] != b[0] then a[0] < b[0]
    else Less(a[1..], b[1..])
  }

  lemma {:induction false} LessIrreflexive(a: string)
    ensures !Less(a, a)
    decreases |a|
  {
    if |a| > 0 {
      LessIrreflexive(a[1..]);
    }
  }

  lemma {:induction false} LessAsymmetric(a: string, b: string)
    requires Less(a, b)
    ensures !Less(b, a)
    decreases |a|
  {
    if |a| > 0 && |b| > 0 && a[0] == b[0] {
      LessAsymmetric(a[1..], b[1..]);
    }
  }

  /** Two different strings are ordered one way or the other. */
  lemma {:induction false} LessTotal(a: string, b: string)
    requires a != b
    ensures Less(a, b) || Less(b, a)
    decreases |a|
  {
    if |a| > 0 && |b| > 0 && a[0] == b[0] {
      assert a == [a[0]] + a[1..];
      assert b == [b[0]] + b[1..];
      LessTotal(a[1..], b[1..]);
    }
  }
}

=== FILE: ValueObjects.dfy ===
/** Immutable value objects: money arithmetic, postal addresses, date ranges,
    risk scores with their own banding, detected transaction patterns,
    geographic locations and connection strengths. Validation failures and
    the ValueErrors raised by money arithmetic are `Err` results. */
module ValueObjects {
  import opened Base
  import opened Text
  import opened Entities

  // ---------------------------------------------------------------------------
  // Money

  datatype Money = Money(amount: real, currency: string)
  {
    /** The field bound: money is never negative. */
    predicate Valid()
    {
      amount >= 0.0
    }
  }

  function MakeMoney(amount: real, currency: string): (r: Result<Money>)
    ensures r.Ok? <==> amount >= 0.0
    ensures r.Ok? ==> r.value.Valid() && r.value.amount == amount && r.value.currency == currency
  {
    if amount >= 0.0 then Ok(Money(amount, currency)) else Err("amount")
  }

  /** `a + b`: only within one currency. */
  function AddMoney(a: Money, b: Money): (r: Result<Money>)
    requires a.Valid() && b.Valid()
    ensures r.Ok? <==> a.currency == b.currency
    ensures r.Ok? ==> r.value.Valid() && r.value.currency == a.currency
                      && r.value.amount == a.amount + b.amount
    ensures r.Ok? ==> r.value.amount >= a.amount && r.value.amount >= b.amount
  {
    if a.currency != b.currency then Err("Cannot add different currencies")
    else MakeMoney(a.amount + b.amount, a.currency)
  }

  /** `a - b`: only within one currency and never below zero. */
  function SubMoney(a: Money, b: Money): (r: Result<Money>)
    requires a.Valid() && b.Valid()
    ensures r.Ok? <==> a.currency == b.currency && a.amount >= b.amount
    ensures r.Ok? ==> r.value.Valid() && r.value.currency == a.currency
                      && r.value.amount + b.amount == a.amount
  {
    if a.currency != b.currency then Err("Cannot subtract different currencies")
    else if a.amount < b.amount then Err("Cannot have negative money")
    else MakeMoney(a.amount - b.amount, a.currency)
  }

  /** Subtracting what was just added gives the original amount back. */
  lemma AddThenSub(a: Money, b: Money)
    requires a.Valid() && b.Valid()
    requires AddMoney(a, b).Ok?
    ensures AddMoney(a, b).value.Valid()
    ensures SubMoney(AddMoney(a, b).value, b) == Ok(a)
  {
  }

  /** Adding back what was subtracted gives the original amount back. */
  lemma SubThenAdd(a: Money, b: Money)
    requires a.Valid() && b.Valid()
    requires SubMoney(a, b).Ok?
    ensures SubMoney(a, b).value.Valid()
    ensures AddMoney(SubMoney(a, b).value, b) == Ok(a)
  {
  }

  /** Addition within one currency does not depend on the order of operands. */
  lemma AddCommutes(a: Money, b: Money)
    requires a.Valid() && b.Valid()
    ensures AddMoney(a, b).Ok? <==> AddMoney(b, a).Ok?
    ensures AddMoney(a, b).Ok? ==> AddMoney(a, b).value.amount == AddMoney(b, a).value.amount
  {
  }

  // ---------------------------------------------------------------------------
  // Address

  datatype Address = Address(street: string, city: string, state: Option<string>,
                             postalCode: string, country: string)

  /** The parts `str(address)` joins: the state only when present and non-empty. */
  function AddressParts(a: Address): seq<string>
  {
    [a.street, a.city]
    + (if a.state.Some? && a.state.value != "" then [a.state.value] else [])
    + [a.postalCode, a.country]
  }

  /** `str(address)`: street, city, state (if any), postal code and country,
      separated by ", ". */
  function AddressText(a: Address): (r: string)
    ensures a.state.Some? && a.state.value != "" ==>
      r == a.street + ", " + a.city + ", " + a.state.value + ", " + a.postalCode + ", " + a.country
    ensures a.state.None? || a.state.value == "" ==>
      r == a.street + ", " + a.city + ", " + a.postalCode + ", " + a.country
  {
    var parts := AddressParts(a);
    if a.state.Some? && a.state.value != "" then
      assert parts == [a.street, a.city, a.state.value, a.postalCode, a.country];
      JoinFive(", ", a.street, a.city, a.state.value, a.postalCode, a.country);
      Join(", ", parts)
    else
      assert parts == [a.street, a.city, a.postalCode, a.country];
      JoinFour(", ", a.street, a.city, a.postalCode, a.country);
      Join(", ", parts)
  }

  // ---------------------------------------------------------------------------
  // DateRange

  datatype DateRange = DateRange(start: Time, end: Time)
  {
    predicate Valid()
    {
      start <= end
    }

    /** Inclusive at both ends. */
    predicate Contains(t: Time)
    {
      start <= t <= end
    }

    /** Whole days from start to end, as `timedelta.days`. */
    function DurationDays(): int
    {
      DaysBetween(start, end)
    }
  }

  /** Building a range rejects an end before the start. */
  function MakeDateRange(start: Time, end: Time): (r: Result<DateRange>)
    ensures r.Ok? <==> start <= end
    ensures r.Ok? ==> r.value.Valid() && r.value.start == start && r.value.end == end
  {
    if end < start then Err("end_date must be after start_date") else Ok(DateRange(start, end))
  }

  /** A valid range contains both of its ends, nothing outside them, and
      lasts a non-negative number of days. */
  lemma DateRangeBounds(r: DateRange, t: Time)
    requires r.Valid()
    ensures r.Contains(r.start) && r.Contains(r.end)
    ensures t < r.start || t > r.end ==> !r.Contains(t)
    ensures r.DurationDays() >= 0
  {
  }

  // ---------------------------------------------------------------------------
  // RiskScore

  datatype RiskScore = RiskScore(score: real, factors: seq<string>, calculatedAt: Time)
  {
    predicate Valid()
    {
      0.0 <= score <= 100.0
    }
  }

  function MakeRiskScore(score: real, factors: seq<string>, now: Time): (r: Result<RiskScore>)
    ensures r.Ok? <==> 0.0 <= score <= 100.0
    ensures r.Ok? ==> r.value.Valid() && r.value.score == score && r.value.factors == factors
  {
    if 0.0 <= score <= 100.0 then Ok(RiskScore(score, factors, now)) else Err("score")
  }

  /** `RiskScore.risk_level`: the 30 / 60 / 85 banding. */
  function ScoreLevel(score: real): (l: RiskLevel)
    ensures l == Low <==> score < 30.0
    ensures l == Medium <==> 30.0 <= score < 60.0
    ensures l == High <==> 60.0 <= score < 85.0
    ensures l == Critical <==> 85.0 <= score
  {
    if score < 30.0 then Low
    else if score < 60.0 then Medium
    else if score < 85.0 then High
    else Critical
  }

  /** A higher score never lands in a lower band. */
  lemma ScoreLevelMonotone(s1: real, s2: real)
    requires s1 <= s2
    ensures ScoreLevel(s1).Rank() <= ScoreLevel(s2).Rank()
  {
  }

  // ---------------------------------------------------------------------------
  // TransactionPattern

  datatype TransactionPattern = TransactionPattern(patternType: string, confidence: real,
                                                   evidence: seq<string>, detectedAt: Time)
  {
    predicate Valid()
    {
      0.0 <= confidence <= 1.0
    }
  }

  function MakePattern(patternType: string, confidence: real, evidence: seq<string>,
                       now: Time): (r: Result<TransactionPattern>)
    ensures r.Ok? <==> 0.0 <= confidence <= 1.0
    ensures r.Ok? ==> r.value.Valid() && r.value.patternType == patternType
                      && r.value.confidence == confidence && r.value.evidence == evidence
  {
    if 0.0 <= confidence <= 1.0 then Ok(TransactionPattern(patternType, confidence, evidence, now))
    else Err("confidence")
  }

  // ---------------------------------------------------------------------------
  // GeographicLocation

  datatype GeographicLocation = GeographicLocation(latitude: Option<real>, longitude: Option<real>,
                                                   city: string, country: string, countryCode: string)

  /** Latitude must lie in [-90, 90] and longitude in [-180, 180]; an absent
      coordinate is accepted. */
  function MakeLocation(latitude: Option<real>, longitude: Option<real>, city: string,
                        country: string, countryCode: string): (r: Result<GeographicLocation>)
    ensures r.Ok? <==> (latitude.None? || -90.0 <= latitude.value <= 90.0)
                       && (longitude.None? || -180.0 <= longitude.value <= 180.0)
    ensures r.Ok? ==> r.value.latitude == latitude && r.value.longitude == longitude
  {
    if latitude.Some? && !(-90.0 <= latitude.value <= 90.0) then
      Err("Latitude must be between -90 and 90")
    else if longitude.Some? && !(-180.0 <= longitude.value <= 180.0) then
      Err("Longitude must be between -180 and 180")
    else Ok(GeographicLocation(latitude, longitude, city, country, countryCode))
  }

  // ---------------------------------------------------------------------------
  // ConnectionStrength

  datatype ConnectionStrength = ConnectionStrength(strength: real, basis: seq<string>,
                                                   firstObserved: Time, lastObserved: Time)
  {
    predicate Valid()
    {
      0.0 <= strength <= 1.0
    }

    predicate IsStrong()
    {
      strength > 0.7
    }

    predicate IsWeak()
    {
      strength < 0.3
    }
  }

  function MakeConnectionStrength(strength: real, basis: seq<string>, first: Time,
                                  last: Time): (r: Result<ConnectionStrength>)
    ensures r.Ok? <==> 0.0 <= strength <= 1.0
    ensures r.Ok? ==> r.value.Valid() && r.value.strength == strength
  {
    if 0.0 <= strength <= 1.0 then Ok(ConnectionStrength(strength, basis, first, last))
    else Err("strength")
  }

  /** No connection is both strong and weak; one in [0.3, 0.7] is neither. */
  lemma StrongWeakExclusive(c: ConnectionStrength)
    ensures !(c.IsStrong() && c.IsWeak())
    ensures 0.3 <= c.strength <= 0.7 ==> !c.IsStrong() && !c.IsWeak()
  {
  }
}
